=== FILE: README.md ===
# velbusjs dashboard core in Dafny

This project models the core of velbusjs. velbusjs is a browser dashboard for Velbus building-automation modules. It draws floor maps with relay, dimmer, blind and input controls on them. It keeps a local mirror of the server's module states, fed by JSON Patch batches over a WebSocket. User actions go back to the server as HTTP requests.

The model covers six parts:

- **utils.js**: `default_value`, `shallow_copy`, `String.prototype.rsplit`, `to_custom_bases`, `seconds_to_dhms`, `parse_duration`.
- **App.js**:
  - the listener registry (`addWebSocketListener` / `removeWebSocketListener`);
  - connecting, and the `onopen`, `onmessage` and `onclose` handlers;
  - the reconnect back-off;
  - the `activeElement` routing;
  - the choice of component for a control.
- **The JSON Patch operations the App applies**: add, remove and replace on the mirror, per section 4 of RFC 6902, with paths read as JSON Pointers per RFC 6901.
- **The controls** (Relay, RelayDali, Dimmer, Blind, Input):
  - their constructor guards and icon sets;
  - the handling of module updates;
  - icon states and pop-up texts;
  - the HTTP requests they issue.
- **TimeoutInput**: what each edit stores, and its validity class.
- **FloorMap**: child routing and the picture it shows.

How the modules are laid out:

- JavaScript values are one datatype, `Js.Value`.
- A thrown exception is `Completion.Throw`.
- The App is a state machine, `App.State`. Its side effects are an append-only log of `Effect`s: batches sent, listener calls and scheduled reconnects.
- Listeners and sockets are data:
  - a listener is a number;
  - a socket is its ready state;
  - the order in which `for…in` visits keys is a parameter.

## Model

| member | source | states |
|---|---|---|
| Utils.DefaultValue | src/utils.js:1-7 | the value itself unless it is `undefined`, else the default; the result is `undefined` exactly when both are |
| Utils.DefaultValueIdempotent | src/utils.js:1-7 | applying the default twice is applying it once |
| Utils.ShallowCopy | src/utils.js:9-17 | always an object; every copied key reads as in the original; an object's copy has exactly its keys, an array's copy has every index, a primitive without own properties copies to `{}` |
| Utils.SliceIndex | src/utils.js:22 | the index `slice` uses: within the length, counted from the end for a negative argument and clamped at both ends |
| Utils.RSplit | src/utils.js:19-23 | joining the pieces with the separator gives back the string; a zero `maxsplit`, or one at least the number of pieces, is a plain split; otherwise `maxsplit + 1` pieces: the last `maxsplit` pieces of the split, after the rest joined back together |
| Utils.RSplitWithoutSeparator | src/utils.js:19-23 | a string without the separator is not split |
| Duration.ToCustomBases | src/utils.js:25-46 | the sign is 1 exactly for a non-negative number, else -1; the digits recompose to the magnitude in the given bases; each digit after the first is below its base |
| Duration.DayHourMinuteSecond | src/utils.js:25-46 | for bases 24, 60, 60: days·86400 + hours·3600 + minutes·60 + seconds is the magnitude, with hours below 24 and minutes and seconds below 60 |
| Duration.DhmsDigits | src/utils.js:49 | the four day/hour/minute/second digits weigh up to the magnitude and stay within their bases |
| Duration.LeadingZeros | src/utils.js:52-56 | the number of leading zero units dropped: all of them zero, never the last unit, and the first unit kept is non-zero unless it is the last |
| Duration.SecondsToDhms | src/utils.js:48-62 | starts with "-" exactly for a negative number of seconds, and always ends with the unit "s" |
| DurationRoundTrip.ParseFormatted | src/utils.js:48-116 | parsing what `seconds_to_dhms` formats gives back the magnitude of the number of seconds |
| DurationRoundTrip.MagnitudeParses | src/utils.js:57-61 | the unsigned "…d …h …m …s" text parses to the number of seconds it was made from |
| DurationRoundTrip.BodyParses | src/utils.js:79-112 | every rendered unit piece is one regex match, weighted by its unit's multiplier |
| DurationExamples.ZeroSeconds | src/utils.js:52-56 | zero seconds keeps its last unit: "0s" |
| DurationExamples.MinusSixtyFive | src/utils.js:48-62 | -65 seconds renders as "-1m 5s" |
| DurationExamples.OneHour | src/utils.js:52-61 | only leading zeros are dropped: 3600 renders as "1h 0m 0s" |
| DurationExamples.HourAndAHalf | src/utils.js:79-115 | "1h30m" parses to 5400 seconds |
| DurationExamples.TwoAdjacentPieces | src/utils.js:79 | two pieces written together without a space are both matched |
| DurationExamples.NoTokenThrows | src/utils.js:79-83 | a text without any duration piece, and the empty text, make the function throw |
| DurationExamples.NotAString | src/utils.js:76 | a non-string gives `undefined` |
| Duration.Tokens | src/utils.js:79 | every match has a non-empty run of decimal digits and one of the listed unit words |
| Duration.ParseDurationText | src/utils.js:79-115 | a result exactly when the text holds at least one match; it is the weighted sum of the matches |
| Duration.ParseDuration | src/utils.js:64-116 | a non-string gives `undefined`; a string throws exactly when it has no match; otherwise a non-negative number |
| Duration.SwitchCoversAlternatives | src/utils.js:79-111 | the switch has a multiplier for exactly the unit words the regex lists, so its default branch is unreachable |
| Duration.UnitWordIsMatch | src/utils.js:79 | a unit alternative followed by no letter or quote is exactly the word of unit characters at that point |
| Duration.PickUnitIsRegexUnit | src/utils.js:79 | the unit picked by the longest word equals the unit the regex alternation picks |
| Duration.MatchedUnitsAgree | src/utils.js:79 | two unit alternatives that both match at a point are the same word |
| Duration.NoAlternativeNoWord | src/utils.js:79 | when no alternative matches, the unit word there is not a listed unit |
| Control.AddressAccepted | src/Relay.js:25-32 | acceptance implies the property exists, is object-like, has length 2, and its element 1 compares neither below the lowest channel nor above the highest |
| Control.GuardOnArrays | src/Relay.js:25-32 | for an array of two numbers, the guard accepts exactly the channel numbers in range; a missing property, a primitive or an array of another length is refused |
| Control.GuardLetsNaNThrough | src/Relay.js:28-29 | on a two-element array, a channel that converts to NaN (`undefined`, an object, a non-numeric string) passes the guard; one that converts to a number (`null`, a boolean, a digit string) passes exactly when that number is in range |
| Control.ModuleOf | src/Relay.js:58 | the module address is element 0 of the address |
| Control.ChannelNumber | src/Relay.js:49 | the channel is element 1 of the address |
| Control.IconParts | src/Relay.js:34-38 | a non-string icon throws; a dot-free name gets extension "svg"; otherwise name and dot-free extension rejoin with a dot to the icon text |
| Control.IconSplit | src/Relay.js:35-36 | `rsplit('.', 1)` gives one piece exactly when there is no dot, else the parts before and after the last dot |
| Control.LastDotUnique | src/Relay.js:35 | a text splits at its last dot in only one way |
| Control.IconOfNameAndExtension | src/Relay.js:34-38 | "name.ext" with a dot-free extension comes apart as that name and extension, whatever dots the name has |
| Control.ConstructControl | src/Relay.js:25-38 | constructs exactly when the address guard passes and the icon is a string, and the icon set is then the icon split |
| Control.TypicalConstruct | src/Relay.js:25-38 | with a two-number array address and no icon: the default set with "svg" when the channel is in range, a throw otherwise |
| Control.ChannelOf | src/Relay.js:49-50 | reading from `undefined` or `null` throws; a missing channel is `{}`; a present one is its value |
| Control.Receive | src/Relay.js:41-64 | a `null` update changes nothing; an `undefined` update or a `null` channel state throws; an empty channel state GETs the channel's field; an object channel state is merged into the state |
| Control.ReceiveKeepsOtherFields | src/Relay.js:63 | receiving keeps every earlier field, and receiving the same update again changes nothing |
| Control.SetStateIdempotent | src/Relay.js:63 | merging the same partial state twice is merging it once |
| Control.Since | src/Relay.js:133-138 | "unknown" exactly when there is no usable `last_change`; otherwise the time since it, followed by " ago" |
| Control.SinceShown | src/RelayDali.js:81-86 | a counting timer from `last_change` when there is one that is not `null`, else "unknown" |
| Control.SinceViewsAgree | src/Input.js:122-127 | the timer view and the text view agree on when the last change is unknown |
| Relay.Construct | src/Relay.js:20-39 | constructs exactly when the guard with channels 1..5 passes and the icon (default "light") is a string; a typical address gives "light"/"svg" exactly for channels 1..5 |
| Relay.IconState | src/Relay.js:75-80 | "on" or "off" exactly for a boolean relay value, "timer" exactly for a number, nothing for any other value |
| Relay.UpdateShowsOnIcon | src/Relay.js:41-80 | after an update that carries the channel's relay value, the icon shows the state of that value and nothing is fetched |
| Relay.StateText | src/Relay.js:120-131 | text exactly for a boolean or a number: "on"/"off", or "on for " followed by the time left, which is negative once the time has passed and parses back to the absolute number of seconds left |
| Relay.TimeLeftText | src/Relay.js:124-127 | the timed text is "on for " and then the formatted time left, which starts with "-" exactly for a negative time and parses back to its magnitude |
| Relay.SwitchTarget | src/Relay.js:149-155 | the entered timeout when there is one, else the boolean negation of the relay value |
| Relay.SwitchToggles | src/Relay.js:149-155 | without a timeout, switching twice restores a boolean relay, and a running timer is switched off |
| Relay.SwitchRequest | src/Relay.js:149-168 | a PUT of the relay field of the control's own module and channel, with the switch target as its body |
| RelayDali.Construct | src/RelayDali.js:23-33 | constructs exactly when the relay constructor does and the DALI address passes the guard with numbers 1..96; without a DALI address it throws |
| RelayDali.DimRequest | src/RelayDali.js:58-71 | the slider's value is PUT to the dim value of the DALI module and number |
| RelayDali.SwitchAndSliderDiffer | src/RelayDali.js:57-71 | the switch writes the relay of `address` and the slider writes the dim value of `dali_address` |
| Dimmer.Construct | src/Dimmer.js:20-39 | constructs exactly when the guard with channels 1..4 passes and the icon (default "light") is a string |
| Dimmer.IconState | src/Dimmer.js:74-82 | "off" exactly for the number 0, "on" exactly for 100, "dimmed" for anything else |
| Dimmer.InitiallyOff | src/Dimmer.js:22-24 | a new dimmer shows the "off" icon |
| Dimmer.Open | src/Dimmer.js:99-107 | the pop-up's state holds just the dim value, copied from its props |
| Dimmer.StepAsWritten | src/Dimmer.js:102-135 | new props replace the props and copy the new dim value; the constructor's deferred call copies the construction-time dim value and keeps the current props; both refresh "since" from the props held before; a tick refreshes "since" only |
| Dimmer.Step | src/Dimmer.js:102-135 | with the deferred call passing the current props, it keeps the props and leaves the pop-up mirroring them; the other events are as written |
| Dimmer.AlwaysMirrors | src/Dimmer.js:99-135 | with the corrected deferred call, after construction and any sequence of events, the pop-up's dim value is its current prop |
| Dimmer.AsWrittenMirrorsWhenTimerFirst | src/Dimmer.js:99-135 | as written, the pop-up mirrors its prop whenever the deferred call fires before any prop update and no other deferred call follows |
| Dimmer.StaleAfterEarlyUpdate | src/Dimmer.js:102-106 | as written, a prop update before the deferred call leaves the new props with the construction-time dim value, so the pop-up no longer mirrors; the corrected call keeps mirroring |
| Dimmer.DimRequest | src/Dimmer.js:137-150 | the slider's value is PUT to the dim value of the dimmer's own module and channel |
| Dimmer.UpdateShowsDimValue | src/Dimmer.js:41-82 | an update with the channel's dim value sets the icon for that value and fetches nothing |
| Blind.Construct | src/Blind.js:24-47 | constructs exactly when the guard with channels 1..2 passes, the icon (default "blind") is a string and the blind registers with `registerAllBlinds` |
| Blind.IconState | src/Blind.js:97-111 | a moving motor shows its direction; a stopped one shows up for 0, down for 100, partial otherwise |
| Blind.Command | src/Blind.js:150-156 | the up button sends "up", the down button "down" and the stop button "stop" |
| Blind.CommandsDistinct | src/Blind.js:97-156 | different buttons send different words, and "up" and "down" are the statuses the icon shows as moving |
| Blind.RoundedText | src/Blind.js:153 | the whole-number text of the position; `null` reads as "0" and `undefined` as "NaN" |
| Blind.PanelControls | src/Blind.js:144-159 | status "off" offers up and down and "…% down"; any other status offers stop and "moving …" |
| Blind.IconAndPanelAgree | src/Blind.js:97-159 | a moving icon comes with the stop button, and the up and down buttons come with a resting icon |
| Blind.InitialView | src/Blind.js:26-29 | a fresh blind shows a partial icon and "moving null" with a stop button |
| Blind.PositionRequest | src/Blind.js:82-95 | the command is PUT to the position of the blind's own module and channel |
| Blind.EmptyChannelFetchesPosition | src/Blind.js:57-71 | an update without the blind's channel asks the server for the position and keeps the state |
| Input.Construct | src/Input.js:27-46 | constructs exactly when the guard with channels 1..6 passes and the icon (default "light") is a string |
| Input.Inverting | src/Input.js:23-25 | a missing `invert` prop means no inversion; a given one counts by its truthiness |
| Input.OnOff | src/Input.js:88-89 | "on" exactly for a truthy input |
| Input.Negated | src/Input.js:74 | the boolean negation of the input's truthiness |
| Input.PutBack | src/Input.js:74 | the update with the channel object at the key replaced |
| Input.ReceiveAsWritten | src/Input.js:48-78 | without `invert` it is the plain update handling and leaves the update untouched |
| Input.ReceiveFixed | src/Input.js:48-78 | without `invert` it is the plain update handling; with it, a channel's `input` is shown negated, from a copy |
| Input.AsWrittenInvertsTheUpdate | src/Input.js:72-77 | one delivery as written shows what the corrected handling shows, and leaves the shared update inverted |
| Input.SecondListenerSeesRawInput | src/Input.js:72-77 | as written, a second delivery of the same update flips `input` back and shows the raw value |
| Input.OneInvertedDelivery | src/Input.js:72-77 | one delivery as written of `{input: b}` shows `!b` and leaves `{input: !b}` in the update |
| Input.EveryListenerSeesInvertedInput | src/Input.js:72-77 | corrected: an inverted control always shows the negated input, however often the update arrives |
| TimeoutInput.OnChange | src/TimeoutInput.js:18-40 | the text is kept as typed; empty text is neither valid nor invalid and passes `null`; text with a duration is valid and passes its seconds; other text is invalid and passes `null` |
| TimeoutInput.ValidityClass | src/TimeoutInput.js:42-50 | "empty", "valid" and "invalid" exactly for `null`, `true` and `false` |
| TimeoutInput.ClassMatchesEmitted | src/TimeoutInput.js:18-56 | the class is "valid" exactly when seconds were passed on, "empty" exactly for empty text, and "invalid" exactly for text without a duration |
| TimeoutInput.DisplayedDurationAccepted | src/TimeoutInput.js:18-40 | typing back a duration as the pop-ups display it is valid and passes its number of seconds |
| TimeoutInput.WordsAreInvalid | src/TimeoutInput.js:28-38 | a word without a count is invalid |
| Routing.Prefixed | src/FloorMap.js:5-10 | the reported path starts with the child's index, followed by the child's sub-path, or by nothing when it has none |
| Routing.Route | src/FloorMap.js:18-20 | a child gets a path exactly when the active path starts with its index, and it gets the rest of that path |
| Routing.RouteOfPrefixed | src/FloorMap.js:5-20 | a reported path comes back to the child that reported it, and to no other |
| Routing.PrefixedOfRoute | src/FloorMap.js:5-20 | a child handed a path got it from its own prefixed path |
| Routing.AtMostOneRoute | src/FloorMap.js:18-20 | at most one child gets the path |
| Routing.EmptyPathOpensNothing | src/App.js:21-24 | the empty start path and `null` open no child |
| FloorMap.Activate | src/FloorMap.js:5-10 | the path starts with the control's position, and routing it hands the control its sub-path |
| FloorMap.ChildActive | src/FloorMap.js:13-20 | a control is active exactly when the path starts with its position, and that path is its own report |
| FloorMap.OnlyTheActivatedChild | src/FloorMap.js:13-20 | no other control gets the path |
| FloorMap.Iterated | src/FloorMap.js:31 | an array iterates over its items; anything but an array or a string is not iterable |
| FloorMap.SourcesOf | src/FloorMap.js:30-33 | succeeds exactly when no entry is `undefined` or `null`, giving one source per entry with its `srcset` and `media` |
| FloorMap.PictureOf | src/FloorMap.js:24-40 | a string is the image alone; an object gives its sources then its image, when its `sources` are iterable and readable; every other type throws |
| FloorMap.SourcesInOrder | src/FloorMap.js:29-37 | a list of source objects gives one source per entry, in order |
| JsonPatch.Pointer | src/App.js:125 | "" is the root; a non-empty path not starting with "/" is invalid; otherwise the tokens are the pieces after the first "/" |
| JsonPatch.PointerOfKey | src/App.js:55 | "/" plus a key without "/" points at that key |
| JsonPatch.AddAt | src/App.js:125 | add sets an object member, appends for "-" or inserts at an index up to the length of an array, and fails anywhere else |
| JsonPatch.RemoveAt | src/App.js:125 | remove succeeds exactly when the target exists |
| JsonPatch.ReplaceAt | src/App.js:125 | replace succeeds exactly when the target exists |
| JsonPatch.Leaf | src/App.js:125 | an unknown operation fails, and an object stays an object |
| JsonPatch.ApplyAt | src/App.js:125 | applying below a key changes no other key |
| JsonPatch.Apply | src/App.js:125 | an invalid path fails; the root path leaves the mirror as it is; only the first token's key can change; an unknown operation below the root fails |
| JsonPatch.ApplyMember | src/App.js:125 | add sets the member, remove deletes an existing one, replace overwrites an existing one; remove and replace of a missing member fail |
| JsonPatch.AddThenRemove | src/App.js:125 | adding a new member and removing it restores the mirror |
| JsonPatch.ApplyAllAppend | src/App.js:120-126 | applying two batches one after the other is applying their concatenation |
| JsonPatch.FailedAt | src/App.js:120-126 | a failed batch fails at one operation: the ones before it applied, and the mirror is left as they left it |
| JsonPatch.UntouchedKept | src/App.js:120-126 | a key no operation touches keeps its presence and value |
| App.HexKey | src/App.js:49 | the key is non-empty, in base-16 digits, and has no "/" |
| App.HexKeyInjective | src/App.js:49 | two modules have the same key exactly when they are the same module |
| App.SubscriptionOpsNameTheKey | src/App.js:54-57 | the add and remove operations point at the module's key, and the add sets it to `true` |
| App.Subscribe | src/App.js:45-67 | the key is registered and the listener joins it, other keys and fields unchanged; the add is sent exactly for a new key on an open socket; the listener is called exactly when the mirror has a state for the key |
| App.SubscribeEffects | src/App.js:50-66 | at most the add batch and one call of the new listener with the key's mirrored state |
| App.UnsubscribeAsWritten | src/App.js:68-81 | always throws: a `Set` has no `remove` method, and a key never subscribed reads `undefined` |
| App.Without | src/App.js:70 | the listener is gone, every other one stays, in order and still distinct |
| App.Unsubscribe | src/App.js:68-81 | corrected: the listener leaves its key; a key left empty is deleted and, on an open socket, the remove is sent; all else is unchanged |
| App.RegistrationKept | src/App.js:45-81 | subscribing and unsubscribing keep every registered key non-empty, with distinct listeners |
| App.SubscribeThenUnsubscribe | src/App.js:45-81 | corrected: a first listener leaving restores the registry, with add then remove sent on an open socket; as written, leaving throws |
| App.Connect | src/App.js:89-96 | the mirror is emptied and a new socket starts connecting |
| App.NoStaleReplay | src/App.js:63-66 | after a reconnect, a new listener is not called with a state from before it |
| App.Adds | src/App.js:102-110 | one add operation per key, in the given order |
| App.Enumerate | src/App.js:104 | some order visits every key of the registry exactly once |
| App.EnumerationSize | src/App.js:104-110 | an enumeration is as long as the set of keys |
| App.OnOpen | src/App.js:98-114 | online, back-off 500 ms, socket open, and exactly one batch sent: one add per registered key, each key once |
| App.AddsOfEnumeration | src/App.js:102-110 | the batch for an enumeration has one distinct add per key and nothing else |
| App.KeyOfPath | src/App.js:123 | the key of a path is its pointer's first token |
| App.TouchedKeys | src/App.js:119-124 | each key once, and exactly the keys of the batch's paths |
| App.NotesFor | src/App.js:128-130 | each listener of the key is called once, in order, with the key's state |
| App.Fanout | src/App.js:127-131 | every call goes to a listener of a touched key, with that key's mirrored state |
| App.FanoutAsWritten | src/App.js:127-131 | throws exactly when some touched key has no listeners; otherwise makes the same calls as the corrected fan-out |
| App.AsWrittenStopsAtUnlistenedKey | src/App.js:127-131 | as written, the calls stop at the first touched key nobody listens to |
| App.OnMessageAsWritten | src/App.js:116-133 | the batch is applied op by op; a failing operation throws before any call; otherwise the calls are those of the as-written fan-out |
| App.OnMessage | src/App.js:116-133 | corrected: throws exactly when the patch fails, and then calls nobody; only listeners of touched keys are called, with the key's new state |
| App.AgreeWhenAllListened | src/App.js:116-133 | when every touched key has listeners, the as-written and corrected handlers agree |
| App.NotesCount | src/App.js:128-130 | with distinct listeners, each listener of the key is called once |
| App.FanoutCount | src/App.js:127-131 | with distinct keys, each listener of a touched key is called exactly once, and nobody else |
| App.NotifiedOnce | src/App.js:116-133 | corrected: a listener is called once with the new state of a touched key it listens to, and never otherwise |
| App.UntouchedKeysKeepState | src/App.js:120-126 | a key the batch does not touch keeps its state |
| App.TwoAdds | src/App.js:120-126 | two adds on different top-level keys set both keys and touch both, in order |
| App.FanoutPastUnlistened | src/App.js:127-131 | corrected: the fan-out skips a key without listeners and calls the listener of the next key |
| App.UnlistenedKeyHidesUpdates | src/App.js:116-133 | as written, an update for an unlistened module throws and no later listener is called; corrected, the later listener gets its state |
| App.OnClose | src/App.js:135-142 | offline and closed; from a back-off in range it schedules a reconnect after that delay and doubles the back-off, capped at 5000; an unset back-off gives NaN and an immediate retry |
| App.Step | src/App.js:35-142 | the log only grows; a close is `onclose`; an open sets the back-off to 500 ms; nothing else changes the back-off |
| App.OnlyCloseSchedules | src/App.js:135-142 | only a close schedules a reconnect |
| App.StepBacksOff | src/App.js:98-142 | from a back-off in range, every event keeps it in range, and any scheduled delay is from 500 to 5000 ms |
| App.RetriesBackOff | src/App.js:98-142 | from a back-off in range, every scheduled reconnect of any run waits 500 to 5000 ms |
| App.FixedInitialBacksOff | src/App.js:19-33 | corrected: starting with a 500 ms back-off, every reconnect of any run waits 500 to 5000 ms |
| App.BackoffAfterOpen | src/App.js:98-142 | as written, once the socket has opened, every later reconnect waits 500 to 5000 ms |
| App.RetriesBeforeOpenAreImmediate | src/App.js:19-33 | as written, a socket that closes before it ever opened retries at once, and so does every following retry |
| App.ActivateChild | src/App.js:35-40 | the active path routes the reported sub-path back to the map at `index`; nothing else changes |
| App.Deactivate | src/App.js:41-43 | nothing is active, and nothing else changes |
| App.MapActive | src/App.js:171-174 | a map gets the path exactly when it starts with the map's index, and it gets the rest of that path |
| App.ControlGetsItsPath | src/App.js:166-199 | the path a control reports through its map comes back to that control only |
| App.NothingOpen | src/App.js:21-43 | no map is active at start or after a click |
| App.ComponentFor | src/App.js:12-16 | relay, dimmer and blind each get their own component exactly for their type text; every other type gets Unknown |
| App.InputsAreUnknown | src/App.js:184-187 | input and relaydali controls are rendered as unknown controls |
| App.MountBlindAsWritten | src/App.js:179-188 | a blind the App renders always throws, because its props carry no `registerAllBlinds` |
| App.MountBlind | src/App.js:179-188 | once `registerAllBlinds` is passed, a blind mounts exactly when its address guard passes and its icon is a string, with the icon split as its icon set |
| App.BlindOnChannelOne | src/App.js:179-188 | a blind on channel 1 without an icon gets the blind component; it throws as written and shows the default "blind" icon set when corrected |

## Left out

- I/O is not modelled. WebSocket frames, XMLHttpRequest, timers and the React render cycle become data, listed below:
  - a request is a `Request` value;
  - a listener call or a scheduled reconnect is an `Effect`;
  - a socket event is an `App.Event`.
- `JSON.stringify` and `JSON.parse` are not modelled: batches are modelled after parsing.
- Listener exceptions are not modelled: a called listener is a log entry, and its own failure is not modelled.
- `calculateTimeOffset` (src/App.js:145-158) is left out, with the clock offset it sets. It is wall-clock and network work, so "now" is a parameter in seconds on the server's clock.
- Numbers are integers; floating point is left out. This affects:
  - `Math.round` and fractional durations;
  - `parseInt` precision past 2^53;
  - the fractional remainders `to_custom_bases` can return.
- Duration.ToCustomBases: takes integer input, so the fractional last digit of the comment's example is not modelled.
- `address_to_hex` is abstracted: a `Request` records its argument `address[0]` as `unit`. In the source as given the call fails, because src/utils.js does not export `address_to_hex`.
- `ToNumber` reads "" as 0 and a string of decimal digits as its value. Other strings (whitespace, signs, hex, exponents), arrays and objects give NaN. The conversion is used in four places:
  - the address guard (`Control.AddressAccepted`);
  - `Math.round(position)` (`Blind.RoundedText`);
  - `now - last_change` (`Control.Since`);
  - the `isNaN` test on a parsed duration (`TimeoutInput.OnChange`).

  In the last three the value is a number: the server sends positions and times as numbers, and `parse_duration` returns one. For numbers the conversion is exact. A string such as "-5" in those places would read as NaN in the model, where JavaScript reads -5.
- JSON Pointer `~0`/`~1` unescaping is left out, since module keys are hex digits. The JSON Patch operations `move`, `copy` and `test` are left out: the App's own batches use only add and remove, and module updates are modelled as add, remove and replace.
- JsonPatch.Apply: follows section 4 of RFC 6902, where replace and remove of a missing member fail. How lenient the patch library is, beyond that, is not modelled.
- App.OnOpen: the `for…in` key order is a parameter. The contract holds for any order that lists each key once.
- Blind.Construct: whether `props.registerAllBlinds` is a function is the boolean parameter `registers`, since functions are not values of this model. What the App passes is under Findings.
- Control.SinceShown: the RelayDali and Input pop-ups show a counting `Timer` component; src/Timer.js is not part of this model. Only its starting point is modelled.
- src/Range.js, src/Unknown.js, src/Timer.js and src/index.js are not part of this model. They are a slider, a placeholder, a clock display and the mount point.
- `componentWillUnmount` and the socket close at unmount are left out: nothing after unmount is modelled.
- Styles, the offline background and the prop plumbing of `render` are left out. Only the routing of `activeElement` and the component choice are modelled.
- App.ComponentFor: names inherited from `Object.prototype` are not modelled. A control type such as "constructor" would find a function on the prototype.
- App.HexKey: takes natural numbers only. A negative address would give "-…".

Facts about the code that the model keeps as written:

- Patch batches are not atomic. src/App.js:120-126 applies operations one at a time with no rollback, and `App.OnMessageAsWritten` does the same. `JsonPatch.FailedAt` states what a failure leaves behind.
- Registry keys are unpadded `toString(16)` (src/App.js:49), and so is `App.HexKey`.
- `control_components` maps only relay, dimmer and blind (src/App.js:12-16), and the lookup at src/App.js:184-187 falls back to `Unknown`. Input and relaydali controls are therefore drawn as `Unknown`, as `App.InputsAreUnknown` states.
- src/RelayDali.js:1 imports `Relay` and `RelayControl` as named exports. src/Relay.js does not export them under those names. The model still gives RelayDali the relay behaviour it extends. Its render classifies the relay value at src/RelayDali.js:36-41 with the same tests as src/Relay.js:75-80, so `Relay.IconState` is RelayDali's icon state too.
- `DimmerControl.componentWillReceiveProps` computes "since" from the props it had before the update, and `Dimmer.StepAsWritten` models exactly that.

## Findings

| source | as written | input that shows it | evidently intended | confidence | as-written member | corrected member |
|---|---|---|---|---|---|---|
| src/App.js:68-81 | `ws_listeners[key].remove(cb)` calls a method `Set` does not have (it has `delete`). The test `ws_listeners.length === 0` reads a property the registry does not have. | any unsubscription, for example module 0x12 after one subscription | remove the listener; drop an emptied key and send the remove operation | not executed | App.UnsubscribeAsWritten | App.Unsubscribe |
| src/App.js:19-33 | `ws_timeout` is first set in `onopen`. A socket that closes before ever opening schedules the reconnect after `undefined` ms, and `Math.min(undefined * 2, 5000)` is NaN, so every retry is immediate. | the server is down at start: events Dial, Dropped, Dial, Dropped | start with a 500 ms back-off | not executed | App.RetriesBeforeOpenAreImmediate | App.FixedInitialBacksOff |
| src/App.js:127-131 | `for (cb of ws_listeners[key])` throws for a touched key without listeners. The whole fan-out stops, so later keys' listeners miss their update. | listener only on "11"; batch adds "/12" then "/11" | skip keys without listeners | not executed | App.UnlistenedKeyHidesUpdates | App.OnMessage |
| src/Input.js:72-77 | with `invert`, `my_state['input']` is negated inside the update object that every listener of the module shares. A second inverted listener on the same channel flips it back. | latent in this App: src/App.js:12-16 has no entry for input, so the App never mounts an Input (`App.InputsAreUnknown`). Under a host that mounts inverted inputs and hands them a shared update object, two inverted inputs on channel 1 and the update `{1: {input: true}}` show it: the second flips `input` back. One inverted input shows it too if the host keeps the update object and delivers it again on a later update that leaves `input` alone | negate in a copy | not executed | Input.SecondListenerSeesRawInput | Input.EveryListenerSeesInvertedInput |
| src/Dimmer.js:102-106 | the pop-up's constructor schedules `componentWillReceiveProps(props)` with the props it was built with. The direct call writes that old `dimvalue` into the state and does not replace `this.props`. | open the pop-up with dim value 0; an update to 50 arrives before the zero-delay timeout fires; the slider then shows 0 under props saying 50 | the deferred call reads the current props | not executed | Dimmer.StaleAfterEarlyUpdate | Dimmer.AlwaysMirrors |
| src/Blind.js:46 | the constructor calls `this.props.registerAllBlinds(…)`, but the props src/App.js:179-182 builds never include it, so every blind the App renders throws | a control `{type: "blind", address: [m, 1]}` | the App passes a `registerAllBlinds` function | not executed | App.MountBlindAsWritten | App.MountBlind |

=== FILE: app.dfy ===
/** The App of src/App.js as a state machine: the registry of listeners per
    module, the mirror of the module states kept up to date by patches from
    the server, the web socket's life cycle with its reconnect back-off,
    the path of the open pop-up, and the choice of component per control.
    What the App sends and which listeners it calls are appended to an
    effect log; the socket, the timer and the listeners themselves are
    outside the model. */
module App {
  import opened Optional
  import opened Strings
  import opened Numerals
  import opened Js
  import opened JsonPatch
  import opened Routing
  import FloorMap
  import Control
  import Blind
  import Utils

  // ---------------------------------------------------------------------
  // Registry keys and subscription messages

  /** `address.toString(16)`: the key of a module in the registry, in the
      mirror and in patch paths; lower-case hexadecimal, not padded. */
  function HexKey(address: nat): (k: string)
    ensures |k| >= 1 && AllDigitsOf(k, 16)
    ensures forall i :: 0 <= i < |k| ==> k[i] != '/'
  {
    Show(address, 16)
  }

  /** Different modules have different keys. */
  lemma HexKeyInjective(a: nat, b: nat)
    ensures HexKey(a) == HexKey(b) <==> a == b
  {
    if HexKey(a) == HexKey(b) {
      ShowInjective(a, b, 16);
    }
  }

  /** The operation that subscribes to a module's state. */
  function AddOp(key: string): Op
  {
    Op("add", "/" + key, Bool(true))
  }

  /** The operation that ends the subscription (it carries no value). */
  function RemoveOp(key: string): Op
  {
    Op("remove", "/" + key, Undefined)
  }

  /** Read as patches on the server's subscription document, the two
      operations add and remove exactly the member of the module's key. */
  lemma SubscriptionOpsNameTheKey(address: nat, subscriptions: map<string, Value>)
    ensures Pointer(AddOp(HexKey(address)).path) == Some([HexKey(address)])
    ensures Pointer(RemoveOp(HexKey(address)).path) == Some([HexKey(address)])
    ensures Apply(subscriptions, AddOp(HexKey(address))) == Normal(subscriptions[HexKey(address) := Bool(true)])
  {
    PointerOfKey(HexKey(address));
    ApplyMember(subscriptions, AddOp(HexKey(address)), HexKey(address));
  }

  // ---------------------------------------------------------------------
  // The state

  /** The web socket: none before the first connect, then the `readyState`
      of the latest one. */
  datatype Socket = NoSocket | Connecting | Open | Closed

  /** `ws_timeout`: `undefined` until the first open, a number of
      milliseconds, or NaN. */
  datatype Backoff = Unset | Ms(ms: int) | NaN

  /** What the App does to the outside: a batch of operations sent on the
      socket, a listener called with a module's state, a reconnect
      scheduled after a delay in milliseconds. */
  datatype Effect =
    | Sent(batch: seq<Op>)
    | Notified(listener: nat, key: string, state: Value)
    | Scheduled(delay: nat)

  /** The App: `ws_listeners` (listeners by key, each in the order it was
      added, as a `Set` keeps them), `ws_state` (the mirror), the socket,
      `state.offline`, `ws_timeout`, `state.activeElement` (`None` is
      `null`) and the effects so far. */
  datatype State = State(
    listeners: map<string, seq<nat>>,
    mirror: map<string, Value>,
    socket: Socket,
    offline: bool,
    timeout: Backoff,
    active: Option<seq<Value>>,
    log: seq<Effect>)

  /** The constructor's state: no listeners, an empty mirror, offline, the
      empty path; `ws_timeout` is not set. */
  const Initial: State := State(map[], map[], NoSocket, true, Unset, Some([]), [])

  /** The constructor with `ws_timeout` set to the first back-off delay. */
  const InitialFixed: State := Initial.(timeout := Ms(500))

  predicate Distinct<T(==)>(s: seq<T>)
  {
    forall i, j :: 0 <= i < j < |s| ==> s[i] != s[j]
  }

  /** Every registered key has at least one listener, each listed once. */
  predicate Registered(listeners: map<string, seq<nat>>)
  {
    forall k :: k in listeners ==> listeners[k] != [] && Distinct(listeners[k])
  }

  // ---------------------------------------------------------------------
  // Subscribing and unsubscribing

  /** `addWebSocketListener(address, cb)`. A key seen for the first time
      gets an empty set, and when the socket is open one `add` operation
      for it is sent. The listener joins the key's set (a second `add` of
      it changes nothing). When the mirror holds a state for the key, this
      listener alone is called with it at once. */
  function Subscribe(app: State, address: nat, cb: nat): (r: State)
    ensures r.listeners.Keys == app.listeners.Keys + {HexKey(address)}
    ensures forall k :: k in app.listeners && k != HexKey(address) ==> r.listeners[k] == app.listeners[k]
    ensures var key := HexKey(address);
      forall l :: l in r.listeners[key] <==> l == cb || (key in app.listeners && l in app.listeners[key])
    ensures r.(listeners := app.listeners, log := app.log) == app
    ensures app.log <= r.log
    ensures var key := HexKey(address);
      var added := r.log[|app.log|..];
      && (forall e :: e in added ==> e == Sent([AddOp(key)]) || e == Notified(cb, key, Field(app.mirror, key)))
      && (Sent([AddOp(key)]) in added <==> key !in app.listeners && app.socket == Open)
      && (Notified(cb, key, Field(app.mirror, key)) in added <==> Field(app.mirror, key) != Undefined)
      && |added| <= 2
  {
    var key := HexKey(address);
    var current := if key in app.listeners then app.listeners[key] else [];
    var effects := SubscribeEffects(app, key, cb);
    assert (app.log + effects)[|app.log|..] == effects;
    app.(listeners := app.listeners[key := Joined(current, cb)], log := app.log + effects)
  }

  /** A listener added to a key's listeners, as `Set.add` adds: at the end,
      unless it is there already. */
  function Joined(s: seq<nat>, x: nat): (r: seq<nat>)
    ensures forall y :: y in r <==> y == x || y in s
    ensures Distinct(s) ==> Distinct(r)
  {
    if x in s then s else s + [x]
  }

  /** What subscribing to `key` sends and calls: the `add` operation for a
      new key on an open socket, then the replay of a known state. */
  function SubscribeEffects(app: State, key: string, cb: nat): (added: seq<Effect>)
    ensures forall e :: e in added ==> e == Sent([AddOp(key)]) || e == Notified(cb, key, Field(app.mirror, key))
    ensures Sent([AddOp(key)]) in added <==> key !in app.listeners && app.socket == Open
    ensures Notified(cb, key, Field(app.mirror, key)) in added <==> Field(app.mirror, key) != Undefined
    ensures |added| <= 2
  {
    var announce := if key !in app.listeners && app.socket == Open then [Sent([AddOp(key)])] else [];
    var replay := if Field(app.mirror, key) != Undefined then [Notified(cb, key, Field(app.mirror, key))] else [];
    announce + replay
  }

  /** The methods of a JavaScript `Set`. */
  const SetMethods: set<string> := {"add", "clear", "delete", "entries", "forEach", "has", "keys", "values"}

  /** `removeWebSocketListener(address, cb)` as written: for a key never
      subscribed, `ws_listeners[key]` is `undefined` and reading `remove`
      from it throws; for a subscribed key it is a `Set`, which has no
      `remove` method, so the call throws. Nothing after it runs (and its
      test, `ws_listeners.length === 0`, asks the registry object for a
      `length` it does not have). */
  function UnsubscribeAsWritten(app: State, address: nat, cb: nat): (r: Completion<State>)
    ensures r.Throw?
  {
    var key := HexKey(address);
    if key !in app.listeners then Throw
    else if "remove" !in SetMethods then Throw
    else Normal(app)
  }

  /** A sequence without one element, the others kept in order. */
  function Without(s: seq<nat>, x: nat): (r: seq<nat>)
    ensures x !in r
    ensures forall y :: y != x ==> (y in r <==> y in s)
    ensures Distinct(s) ==> Distinct(r)
    ensures x !in s ==> r == s
    decreases |s|
  {
    if s == [] then []
    else if s[0] == x then Without(s[1..], x)
    else
      var rest := Without(s[1..], x);
      assert Distinct(s) ==> s[0] !in s[1..];
      [s[0]] + rest
  }

  /** The unsubscription the code evidently intends: the listener leaves
      its key's set; a set left empty is deleted, and when the socket is
      open one `remove` operation for the key is sent. A listener that was
      never added changes nothing. */
  function Unsubscribe(app: State, address: nat, cb: nat): (r: State)
    ensures r.listeners.Keys <= app.listeners.Keys
    ensures forall k :: k in app.listeners && k != HexKey(address) ==> k in r.listeners && r.listeners[k] == app.listeners[k]
    ensures var key := HexKey(address);
      key in app.listeners ==> (key in r.listeners <==> exists l :: l in app.listeners[key] && l != cb)
    ensures var key := HexKey(address);
      key in r.listeners ==> forall l :: l in r.listeners[key] <==> l in app.listeners[key] && l != cb
    ensures r.(listeners := app.listeners, log := app.log) == app
    ensures app.log <= r.log
    ensures var key := HexKey(address);
      r.log[|app.log|..] == if key in app.listeners && key !in r.listeners && app.socket == Open then [Sent([RemoveOp(key)])] else []
  {
    var key := HexKey(address);
    if key !in app.listeners then app
    else
      var rest := Without(app.listeners[key], cb);
      if rest != [] then
        assert rest[0] in app.listeners[key];
        app.(listeners := app.listeners[key := rest])
      else
        assert forall l :: l in app.listeners[key] ==> l == cb;
        var goodbye := if app.socket == Open then [Sent([RemoveOp(key)])] else [];
        assert (app.log + goodbye)[|app.log|..] == goodbye;
        app.(listeners := app.listeners - {key}, log := app.log + goodbye)
  }

  /** Subscribing and unsubscribing keep every registered key with a
      non-empty list of distinct listeners. */
  lemma RegistrationKept(app: State, address: nat, cb: nat)
    requires Registered(app.listeners)
    ensures Registered(Subscribe(app, address, cb).listeners)
    ensures Registered(Unsubscribe(app, address, cb).listeners)
  {
    var key := HexKey(address);
    var joined := Subscribe(app, address, cb).listeners;
    forall k | k in joined
      ensures joined[k] != [] && Distinct(joined[k])
    {
      if k == key {
        assert cb in joined[k];
      }
    }
    var left := Unsubscribe(app, address, cb).listeners;
    forall k | k in left
      ensures left[k] != [] && Distinct(left[k])
    {
      if k == key {
        assert left[k] == Without(app.listeners[key], cb);
      }
    }
  }

  /** A first listener that leaves again leaves the registry as it was; on
      an open socket the server is told once of each. As written the
      leaving throws instead. */
  lemma SubscribeThenUnsubscribe(app: State, address: nat, cb: nat)
    requires HexKey(address) !in app.listeners
    ensures var joined := Subscribe(app, address, cb);
      && Unsubscribe(joined, address, cb).listeners == app.listeners
      && (app.socket == Open ==>
            && Sent([AddOp(HexKey(address))]) in joined.log[|app.log|..]
            && Unsubscribe(joined, address, cb).log == joined.log + [Sent([RemoveOp(HexKey(address))])])
      && UnsubscribeAsWritten(joined, address, cb).Throw?
  {
    var key := HexKey(address);
    var joined := Subscribe(app, address, cb);
    assert joined.listeners[key] == [cb];
    assert joined.listeners - {key} == app.listeners;
  }

  // ---------------------------------------------------------------------
  // The socket's life cycle

  /** `connectWebsocket`: the mirror is emptied and a new socket starts
      connecting. */
  function Connect(app: State): (r: State)
    ensures r.mirror == map[] && r.socket == Connecting
    ensures r.(mirror := app.mirror, socket := app.socket) == app
  {
    app.(mirror := map[], socket := Connecting)
  }

  /** After a (re)connect a new listener is not called with a state from
      before it, and nothing is sent while the socket is not yet open. */
  lemma NoStaleReplay(app: State, address: nat, cb: nat)
    ensures Subscribe(Connect(app), address, cb).log == app.log
  {
  }

  /** One `add` operation per key in the given order. */
  function Adds(order: seq<string>): (batch: seq<Op>)
    ensures |batch| == |order|
    ensures forall i :: 0 <= i < |order| ==> batch[i] == AddOp(order[i])
  {
    seq(|order|, i requires 0 <= i < |order| => AddOp(order[i]))
  }

  /** `order` lists the keys of the set, each once: the order in which a
      `for (k in obj)` loop visits the object's keys. */
  predicate Enumerates(order: seq<string>, keys: set<string>)
  {
    && Distinct(order)
    && (forall i :: 0 <= i < |order| ==> order[i] in keys)
    && (forall k :: k in keys ==> k in order)
  }

  /** Some order enumerates any finite set of keys. */
  method Enumerate(keys: set<string>) returns (order: seq<string>)
    ensures Enumerates(order, keys)
  {
    var rest := keys;
    order := [];
    while rest != {}
      invariant rest <= keys
      invariant Distinct(order)
      invariant forall i :: 0 <= i < |order| ==> order[i] in keys && order[i] !in rest
      invariant forall k :: k in keys ==> k in rest || k in order
      decreases rest
    {
      var k :| k in rest;
      order := order + [k];
      rest := rest - {k};
    }
  }

  /** An enumeration is as long as the set it enumerates. */
  lemma {:induction false} EnumerationSize(order: seq<string>, keys: set<string>)
    requires Enumerates(order, keys)
    ensures |order| == |keys|
    decreases |order|
  {
    if order != [] {
      var last := order[|order| - 1];
      var init := order[..|order| - 1];
      assert last !in init;
      assert Enumerates(init, keys - {last}) by {
        forall k | k in keys - {last}
          ensures k in init
        {
          var i :| 0 <= i < |order| && order[i] == k;
          assert i != |order| - 1;
          assert init[i] == k;
        }
      }
      EnumerationSize(init, keys - {last});
    } else {
      assert forall k :: k !in keys;
      assert keys == {};
    }
  }

  /** `onopen`, with `order` the order in which the loop visits the
      registry's keys: online, the back-off restarts at 500 ms, and one
      batch is sent; it holds one `add` operation for each registered key
      and nothing else, and may be empty. */
  function OnOpen(app: State, order: seq<string>): (r: State)
    ensures !r.offline && r.timeout == Ms(500) && r.socket == Open
    ensures r.(offline := app.offline, timeout := app.timeout, socket := app.socket, log := app.log) == app
    ensures |r.log| == |app.log| + 1 && r.log[..|app.log|] == app.log && r.log[|app.log|].Sent?
    ensures Enumerates(order, app.listeners.Keys) ==>
      var batch := r.log[|app.log|].batch;
      && |batch| == |app.listeners|
      && Distinct(batch)
      && (forall k :: k in app.listeners ==> AddOp(k) in batch)
      && (forall i :: 0 <= i < |batch| ==> exists k :: k in app.listeners && batch[i] == AddOp(k))
  {
    var batch := Adds(order);
    AddsOfEnumeration(order, app.listeners.Keys);
    app.(offline := false, timeout := Ms(500), socket := Open, log := app.log + [Sent(batch)])
  }

  /** The batch for an enumeration of the keys holds one `add` per key. */
  lemma AddsOfEnumeration(order: seq<string>, keys: set<string>)
    ensures Enumerates(order, keys) ==>
      var batch := Adds(order);
      && |batch| == |keys|
      && Distinct(batch)
      && (forall k :: k in keys ==> AddOp(k) in batch)
      && (forall i :: 0 <= i < |batch| ==> exists k :: k in keys && batch[i] == AddOp(k))
  {
    var batch := Adds(order);
    if Enumerates(order, keys) {
      EnumerationSize(order, keys);
      forall i, j | 0 <= i < j < |batch|
        ensures batch[i] != batch[j]
      {
        assert batch[i].path[1..] == order[i] && batch[j].path[1..] == order[j];
      }
      forall k | k in keys
        ensures AddOp(k) in batch
      {
        var i :| 0 <= i < |order| && order[i] == k;
        assert batch[i] == AddOp(k);
      }
    }
  }

  // ---------------------------------------------------------------------
  // Messages: patches and the fan-out to the listeners

  /** `path.split('/')[1]`: the key an operation's path names. A path with
      no "/" has no element 1, and `undefined` used as a key reads the
      property "undefined"; no registered key looks like that, so the
      difference between the two never shows. The key is the first token
      of the path read as a JSON Pointer. */
  function KeyOfPath(path: string): (k: string)
    ensures Pointer(path).Some? && |Pointer(path).value| >= 1 ==> k == Pointer(path).value[0]
  {
    var parts := Split(path, "/");
    if |parts| >= 2 then parts[1] else "undefined"
  }

  /** The keys the operations of a batch touch, each once, in the order in
      which they were first touched (the `Set` of changed keys). */
  function TouchedKeys(batch: seq<Op>): (keys: seq<string>)
    ensures Distinct(keys)
    ensures forall k :: k in keys <==> exists i :: 0 <= i < |batch| && KeyOfPath(batch[i].path) == k
    decreases |batch|
  {
    if batch == [] then []
    else
      var init := TouchedKeys(batch[..|batch| - 1]);
      var k := KeyOfPath(batch[|batch| - 1].path);
      TouchedByPrefix(batch);
      if k in init then init
      else
        DistinctAppend(init, k);
        init + [k]
  }

  /** Some operation of the batch names key `k`. */
  predicate TouchedBy(batch: seq<Op>, k: string)
  {
    exists i :: 0 <= i < |batch| && KeyOfPath(batch[i].path) == k
  }

  /** A key is touched by a non-empty batch exactly when its last operation
      or the operations before it touch it. */
  lemma TouchedByPrefix(batch: seq<Op>)
    requires |batch| > 0
    ensures forall k :: TouchedBy(batch, k) <==>
      TouchedBy(batch[..|batch| - 1], k) || k == KeyOfPath(batch[|batch| - 1].path)
  {
    assert forall i :: 0 <= i < |batch| - 1 ==> batch[..|batch| - 1][i] == batch[i];
  }

  /** Appending an element not yet present keeps a sequence distinct. */
  lemma DistinctAppend<T>(s: seq<T>, x: T)
    requires Distinct(s) && x !in s
    ensures Distinct(s + [x])
  {
  }

  /** Each listener of the list called, in order, with the key's state. */
  function NotesFor(cbs: seq<nat>, key: string, state: Value): (notes: seq<Effect>)
    ensures |notes| == |cbs|
    ensures forall i :: 0 <= i < |cbs| ==> notes[i] == Notified(cbs[i], key, state)
    decreases |cbs|
  {
    if cbs == [] then [] else [Notified(cbs[0], key, state)] + NotesFor(cbs[1..], key, state)
  }

  /** The fan-out the code evidently intends: for each touched key in
      order, each of its listeners is called with the key's state in the
      mirror; a key nobody listens to is skipped. */
  function Fanout(listeners: map<string, seq<nat>>, mirror: map<string, Value>, keys: seq<string>): (notes: seq<Effect>)
    ensures forall e :: e in notes ==>
      && e.Notified? && e.key in keys && e.key in listeners
      && e.listener in listeners[e.key] && e.state == Field(mirror, e.key)
    decreases |keys|
  {
    if keys == [] then []
    else
      var k := keys[0];
      var mine := if k in listeners then NotesFor(listeners[k], k, Field(mirror, k)) else [];
      var rest := Fanout(listeners, mirror, keys[1..]);
      assert forall e :: e in mine ==> e.Notified? && e.key == k && e.listener in listeners[k] && e.state == Field(mirror, k) by {
        forall e | e in mine
          ensures e.Notified? && e.key == k && e.listener in listeners[k] && e.state == Field(mirror, k)
        {
          var i :| 0 <= i < |mine| && mine[i] == e;
        }
      }
      mine + rest
  }

  /** The fan-out's calls, and whether it threw on the way. */
  datatype Fanned = Fanned(notes: seq<Effect>, threw: bool)

  /** The fan-out as written: `for (cb of ws_listeners[key])` over a key
      nobody subscribed to iterates `undefined`, which throws; the calls
      made for the keys before it have happened, those after it do not. */
  function FanoutAsWritten(listeners: map<string, seq<nat>>, mirror: map<string, Value>, keys: seq<string>): (r: Fanned)
    ensures r.threw <==> exists i :: 0 <= i < |keys| && keys[i] !in listeners
    ensures !r.threw ==> r.notes == Fanout(listeners, mirror, keys)
    decreases |keys|
  {
    if keys == [] then Fanned([], false)
    else if keys[0] !in listeners then Fanned([], true)
    else
      var rest := FanoutAsWritten(listeners, mirror, keys[1..]);
      assert forall i :: 1 <= i < |keys| ==> keys[i] == keys[1..][i - 1];
      Fanned(NotesFor(listeners[keys[0]], keys[0], Field(mirror, keys[0])) + rest.notes, rest.threw)
  }

  /** As written, the fan-out stops at the first touched key nobody
      listens to: only the listeners of the keys before it are called. */
  lemma {:induction false} AsWrittenStopsAtUnlistenedKey(listeners: map<string, seq<nat>>, mirror: map<string, Value>, keys: seq<string>, n: nat)
    requires n < |keys| && keys[n] !in listeners
    requires forall i :: 0 <= i < n ==> keys[i] in listeners
    ensures FanoutAsWritten(listeners, mirror, keys) == Fanned(Fanout(listeners, mirror, keys[..n]), true)
    decreases n
  {
    if n == 0 {
      assert keys[..0] == [];
    } else {
      AsWrittenStopsAtUnlistenedKey(listeners, mirror, keys[1..], n - 1);
      assert keys[..n][0] == keys[0];
      assert keys[..n][1..] == keys[1..][..n - 1];
    }
  }

  /** The outcome of a handler: the App afterwards, and whether the
      handler threw. */
  datatype Outcome = Outcome(app: State, threw: bool)

  /** `onmessage` as written, for a batch already parsed: the operations
      are applied to the mirror one by one; a failing one stops the handler
      with the earlier ones applied and no listener called; otherwise the
      fan-out as written runs over the touched keys. */
  function OnMessageAsWritten(app: State, batch: seq<Op>): (r: Outcome)
    ensures r.app.mirror == ApplyAll(app.mirror, batch).mirror
    ensures r.app.(mirror := app.mirror, log := app.log) == app
    ensures ApplyAll(app.mirror, batch).failed ==> r.threw && r.app.log == app.log
    ensures !ApplyAll(app.mirror, batch).failed ==>
      (r.threw <==> exists k :: k in TouchedKeys(batch) && k !in app.listeners)
  {
    var applied := ApplyAll(app.mirror, batch);
    if applied.failed then Outcome(app.(mirror := applied.mirror), true)
    else
      var fanned := FanoutAsWritten(app.listeners, applied.mirror, TouchedKeys(batch));
      Outcome(app.(mirror := applied.mirror, log := app.log + fanned.notes), fanned.threw)
  }

  /** The corrected `onmessage`: as written, with the fan-out skipping keys
      nobody listens to. It throws only when an operation fails, and then
      calls no listener; otherwise every call it makes is of a listener of
      a touched key, with that key's state after the whole batch. */
  function OnMessage(app: State, batch: seq<Op>): (r: Outcome)
    ensures r.app.mirror == ApplyAll(app.mirror, batch).mirror
    ensures r.app.(mirror := app.mirror, log := app.log) == app
    ensures r.threw <==> ApplyAll(app.mirror, batch).failed
    ensures r.threw ==> r.app.log == app.log
    ensures app.log <= r.app.log
    ensures forall e :: e in r.app.log[|app.log|..] ==>
      && e.Notified? && e.key in TouchedKeys(batch) && e.key in app.listeners
      && e.listener in app.listeners[e.key] && e.state == Field(r.app.mirror, e.key)
  {
    var applied := ApplyAll(app.mirror, batch);
    if applied.failed then Outcome(app.(mirror := applied.mirror), true)
    else
      var notes := Fanout(app.listeners, applied.mirror, TouchedKeys(batch));
      assert (app.log + notes)[|app.log|..] == notes;
      Outcome(app.(mirror := applied.mirror, log := app.log + notes), false)
  }

  /** When every touched key has listeners, the handler as written and the
      corrected one agree. */
  lemma AgreeWhenAllListened(app: State, batch: seq<Op>)
    requires forall k :: k in TouchedKeys(batch) ==> k in app.listeners
    ensures OnMessageAsWritten(app, batch) == OnMessage(app, batch)
  {
  }

  /** A call of `l` with state `s` occurs once in the calls for a list of
      distinct listeners containing `l`, and not at all otherwise. */
  lemma {:induction false} NotesCount(cbs: seq<nat>, key: string, state: Value, e: Effect)
    requires Distinct(cbs)
    ensures multiset(NotesFor(cbs, key, state))[e] ==
      if e.Notified? && e.listener in cbs && e.key == key && e.state == state then 1 else 0
    decreases |cbs|
  {
    if cbs != [] {
      assert Distinct(cbs[1..]) by {
        forall i, j | 0 <= i < j < |cbs[1..]|
          ensures cbs[1..][i] != cbs[1..][j]
        {
          assert cbs[1..][i] == cbs[i + 1] && cbs[1..][j] == cbs[j + 1];
        }
      }
      NotesCount(cbs[1..], key, state, e);
      assert cbs[0] !in cbs[1..];
      assert forall x :: x in cbs <==> x == cbs[0] || x in cbs[1..];
    }
  }

  /** In the corrected fan-out over distinct keys, each listener of each
      touched key is called exactly once, with the key's state. */
  lemma {:induction false} FanoutCount(listeners: map<string, seq<nat>>, mirror: map<string, Value>, keys: seq<string>, k: string, l: nat)
    requires Registered(listeners) && Distinct(keys)
    ensures multiset(Fanout(listeners, mirror, keys))[Notified(l, k, Field(mirror, k))] ==
      if k in keys && k in listeners && l in listeners[k] then 1 else 0
    decreases |keys|
  {
    if keys != [] {
      var e := Notified(l, k, Field(mirror, k));
      var head := keys[0];
      assert Distinct(keys[1..]) by {
        forall i, j | 0 <= i < j < |keys[1..]|
          ensures keys[1..][i] != keys[1..][j]
        {
          assert keys[1..][i] == keys[i + 1] && keys[1..][j] == keys[j + 1];
        }
      }
      FanoutCount(listeners, mirror, keys[1..], k, l);
      if head in listeners {
        NotesCount(listeners[head], head, Field(mirror, head), e);
      }
      assert head !in keys[1..];
      assert forall x :: x in keys <==> x == head || x in keys[1..];
    }
  }

  /** The corrected handler calls each listener of each touched key
      exactly once, with the key's state after the whole batch; listeners
      of other keys are not called. */
  lemma NotifiedOnce(app: State, batch: seq<Op>, k: string, l: nat)
    requires Registered(app.listeners)
    requires !ApplyAll(app.mirror, batch).failed
    ensures var r := OnMessage(app, batch).app;
      multiset(r.log[|app.log|..])[Notified(l, k, Field(r.mirror, k))] ==
        if k in TouchedKeys(batch) && k in app.listeners && l in app.listeners[k] then 1 else 0
  {
    var r := OnMessage(app, batch).app;
    FanoutCount(app.listeners, r.mirror, TouchedKeys(batch), k, l);
    assert r.log[|app.log|..] == Fanout(app.listeners, r.mirror, TouchedKeys(batch));
  }

  /** The state of a key no operation of the batch touched stays as it
      was, whether or not the batch went through. */
  lemma UntouchedKeysKeepState(app: State, batch: seq<Op>, k: string)
    requires k !in TouchedKeys(batch)
    ensures var r := OnMessage(app, batch).app;
      (k in r.mirror <==> k in app.mirror) && (k in app.mirror ==> r.mirror[k] == app.mirror[k])
  {
    assert forall i :: 0 <= i < |batch| ==> !Touches(batch[i], k);
    UntouchedKept(app.mirror, batch, k);
  }

  /** A batch of two `add` operations on top-level keys `a` and `b`
      touches `a`, then `b`, and sets both. */
  lemma TwoAdds(mirror: map<string, Value>, a: string, b: string, va: Value, vb: Value)
    requires a != b
    requires forall i :: 0 <= i < |a| ==> a[i] != '/'
    requires forall i :: 0 <= i < |b| ==> b[i] != '/'
    ensures var batch := [Op("add", "/" + a, va), Op("add", "/" + b, vb)];
      && TouchedKeys(batch) == [a, b]
      && ApplyAll(mirror, batch) == Applied(mirror[a := va][b := vb], false)
  {
    var batch := [Op("add", "/" + a, va), Op("add", "/" + b, vb)];
    PointerOfKey(a);
    PointerOfKey(b);
    assert KeyOfPath(batch[0].path) == a;
    assert KeyOfPath(batch[1].path) == b;
    assert batch[..1] == [batch[0]];
    assert TouchedKeys(batch[..1]) == [a];
    ApplyMember(mirror, batch[0], a);
    ApplyMember(mirror[a := va], batch[1], b);
    assert batch[1..] == [batch[1]];
    assert ApplyAll(mirror[a := va][b := vb], batch[1..][1..]) == Applied(mirror[a := va][b := vb], false);
  }

  /** The corrected fan-out over an unlistened key, then a key with one
      listener, calls that listener. */
  lemma FanoutPastUnlistened(listeners: map<string, seq<nat>>, mirror: map<string, Value>, a: string, b: string, l: nat)
    requires a !in listeners && b in listeners && listeners[b] == [l]
    ensures Fanout(listeners, mirror, [a, b]) == [Notified(l, b, Field(mirror, b))]
  {
    var note := Notified(l, b, Field(mirror, b));
    assert [l][1..] == [];
    assert NotesFor([l], b, Field(mirror, b)) == [note];
    assert [b][1..] == [];
    assert Fanout(listeners, mirror, [b]) == [note] + [];
    assert [a, b][1..] == [b];
    assert Fanout(listeners, mirror, [a, b]) == [] + Fanout(listeners, mirror, [b]);
  }

  /** The defect: one listener, of module `b`, and a batch that first sets
      the state of module `a`, which nobody listens to, then that of `b`
      (for instance keys "12" and "11"). As written, the handler throws
      before calling anyone; the corrected one calls the listener with the
      new state. */
  lemma UnlistenedKeyHidesUpdates(app: State, a: string, b: string, va: Value, vb: Value, l: nat)
    requires a != b
    requires forall i :: 0 <= i < |a| ==> a[i] != '/'
    requires forall i :: 0 <= i < |b| ==> b[i] != '/'
    requires app.listeners == map[b := [l]]
    ensures var batch := [Op("add", "/" + a, va), Op("add", "/" + b, vb)];
      && OnMessageAsWritten(app, batch).threw
      && OnMessageAsWritten(app, batch).app.log == app.log
      && OnMessage(app, batch).app.log == app.log + [Notified(l, b, vb)]
  {
    var batch := [Op("add", "/" + a, va), Op("add", "/" + b, vb)];
    TwoAdds(app.mirror, a, b, va, vb);
    var after := app.mirror[a := va][b := vb];
    assert FanoutAsWritten(app.listeners, after, [a, b]) == Fanned([], true);
    FanoutPastUnlistened(app.listeners, after, a, b, l);
    assert Field(after, b) == vb;
    assert app.log + [] == app.log;
  }

  // ---------------------------------------------------------------------
  // Closing and the reconnect back-off

  /** `setTimeout`'s delay: `undefined`, NaN and negative numbers count
      as 0. */
  function Delay(b: Backoff): nat
  {
    match b
    case Ms(ms) => if ms < 0 then 0 else ms
    case _ => 0
  }

  /** `Math.min(ws_timeout * 2, 5000)`: NaN from `undefined` or NaN. */
  function Doubled(b: Backoff): Backoff
  {
    match b
    case Ms(ms) => Ms(if ms * 2 < 5000 then ms * 2 else 5000)
    case _ => NaN
  }

  /** A back-off between the first delay and the cap. */
  predicate BackoffOk(b: Backoff)
  {
    b.Ms? && 500 <= b.ms <= 5000
  }

  /** `onclose`: offline; a reconnect is scheduled after the current
      back-off, which then doubles up to 5000 ms. A back-off that was never
      set schedules the retry at once and becomes NaN, which stays NaN. */
  function OnClose(app: State): (r: State)
    ensures r.offline && r.socket == Closed
    ensures r.(offline := app.offline, socket := app.socket, timeout := app.timeout, log := app.log) == app
    ensures BackoffOk(app.timeout) ==>
      && r.log == app.log + [Scheduled(app.timeout.ms)]
      && BackoffOk(r.timeout)
      && r.timeout.ms == (if 2 * app.timeout.ms < 5000 then 2 * app.timeout.ms else 5000)
    ensures !app.timeout.Ms? ==> r.timeout == NaN && r.log == app.log + [Scheduled(0)]
  {
    app.(offline := true, socket := Closed, log := app.log + [Scheduled(Delay(app.timeout))], timeout := Doubled(app.timeout))
  }

  // ---------------------------------------------------------------------
  // Runs

  /** What can happen to the App. `Dial` is `connectWebsocket`, at mount
      and whenever a scheduled reconnect fires; `Opened` carries the order
      in which the open handler's loop visits the registry. */
  datatype Event =
    | Dial
    | Opened(order: seq<string>)
    | Received(batch: seq<Op>)
    | Dropped
    | Subscribed(address: nat, cb: nat)
    | Unsubscribed(address: nat, cb: nat)
    | MapActivated(index: string, sub: Option<seq<Value>>)
    | Clicked

  /** One event, with the corrected unsubscription and fan-out. */
  function Step(app: State, e: Event): (r: State)
    ensures app.log <= r.log
    ensures e.Dropped? ==> r == OnClose(app)
    ensures e.Opened? ==> r.timeout == Ms(500)
    ensures !e.Dropped? && !e.Opened? ==> r.timeout == app.timeout
  {
    match e
    case Dial => Connect(app)
    case Opened(order) => OnOpen(app, order)
    case Received(batch) => OnMessage(app, batch).app
    case Dropped => OnClose(app)
    case Subscribed(address, cb) => Subscribe(app, address, cb)
    case Unsubscribed(address, cb) => Unsubscribe(app, address, cb)
    case MapActivated(index, sub) => ActivateChild(app, index, sub)
    case Clicked => Deactivate(app)
  }

  /** None of the effects is a scheduled reconnect. */
  predicate NoneScheduled(effects: seq<Effect>)
  {
    forall i :: 0 <= i < |effects| ==> !effects[i].Scheduled?
  }

  /** Only a close schedules a reconnect. */
  lemma OnlyCloseSchedules(app: State, e: Event)
    ensures !e.Dropped? ==> NoneScheduled(Step(app, e).log[|app.log|..])
  {
    match e {
      case Dropped =>
      case Received(batch) => MessageSchedulesNothing(app, batch);
      case Subscribed(address, cb) => SubscribeSchedulesNothing(app, address, cb);
      case Unsubscribed(address, cb) => UnsubscribeSchedulesNothing(app, address, cb);
      case Opened(order) => OpenSchedulesNothing(app, order);
      case Dial => assert Connect(app).log[|app.log|..] == [];
      case MapActivated(index, sub) => assert ActivateChild(app, index, sub).log[|app.log|..] == [];
      case Clicked => assert Deactivate(app).log[|app.log|..] == [];
    }
  }

  lemma MessageSchedulesNothing(app: State, batch: seq<Op>)
    ensures NoneScheduled(OnMessage(app, batch).app.log[|app.log|..])
  {
    var added := OnMessage(app, batch).app.log[|app.log|..];
    assert forall i :: 0 <= i < |added| ==> added[i] in added;
  }

  lemma SubscribeSchedulesNothing(app: State, address: nat, cb: nat)
    ensures NoneScheduled(Subscribe(app, address, cb).log[|app.log|..])
  {
    var added := Subscribe(app, address, cb).log[|app.log|..];
    assert forall i :: 0 <= i < |added| ==> added[i] in added;
  }

  lemma UnsubscribeSchedulesNothing(app: State, address: nat, cb: nat)
    ensures NoneScheduled(Unsubscribe(app, address, cb).log[|app.log|..])
  {
  }

  lemma OpenSchedulesNothing(app: State, order: seq<string>)
    ensures NoneScheduled(OnOpen(app, order).log[|app.log|..])
  {
    var r := OnOpen(app, order);
    assert r.log[|app.log|..] == [r.log[|app.log|]];
  }

  /** The events in order. */
  function Run(app: State, events: seq<Event>): (r: State)
    decreases |events|
  {
    if events == [] then app else Run(Step(app, events[0]), events[1..])
  }

  /** Every scheduled reconnect among the effects waits 500 to 5000 ms. */
  predicate DelaysBounded(effects: seq<Effect>)
  {
    forall i :: 0 <= i < |effects| && effects[i].Scheduled? ==> 500 <= effects[i].delay <= 5000
  }

  /** One event keeps the back-off in range and schedules within it. */
  lemma StepBacksOff(app: State, e: Event)
    requires BackoffOk(app.timeout)
    ensures BackoffOk(Step(app, e).timeout)
    ensures DelaysBounded(Step(app, e).log[|app.log|..])
  {
    OnlyCloseSchedules(app, e);
  }

  /** From a back-off in range, whatever happens, the back-off stays in
      range and every reconnect is scheduled 500 to 5000 ms ahead. */
  lemma {:induction false} RetriesBackOff(app: State, events: seq<Event>)
    requires BackoffOk(app.timeout)
    ensures BackoffOk(Run(app, events).timeout)
    ensures app.log <= Run(app, events).log
    ensures DelaysBounded(Run(app, events).log[|app.log|..])
    decreases |events|
  {
    if events != [] {
      var next := Step(app, events[0]);
      StepBacksOff(app, events[0]);
      RetriesBackOff(next, events[1..]);
      BoundedAcross(app.log, next.log, Run(next, events[1..]).log);
    }
  }

  /** Effects added in two stretches are bounded when each stretch is. */
  lemma BoundedAcross(a: seq<Effect>, b: seq<Effect>, c: seq<Effect>)
    requires a <= b <= c
    requires DelaysBounded(b[|a|..]) && DelaysBounded(c[|b|..])
    ensures DelaysBounded(c[|a|..])
  {
    var added := c[|a|..];
    forall j | 0 <= j < |added| && added[j].Scheduled?
      ensures 500 <= added[j].delay <= 5000
    {
      if |a| + j < |b| {
        assert added[j] == b[|a|..][j];
      } else {
        assert added[j] == c[|b|..][|a| + j - |b|];
      }
    }
  }

  /** The corrected App: with the back-off set from the start, every
      reconnect waits 500 to 5000 ms. */
  lemma FixedInitialBacksOff(events: seq<Event>)
    ensures DelaysBounded(Run(InitialFixed, events).log)
  {
    RetriesBackOff(InitialFixed, events);
  }

  /** As written, the back-off is in range after any open. */
  lemma BackoffAfterOpen(app: State, order: seq<string>, events: seq<Event>)
    ensures BackoffOk(Run(app, [Opened(order)] + events).timeout)
    ensures |Run(app, [Opened(order)] + events).log| > |app.log|
    ensures DelaysBounded(Run(app, [Opened(order)] + events).log[|app.log| + 1..])
  {
    var afterOpen := Step(app, Opened(order));
    assert ([Opened(order)] + events)[1..] == events;
    RetriesBackOff(afterOpen, events);
  }

  /** The defect: before the first open the back-off is not set. A socket
      that never opens is retried at once, again and again, and the
      back-off is NaN from the first close on. */
  lemma RetriesBeforeOpenAreImmediate()
    ensures Run(Initial, [Dial, Dropped]).timeout == NaN
    ensures Run(Initial, [Dial, Dropped, Dial, Dropped]).log == [Scheduled(0), Scheduled(0)]
  {
    assert [Dial, Dropped][1..] == [Dropped];
    assert [Dial, Dropped, Dial, Dropped][1..] == [Dropped, Dial, Dropped];
    assert [Dropped, Dial, Dropped][1..] == [Dial, Dropped];
  }

  // ---------------------------------------------------------------------
  // The open pop-up

  /** The App's `activateChild(event, index, subindices)`, reached from the
      map at `index` (a key of `window.maps`, so a string). */
  function ActivateChild(app: State, index: string, sub: Option<seq<Value>>): (r: State)
    ensures r.active.Some? && Route(r.active, Str(index)) == Some(match sub case Some(s) => s case None => [])
    ensures r.(active := app.active) == app
  {
    RouteOfPrefixed(Str(index), sub, Str(index));
    app.(active := Some(Prefixed(Str(index), sub)))
  }

  /** `deactivateAllChildren`, on any click that reaches the window. */
  function Deactivate(app: State): (r: State)
    ensures r.active.None? && r.(active := app.active) == app
  {
    app.(active := None)
  }

  /** The `activeElement` render hands the map at `index`. */
  function MapActive(app: State, index: string): (r: Option<seq<Value>>)
    ensures r.Some? <==> app.active.Some? && |app.active.value| >= 1 && app.active.value[0] == Str(index)
    ensures r.Some? ==> r.value == app.active.value[1..]
  {
    Route(app.active, Str(index))
  }

  /** The path a control reports through its map arrives back at that
      control, through that map, and at no other map or control. */
  lemma ControlGetsItsPath(app: State, map_: string, control: nat, sub: Option<seq<Value>>, otherMap: string, otherControl: nat)
    ensures var a := ActivateChild(app, map_, Some(FloorMap.Activate(control, sub)));
      && FloorMap.ChildActive(MapActive(a, map_), control) == Some(match sub case Some(s) => s case None => [])
      && (otherMap != map_ ==> MapActive(a, otherMap).None?)
      && (otherControl != control ==> FloorMap.ChildActive(MapActive(a, map_), otherControl).None?)
  {
    var path := FloorMap.Activate(control, sub);
    RouteOfPrefixed(Str(map_), Some(path), Str(otherMap));
    if otherControl != control {
      FloorMap.OnlyTheActivatedChild(control, sub, otherControl);
    }
  }

  /** Nothing is open at start, nor after a click. */
  lemma NothingOpen(app: State, index: string)
    ensures MapActive(Initial, index).None?
    ensures MapActive(Deactivate(app), index).None?
  {
  }

  // ---------------------------------------------------------------------
  // Components

  /** The component rendered for a control. */
  datatype Component = RelayControl | DimmerControl | BlindControl | UnknownControl

  /** `control_components[control.type]`, with `Unknown` for any other
      type: only relays, dimmers and blinds have a component of their own. */
  function ComponentFor(control: map<string, Value>): (c: Component)
    ensures c == RelayControl <==> ToText(Field(control, "type")) == "relay"
    ensures c == DimmerControl <==> ToText(Field(control, "type")) == "dimmer"
    ensures c == BlindControl <==> ToText(Field(control, "type")) == "blind"
  {
    match ToText(Field(control, "type"))
    case "relay" => RelayControl
    case "dimmer" => DimmerControl
    case "blind" => BlindControl
    case _ => UnknownControl
  }

  /** Mounting a blind the App renders, as written: the props are a copy
      of the control's configuration plus the two listener functions and
      the API host, with no `registerAllBlinds` among them, so the blind's
      constructor throws whatever the configuration says. */
  function MountBlindAsWritten(control: map<string, Value>): (r: Completion<Control.Icon>)
    ensures r == Throw
  {
    Blind.Construct(control, false)
  }

  /** The corrected mounting: the App also passes a `registerAllBlinds`
      function, and the blind constructs exactly when its address and icon
      pass the constructor's checks. */
  function MountBlind(control: map<string, Value>): (r: Completion<Control.Icon>)
    ensures r.Normal? <==>
      Control.AddressAccepted(control, "address", 1, Blind.Channels)
      && Utils.DefaultValue(Field(control, "icon"), Str("blind")).Str?
    ensures r.Normal? ==> r.value == Control.IconParts(Field(control, "icon"), "blind").value
  {
    Blind.Construct(control, true)
  }

  /** A blind configured on channel 1 of module `m` without an icon: the
      App picks the blind component, which throws as written and shows the
      default blind icon once `registerAllBlinds` is passed. */
  lemma BlindOnChannelOne(control: map<string, Value>, m: int)
    requires control == map["type" := Str("blind"), "address" := Arr([Num(m), Num(1)])]
    ensures ComponentFor(control) == BlindControl
    ensures MountBlindAsWritten(control) == Throw
    ensures MountBlind(control) == Normal(Control.Icon("blind", "svg"))
  {
    assert "icon" !in control;
  }

  /** Input and DALI relay controls are drawn as unknown controls. */
  lemma InputsAreUnknown(control: map<string, Value>)
    requires "type" in control && control["type"] in {Str("input"), Str("relaydali")}
    ensures ComponentFor(control) == UnknownControl
  {
  }
}

=== FILE: blind.dfy ===
/** The blind control of src/Blind.js: its constructor, the icon it shows
    for the motor status and position, and the buttons and state line of
    its pop-up. */
module Blind {
  import opened Optional
  import opened Numerals
  import opened Js
  import opened Utils
  import opened Control

  /** Blind modules have channels 1 and 2. */
  const Channels: int := 2

  /** The state a blind starts with: nothing known. */
  const Initial: map<string, Value> := map["status" := Null, "position" := Null]

  /** The constructor: the address guard with channels 1..2, the icon set,
      "blind" by default, and then a call of `props.registerAllBlinds`.
      Values here are data only, so `registers` says whether that prop is a
      function; when it is not, the call throws. */
  function Construct(props: map<string, Value>, registers: bool): (r: Completion<Icon>)
    ensures r.Normal? <==>
      && AddressAccepted(props, "address", 1, Channels)
      && DefaultValue(Field(props, "icon"), Str("blind")).Str?
      && registers
    ensures r.Normal? ==> r.value == IconParts(Field(props, "icon"), "blind").value
    ensures && registers && "icon" !in props && "address" in props && props["address"].Arr?
            && |props["address"].items| == 2 && props["address"].items[1].Num?
            ==> r == (if 1 <= props["address"].items[1].n <= Channels then Normal(Icon("blind", "svg")) else Throw)
  {
    TypicalConstruct(props, Channels, "blind");
    match ConstructControl(props, Channels, "blind")
    case Throw => Throw
    case Normal(icon) => if registers then Normal(icon) else Throw
  }

  /** The image state of the icon: a moving motor shows its direction;
      a stopped one shows fully up (position 0), fully down (100) or
      partial, by strict comparison. */
  function IconState(status: Value, position: Value): (r: string)
    ensures r == "moving_up" <==> status == Str("up")
    ensures r == "moving_down" <==> status == Str("down")
    ensures status != Str("up") && status != Str("down") ==>
      && (r == "up" <==> position == Num(0))
      && (r == "down" <==> position == Num(100))
      && (r == "partial" <==> position != Num(0) && position != Num(100))
  {
    if status == Str("up") then "moving_up"
    else if status == Str("down") then "moving_down"
    else if position == Num(0) then "up"
    else if position == Num(100) then "down"
    else "partial"
  }

  /** The buttons of the pop-up; each sends its word to `changePosition`. */
  datatype Button = Up | Down | Stop

  function Command(b: Button): (v: Value)
    ensures b == Up ==> v == Str("up")
    ensures b == Down ==> v == Str("down")
    ensures b == Stop ==> v == Str("stop")
  {
    match b
    case Up => Str("up")
    case Down => Str("down")
    case Stop => Str("stop")
  }

  /** Different buttons send different words, and the words of up and
      down are the motor statuses the icon shows as moving. */
  lemma CommandsDistinct(a: Button, b: Button)
    ensures Command(a) == Command(b) <==> a == b
    ensures IconState(Command(Up), Null) == "moving_up" && IconState(Command(Down), Null) == "moving_down"
  {
  }

  /** The buttons and the "Current state" line of the pop-up. */
  datatype Controls = Controls(buttons: seq<Button>, caption: string)

  /** `Math.round(position) + ''`: the position as a whole number, "NaN"
      when it does not convert to one. */
  function RoundedText(position: Value): (t: string)
    ensures position.Num? ==> t == IntText(position.n)
    ensures position.Null? ==> t == "0"
    ensures position.Undefined? ==> t == "NaN"
  {
    match ToNumber(position)
    case Some(n) => IntText(n)
    case None => "NaN"
  }

  /** A stopped motor (status "off") offers up and down and states how far
      down the blind is; any other status, `null` included, offers stop
      and states the motion. */
  function PanelControls(status: Value, position: Value): (r: Controls)
    ensures status == Str("off") ==> r.buttons == [Up, Down] && r.caption == RoundedText(position) + "% down"
    ensures status != Str("off") ==> r.buttons == [Stop] && r.caption == "moving " + ToText(status)
  {
    if status == Str("off") then Controls([Up, Down], RoundedText(position) + "% down")
    else Controls([Stop], "moving " + ToText(status))
  }

  /** Icon and pop-up agree on motion: a moving icon comes with the stop
      button, and the up and down buttons come with a resting icon. */
  lemma IconAndPanelAgree(status: Value, position: Value)
    ensures IconState(status, position) in {"moving_up", "moving_down"} ==>
      PanelControls(status, position).buttons == [Stop]
    ensures PanelControls(status, position).buttons == [Up, Down] ==>
      IconState(status, position) in {"up", "down", "partial"}
  {
  }

  /** Before its first update a blind shows a partial icon and a pop-up
      with a stop button saying "moving null". */
  lemma InitialView()
    ensures IconState(Initial["status"], Initial["position"]) == "partial"
    ensures PanelControls(Initial["status"], Initial["position"]) == Controls([Stop], "moving null")
  {
  }

  /** `changePosition`: the command is PUT to the position of this blind's
      own module and channel. */
  function PositionRequest(address: Value, desired: Value): (r: Request)
    requires IsObjectLike(address)
    ensures r.verb == "PUT" && r.field == "position" && r.body == Some(desired)
    ensures Get(address, "0") == Normal(r.unit) && Get(address, "1") == Normal(r.channel)
  {
    Request("PUT", ModuleOf(address), ChannelNumber(address), "position", Some(desired))
  }

  /** An empty channel state makes the blind ask for its position. */
  lemma EmptyChannelFetchesPosition(state: map<string, Value>, address: Value, newState: Value)
    requires IsObjectLike(address) && newState.Obj?
    requires ToText(ChannelNumber(address)) !in newState.fields
    ensures Receive(state, address, "position", newState)
      == Normal(Reception(Some(Request("GET", ModuleOf(address), ChannelNumber(address), "position", None)), Normal(state)))
  {
    assert state + map[] == state;
  }
}

=== FILE: control.dfy ===
/** What the device controls of src/Relay.js, src/RelayDali.js,
    src/Dimmer.js, src/Blind.js and src/Input.js share: the address guard of
    their constructors, the icon-set split, picking their channel out of a
    module update, the HTTP requests they issue and the "since" text. */
module Control {
  import opened Optional
  import opened Numerals
  import opened Strings
  import opened Js
  import opened Utils
  import opened Duration

  // ---------------------------------------------------------------------
  // The constructor guard

  /** JavaScript `v < k` for a number `k`: false when `v` converts to NaN. */
  predicate Below(v: Value, k: int)
  {
    ToNumber(v).Some? && ToNumber(v).value < k
  }

  /** JavaScript `v > k` for a number `k`: false when `v` converts to NaN. */
  predicate Above(v: Value, k: int)
  {
    ToNumber(v).Some? && ToNumber(v).value > k
  }

  /** The guard every control constructor runs on `props[field]`: the
      property must exist, have a `length` of exactly 2, and its element 1
      must not compare below `low` or above `high`. False means the
      constructor throws, either its own error or the TypeError of `in`
      applied to a primitive. */
  function AddressAccepted(props: map<string, Value>, field: string, low: int, high: int): (ok: bool)
    ensures ok ==> field in props && IsObjectLike(props[field])
    ensures ok ==> Get(props[field], "length") == Normal(Num(2))
    ensures ok ==> !Below(Get(props[field], "1").value, low) && !Above(Get(props[field], "1").value, high)
  {
    if field !in props then false
    else
      var address := props[field];
      match Has(address, "length")
      case Throw => false
      case Normal(present) =>
        var channel := Get(address, "1").value;
        present && Get(address, "length") == Normal(Num(2))
        && !Below(channel, low) && !Above(channel, high)
  }

  /** The guard on the usual address shape, an array of two numbers: it
      accepts exactly the channel numbers from `low` to `high`; an array of
      another length, a primitive or a missing property is refused. */
  lemma GuardOnArrays(props: map<string, Value>, field: string, low: int, high: int)
    ensures field !in props ==> !AddressAccepted(props, field, low, high)
    ensures field in props && !IsObjectLike(props[field]) ==> !AddressAccepted(props, field, low, high)
    ensures field in props && props[field].Arr? && |props[field].items| != 2 ==>
      !AddressAccepted(props, field, low, high)
    ensures field in props && props[field].Arr? && |props[field].items| == 2 && props[field].items[1].Num? ==>
      (AddressAccepted(props, field, low, high) <==> low <= props[field].items[1].n <= high)
  {
    if field in props && props[field].Arr? && |props[field].items| == 2 {
      IndexOfOne();
    }
  }

  lemma IndexOfOne()
    ensures IndexOfKey("1") == Some(1)
  {
    IndexOfDecimal(1);
    assert Decimal(1) == "1";
  }

  /** The guard compares, it does not check types. On a two-element array,
      a channel that converts to NaN (`undefined`, an object, a non-numeric
      string) gets through; one that converts to a number (`null` as 0, a
      boolean as 0 or 1, a digit string) is range-checked like a number. */
  lemma GuardLetsNaNThrough(props: map<string, Value>, field: string, low: int, high: int, unit: Value, channel: Value)
    requires field in props && props[field] == Arr([unit, channel])
    ensures ToNumber(channel).None? ==> AddressAccepted(props, field, low, high)
    ensures ToNumber(channel).Some? ==>
      (AddressAccepted(props, field, low, high) <==> low <= ToNumber(channel).value <= high)
  {
    IndexOfOne();
  }

  /** The module address `address[0]`. */
  function ModuleOf(address: Value): (v: Value)
    requires IsObjectLike(address)
    ensures Get(address, "0") == Normal(v)
  {
    Get(address, "0").value
  }

  /** The channel number `address[1]`. */
  function ChannelNumber(address: Value): (v: Value)
    requires IsObjectLike(address)
    ensures Get(address, "1") == Normal(v)
  {
    Get(address, "1").value
  }

  // ---------------------------------------------------------------------
  // The icon set

  /** The image set of a control: `images/<iconset>/<state>.<extension>`. */
  datatype Icon = Icon(iconset: string, extension: string)

  /** The icon split of the constructors: `default_value(icon, fallback)`
      split at its last dot, with "svg" when there is no dot. A value that
      is not a string (`null` included) has no `rsplit` and throws. */
  function IconParts(icon: Value, fallback: string): (r: Completion<Icon>)
    ensures r.Throw? <==> !DefaultValue(icon, Str(fallback)).Str?
    ensures r.Normal? && !Contains(DefaultValue(icon, Str(fallback)).s, ".") ==>
      r.value == Icon(DefaultValue(icon, Str(fallback)).s, "svg")
    ensures r.Normal? && Contains(DefaultValue(icon, Str(fallback)).s, ".") ==>
      && r.value.iconset + "." + r.value.extension == DefaultValue(icon, Str(fallback)).s
      && !Contains(r.value.extension, ".")
  {
    match DefaultValue(icon, Str(fallback))
    case Str(text) =>
      var parts := RSplit(text, ".", 1);
      IconSplit(text);
      if |parts| == 1 then Normal(Icon(parts[0], "svg"))
      else Normal(Icon(parts[0], parts[1]))
    case _ => Throw
  }

  /** `text.rsplit('.', 1)` is the text alone when it has no dot, and
      otherwise the text before and after its last dot. */
  lemma IconSplit(text: string)
    ensures var parts := RSplit(text, ".", 1);
      && 1 <= |parts| <= 2
      && (|parts| == 1 <==> !Contains(text, "."))
      && (|parts| == 1 ==> parts[0] == text)
      && (|parts| == 2 ==> parts[0] + "." + parts[1] == text && !Contains(parts[1], "."))
  {
    var pieces := Split(text, ".");
    var parts := RSplit(text, ".", 1);
    if Contains(text, ".") {
      var i: nat :| i <= |text| && OccursAt(text, ".", i);
      assert IndexOf(text, ".", 0).Some?;
      assert |pieces| >= 2;
      assert parts[1] == pieces[|pieces| - 1];
      assert Join(parts, ".") == parts[0] + "." + parts[1];
    } else {
      RSplitWithoutSeparator(text, ".", 1);
    }
  }

  /** A text splits at its last dot in one way only. */
  lemma LastDotUnique(a: string, b: string, n: string, e: string)
    requires a + "." + b == n + "." + e
    requires !Contains(b, ".") && !Contains(e, ".")
    ensures a == n && b == e
  {
    var s := a + "." + b;
    ContainsChar(b, '.');
    ContainsChar(e, '.');
    assert s[|a|] == '.' && s[|n|] == '.';
    assert forall p :: |a| < p < |s| ==> s[p] == b[p - |a| - 1];
    assert forall p :: |n| < p < |s| ==> s[p] == e[p - |n| - 1];
    assert a == s[..|a|] && n == s[..|n|];
    assert b == s[|a| + 1..] && e == s[|n| + 1..];
  }

  /** The icon partner: `name.ext` with a dot-free extension comes apart as
      that name and that extension, whatever dots the name holds. */
  lemma IconOfNameAndExtension(name: string, ext: string, fallback: string)
    requires !Contains(ext, ".")
    ensures IconParts(Str(name + "." + ext), fallback) == Normal(Icon(name, ext))
  {
    var text := name + "." + ext;
    assert OccursAt(text, ".", |name|) by {
      assert text[|name|..|name| + 1] == ".";
    }
    var icon := IconParts(Str(text), fallback).value;
    LastDotUnique(icon.iconset, icon.extension, name, ext);
  }

  // ---------------------------------------------------------------------
  // The constructor

  /** The constructor shared by the controls: the guard on `props.address`
      with channels 1 to `high`, then the icon split with `fallback` as the
      default icon set. */
  function ConstructControl(props: map<string, Value>, high: int, fallback: string): (r: Completion<Icon>)
    ensures r.Normal? <==>
      AddressAccepted(props, "address", 1, high) && DefaultValue(Field(props, "icon"), Str(fallback)).Str?
    ensures r.Normal? ==> r.value == IconParts(Field(props, "icon"), fallback).value
  {
    if !AddressAccepted(props, "address", 1, high) then Throw
    else IconParts(Field(props, "icon"), fallback)
  }

  /** The usual props, an array address of two numbers and no icon: the
      control gets the default icon set with an "svg" extension exactly when
      its channel number is in range, and throws otherwise. */
  lemma TypicalConstruct(props: map<string, Value>, high: int, fallback: string)
    requires forall i :: 0 <= i < |fallback| ==> fallback[i] != '.'
    ensures && "icon" !in props && "address" in props && props["address"].Arr?
            && |props["address"].items| == 2 && props["address"].items[1].Num?
            ==> ConstructControl(props, high, fallback)
                == if 1 <= props["address"].items[1].n <= high then Normal(Icon(fallback, "svg")) else Throw
  {
    GuardOnArrays(props, "address", 1, high);
    ContainsChar(fallback, '.');
  }

  // ---------------------------------------------------------------------
  // Module updates

  /** `new_state[address[1]]`, with `{}` standing in for a missing channel;
      reading from `undefined` or `null` throws. */
  function ChannelOf(newState: Value, channel: Value): (r: Completion<Value>)
    ensures r.Throw? <==> newState.Undefined? || newState.Null?
    ensures r.Normal? ==> !r.value.Undefined?
    ensures newState.Obj? && ToText(channel) !in newState.fields ==> r == Normal(Obj(map[]))
    ensures newState.Obj? && ToText(channel) in newState.fields && !newState.fields[ToText(channel)].Undefined? ==>
      r == Normal(newState.fields[ToText(channel)])
  {
    match Get(newState, ToText(channel))
    case Throw => Throw
    case Normal(v) => Normal(if v.Undefined? then Obj(map[]) else v)
  }

  /** An HTTP call a control makes: the verb, the module address and
      channel it names in the URL, the field, and the body sent. */
  datatype Request = Request(verb: string, unit: Value, channel: Value, field: string, body: Option<Value>)

  /** What `web_socket_message` does with an update: maybe a GET request
      for the channel's `field`, then React's `setState` merge, which throws
      for a primitive channel state (after the request went out). */
  datatype Reception = Reception(fetch: Option<Request>, state: Completion<map<string, Value>>)

  /** `web_socket_message(new_state)` of Relay, Dimmer, Blind and Input
      (Input's `invert` aside). A `null` update is ignored; an update with
      no entry for the channel, or an empty one, asks the server for the
      channel's `field`. */
  function Receive(state: map<string, Value>, address: Value, field: string, newState: Value): (r: Completion<Reception>)
    requires IsObjectLike(address)
    ensures newState.Null? ==> r == Normal(Reception(None, Normal(state)))
    ensures !newState.Null? ==>
      (r.Throw? <==> newState.Undefined? || ChannelOf(newState, ChannelNumber(address)) == Normal(Null))
    ensures r.Normal? && r.value.fetch.Some? ==>
      r.value.fetch.value == Request("GET", ModuleOf(address), ChannelNumber(address), field, None)
    ensures !newState.Null? && ChannelOf(newState, ChannelNumber(address)).Normal? ==>
      var mine := ChannelOf(newState, ChannelNumber(address)).value;
      mine.Obj? ==> r == Normal(Reception(
        if mine.fields == map[] then Some(Request("GET", ModuleOf(address), ChannelNumber(address), field, None)) else None,
        Normal(state + mine.fields)))
  {
    if newState.Null? then Normal(Reception(None, Normal(state)))
    else
      match ChannelOf(newState, ChannelNumber(address))
      case Throw => Throw
      case Normal(mine) =>
        match KeyCount(mine)
        case Throw => Throw
        case Normal(count) =>
          var fetch := if count == 0 then Some(Request("GET", ModuleOf(address), ChannelNumber(address), field, None)) else None;
          Normal(Reception(fetch, SetState(state, mine)))
  }

  /** Receiving an update changes only the fields the channel's state
      names, and receiving the same update again changes nothing more. */
  lemma ReceiveKeepsOtherFields(state: map<string, Value>, address: Value, field: string, newState: Value)
    requires IsObjectLike(address)
    requires Receive(state, address, field, newState).Normal?
    requires Receive(state, address, field, newState).value.state.Normal?
    ensures var next := Receive(state, address, field, newState).value.state.value;
      && state.Keys <= next.Keys
      && Receive(next, address, field, newState).Normal?
      && Receive(next, address, field, newState).value.state == Normal(next)
  {
    if !newState.Null? {
      var mine := ChannelOf(newState, ChannelNumber(address)).value;
      SetStateIdempotent(state, mine);
    }
  }

  /** Merging the same partial state twice is merging it once. */
  lemma SetStateIdempotent(state: map<string, Value>, partial: Value)
    requires SetState(state, partial).Normal?
    ensures var next := SetState(state, partial).value;
      state.Keys <= next.Keys && SetState(next, partial) == Normal(next)
  {
    var next := state + OwnEntries(partial);
    assert next + OwnEntries(partial) == next;
  }

  // ---------------------------------------------------------------------
  // "Since"

  /** What `seconds_to_dhms` makes of NaN: every unit is NaN and the sign
      test `NaN >= 0` fails. */
  const NaNDhms: string := "-NaNd NaNh NaNm NaNs"

  /** True iff the props carry a usable `last_change`: present and not
      `null`. */
  predicate HasLastChange(props: map<string, Value>)
  {
    "last_change" in props && !props["last_change"].Null?
  }

  lemma AgoIsNotUnknown(x: string)
    ensures x + " ago" != "unknown"
  {
    var t := x + " ago";
    assert t[|t| - 1] == 'o';
  }

  /** The "since" line of the relay and dimmer pop-ups, at time `now` in
      seconds on the server's clock: the time since `last_change`, or
      "unknown" when there is none. */
  function Since(props: map<string, Value>, now: int): (r: string)
    ensures r == "unknown" <==> !HasLastChange(props)
    ensures HasLastChange(props) && props["last_change"].Num? ==>
      r == SecondsToDhms(now - props["last_change"].n) + " ago"
  {
    if HasLastChange(props) then
      var ago := match ToNumber(props["last_change"])
        case Some(t) => SecondsToDhms(now - t)
        case None => NaNDhms;
      AgoIsNotUnknown(ago);
      ago + " ago"
    else "unknown"
  }

  /** The "since" line of the relay-with-dimmer and input pop-ups: a
      counting timer started at `last_change`, or the text "unknown". */
  datatype SinceView = Unknown | Counting(from: Value)

  function SinceShown(props: map<string, Value>): (r: SinceView)
    ensures r.Unknown? <==> !HasLastChange(props)
    ensures r.Counting? ==> r.from == props["last_change"] && !r.from.Null?
  {
    if "last_change" in props && props["last_change"] != Null then Counting(props["last_change"])
    else Unknown
  }

  /** The timer view and the text view agree on when the time of the last
      change is unknown. */
  lemma SinceViewsAgree(props: map<string, Value>, now: int)
    ensures SinceShown(props).Unknown? <==> Since(props, now) == "unknown"
  {
  }
}

=== FILE: dimmer.dfy ===
/** The dimmer control of src/Dimmer.js: its constructor, the icon it shows
    for the dim value, the pop-up that mirrors the dim value, and the
    command of its slider. */
module Dimmer {
  import opened Optional
  import opened Js
  import opened Utils
  import opened Control

  /** Dimmer modules have channels 1 to 4. */
  const Channels: int := 4

  /** The state a dimmer starts with, before any update. */
  const Initial: map<string, Value> := map["dimvalue" := Num(0)]

  /** The constructor: the address guard with channels 1..4, then the icon
      set, "light" by default. */
  function Construct(props: map<string, Value>): (r: Completion<Icon>)
    ensures r.Normal? <==>
      AddressAccepted(props, "address", 1, Channels) && DefaultValue(Field(props, "icon"), Str("light")).Str?
    ensures r.Normal? ==> r.value == IconParts(Field(props, "icon"), "light").value
    ensures && "icon" !in props && "address" in props && props["address"].Arr?
            && |props["address"].items| == 2 && props["address"].items[1].Num?
            ==> r == (if 1 <= props["address"].items[1].n <= Channels then Normal(Icon("light", "svg")) else Throw)
  {
    TypicalConstruct(props, Channels, "light");
    ConstructControl(props, Channels, "light")
  }

  /** The image state of the icon, by strict comparison: exactly the number
      0 is "off", exactly 100 is "on", anything else (a string "0"
      included) is "dimmed". */
  function IconState(dimvalue: Value): (r: string)
    ensures r == "off" <==> dimvalue == Num(0)
    ensures r == "on" <==> dimvalue == Num(100)
    ensures r == "dimmed" <==> dimvalue != Num(0) && dimvalue != Num(100)
  {
    if dimvalue == Num(0) then "off"
    else if dimvalue == Num(100) then "on"
    else "dimmed"
  }

  /** A new dimmer shows the "off" icon until its first update. */
  lemma InitiallyOff()
    ensures IconState(Field(Initial, "dimvalue")) == "off"
  {
  }

  /** The pop-up `DimmerControl`: its props and its own state. */
  datatype Panel = Panel(props: map<string, Value>, state: map<string, Value>)

  /** The constructor copies the `dimvalue` prop into the state (a missing
      prop is copied as `undefined`). */
  function Open(props: map<string, Value>): (p: Panel)
    ensures p.props == props && p.state.Keys == {"dimvalue"}
    ensures Mirrors(p)
  {
    Panel(props, map["dimvalue" := Field(props, "dimvalue")])
  }

  /** What happens to an open pop-up, each at time `now`: new props from
      the dimmer; the constructor's zero-delay timeout, which calls
      `componentWillReceiveProps` directly with the props the pop-up was
      built with (`ctorProps`), so `this.props` stay as they are; or a tick
      of its one-second timer. */
  datatype PanelEvent =
    | NewProps(next: map<string, Value>, now: int)
    | Deferred(ctorProps: map<string, Value>, now: int)
    | Tick(now: int)

  /** As written: `componentWillReceiveProps(nextProps)` copies the
      `dimvalue` of `nextProps` into the state and then runs `updateTimer`,
      which reads `this.props`. React replaces the props with new ones only
      afterwards, and the constructor's direct call does not replace them at
      all. A tick runs `updateTimer` alone. */
  function StepAsWritten(p: Panel, e: PanelEvent): (q: Panel)
    ensures e.NewProps? ==> q.props == e.next && "dimvalue" in q.state && q.state["dimvalue"] == Field(e.next, "dimvalue")
    ensures e.Deferred? ==> q.props == p.props && "dimvalue" in q.state && q.state["dimvalue"] == Field(e.ctorProps, "dimvalue")
    ensures !e.Tick? ==> "since" in q.state && q.state["since"] == Str(Since(p.props, e.now))
    ensures e.Tick? ==> q.props == p.props && q.state == p.state["since" := Str(Since(p.props, e.now))]
  {
    match e
    case NewProps(next, now) =>
      Panel(next, p.state["dimvalue" := Field(next, "dimvalue")]["since" := Str(Since(p.props, now))])
    case Deferred(ctorProps, now) =>
      Panel(p.props, p.state["dimvalue" := Field(ctorProps, "dimvalue")]["since" := Str(Since(p.props, now))])
    case Tick(now) =>
      Panel(p.props, p.state["since" := Str(Since(p.props, now))])
  }

  /** The corrected handling: the deferred call passes the props the
      pop-up has when the timeout fires, so it only refreshes "since" and
      re-reads the current dim value; the other events are as written. */
  function Step(p: Panel, e: PanelEvent): (q: Panel)
    ensures e.Deferred? ==> q.props == p.props && Mirrors(q)
    ensures e.Deferred? ==> "since" in q.state && q.state["since"] == Str(Since(p.props, e.now))
    ensures !e.Deferred? ==> q == StepAsWritten(p, e)
  {
    match e
    case Deferred(_, now) => StepAsWritten(p, NewProps(p.props, now))
    case _ => StepAsWritten(p, e)
  }

  /** The events one after the other, as written. */
  function RunAsWritten(p: Panel, events: seq<PanelEvent>): Panel
    decreases |events|
  {
    if events == [] then p else RunAsWritten(StepAsWritten(p, events[0]), events[1..])
  }

  /** The events one after the other, with the corrected deferred call. */
  function Run(p: Panel, events: seq<PanelEvent>): Panel
    decreases |events|
  {
    if events == [] then p else Run(Step(p, events[0]), events[1..])
  }

  /** The pop-up's dim value is the `dimvalue` prop it currently has. */
  predicate Mirrors(p: Panel)
  {
    "dimvalue" in p.state && p.state["dimvalue"] == Field(p.props, "dimvalue")
  }

  /** With the corrected deferred call, the pop-up mirrors its `dimvalue`
      prop after construction and after any sequence of events. */
  lemma {:induction false} AlwaysMirrors(props: map<string, Value>, events: seq<PanelEvent>)
    ensures Mirrors(Run(Open(props), events))
  {
    MirrorsAfter(Open(props), events);
  }

  lemma {:induction false} MirrorsAfter(p: Panel, events: seq<PanelEvent>)
    requires Mirrors(p)
    ensures Mirrors(Run(p, events))
    decreases |events|
  {
    if events != [] {
      MirrorsAfter(Step(p, events[0]), events[1..]);
    }
  }

  /** As written, the pop-up also mirrors its prop when the deferred call
      comes before any prop update, which is the order when the timeout
      fires before the next module update reaches the dimmer. */
  lemma {:induction false} AsWrittenMirrorsWhenTimerFirst(
    props: map<string, Value>, before: seq<PanelEvent>, now: int, after: seq<PanelEvent>)
    requires forall i | 0 <= i < |before| :: before[i].Tick?
    requires forall i | 0 <= i < |after| :: !after[i].Deferred?
    ensures Mirrors(RunAsWritten(Open(props), before + [Deferred(props, now)] + after))
  {
    var events := before + [Deferred(props, now)] + after;
    RunAsWrittenAppend(Open(props), before + [Deferred(props, now)], after);
    RunAsWrittenAppend(Open(props), before, [Deferred(props, now)]);
    TicksKeepProps(Open(props), before);
    var p := RunAsWritten(Open(props), before);
    assert RunAsWritten(p, [Deferred(props, now)]) == StepAsWritten(p, Deferred(props, now));
    AsWrittenMirrorsWithoutDeferred(StepAsWritten(p, Deferred(props, now)), after);
  }

  /** Running two stretches of events is running their concatenation. */
  lemma {:induction false} RunAsWrittenAppend(p: Panel, a: seq<PanelEvent>, b: seq<PanelEvent>)
    ensures RunAsWritten(p, a + b) == RunAsWritten(RunAsWritten(p, a), b)
    decreases |a|
  {
    if a != [] {
      assert (a + b)[1..] == a[1..] + b;
      RunAsWrittenAppend(StepAsWritten(p, a[0]), a[1..], b);
    } else {
      assert a + b == b;
    }
  }

  /** Ticks keep the props and the dim value. */
  lemma {:induction false} TicksKeepProps(p: Panel, ticks: seq<PanelEvent>)
    requires forall i | 0 <= i < |ticks| :: ticks[i].Tick?
    ensures var q := RunAsWritten(p, ticks);
      q.props == p.props && ("dimvalue" in p.state ==> "dimvalue" in q.state && q.state["dimvalue"] == p.state["dimvalue"])
    decreases |ticks|
  {
    if ticks != [] {
      TicksKeepProps(StepAsWritten(p, ticks[0]), ticks[1..]);
    }
  }

  /** Without a deferred call, prop updates and ticks keep the mirror. */
  lemma {:induction false} AsWrittenMirrorsWithoutDeferred(p: Panel, events: seq<PanelEvent>)
    requires Mirrors(p)
    requires forall i | 0 <= i < |events| :: !events[i].Deferred?
    ensures Mirrors(RunAsWritten(p, events))
    decreases |events|
  {
    if events != [] {
      AsWrittenMirrorsWithoutDeferred(StepAsWritten(p, events[0]), events[1..]);
    }
  }

  /** The defect: a prop update that reaches the pop-up before its
      zero-delay timeout fires is undone by the deferred call, which writes
      back the dim value the pop-up was built with, so the slider shows a
      stale value under the new props. The corrected call keeps the new
      value. */
  lemma StaleAfterEarlyUpdate(p0: map<string, Value>, p1: map<string, Value>, t0: int, t1: int)
    requires Field(p0, "dimvalue") != Field(p1, "dimvalue")
    ensures var q := RunAsWritten(Open(p0), [NewProps(p1, t0), Deferred(p0, t1)]);
      && q.props == p1 && "dimvalue" in q.state && q.state["dimvalue"] == Field(p0, "dimvalue")
      && !Mirrors(q)
    ensures Mirrors(Run(Open(p0), [NewProps(p1, t0), Deferred(p0, t1)]))
  {
    var events := [NewProps(p1, t0), Deferred(p0, t1)];
    assert events[1..] == [Deferred(p0, t1)];
    assert events[1..][1..] == [];
    var first := StepAsWritten(Open(p0), events[0]);
    var second := StepAsWritten(first, events[1]);
    assert RunAsWritten(first, events[1..]) == RunAsWritten(second, []);
    AlwaysMirrors(p0, events);
  }

  /** `changeDimvalue`: the slider's value is PUT to the dim value of this
      dimmer's own module and channel. */
  function DimRequest(address: Value, desired: Value): (r: Request)
    requires IsObjectLike(address)
    ensures r.verb == "PUT" && r.field == "dimvalue" && r.body == Some(desired)
    ensures Get(address, "0") == Normal(r.unit) && Get(address, "1") == Normal(r.channel)
  {
    Request("PUT", ModuleOf(address), ChannelNumber(address), "dimvalue", Some(desired))
  }

  /** An update of the channel's dim value changes the icon accordingly and
      asks nothing of the server. */
  lemma UpdateShowsDimValue(state: map<string, Value>, address: Value, newState: Value, dimvalue: Value)
    requires IsObjectLike(address) && newState.Obj?
    requires ToText(ChannelNumber(address)) in newState.fields
    requires var mine := newState.fields[ToText(ChannelNumber(address))];
      mine.Obj? && "dimvalue" in mine.fields && mine.fields["dimvalue"] == dimvalue
    ensures var r := Receive(state, address, "dimvalue", newState);
      && r.Normal? && r.value.fetch.None? && r.value.state.Normal?
      && IconState(Field(r.value.state.value, "dimvalue")) == IconState(dimvalue)
  {
  }
}

=== FILE: duration.dfy ===
/** The duration codec of src/utils.js: `to_custom_bases`, `seconds_to_dhms`
    and `parse_duration`, on whole seconds. */
module Duration {
  import opened Optional
  import opened Numerals
  import opened Strings
  import opened Js

  function Abs(x: int): nat
  {
    if x < 0 then -x else x
  }

  // ---------------------------------------------------------------------
  // to_custom_bases

  predicate PositiveBases(bases: seq<int>)
  {
    forall i :: 0 <= i < |bases| ==> bases[i] > 0
  }

  /** The number written with the unbounded leading part `lead` followed by
      the mixed-radix `digits`, where `digits[i]` counts units of the product
      of the bases after position `i`. */
  function Compose(lead: int, digits: seq<int>, bases: seq<int>): int
    requires |digits| == |bases|
    decreases |bases|
  {
    if bases == [] then lead
    else Compose(lead, digits[..|digits| - 1], bases[..|bases| - 1]) * bases[|bases| - 1]
         + digits[|digits| - 1]
  }

  lemma DivMod(n: nat, b: int)
    requires b > 0
    ensures n == (n / b) * b + n % b
    ensures 0 <= n % b < b
    ensures 0 <= n / b
  {
  }

  /** The digit loop of `to_custom_bases` on a non-negative number: the last
      base yields the least significant digit, and what is left over after
      the first base is the unbounded leading part. */
  function Digits(n: nat, bases: seq<int>): (r: seq<int>)
    requires PositiveBases(bases)
    ensures |r| == |bases| + 1
    ensures r[0] >= 0
    ensures Compose(r[0], r[1..], bases) == n
    ensures forall i :: 1 <= i < |r| ==> 0 <= r[i] < bases[i - 1]
    decreases |bases|
  {
    if bases == [] then [n]
    else
      var k := |bases| - 1;
      var b := bases[k];
      DivMod(n, b);
      var q: nat := n / b;
      var d := n % b;
      var init := Digits(q, bases[..k]);
      var r := init + [d];
      assert r[1..][..k] == init[1..];
      assert r[1..][k] == d;
      assert Compose(r[0], r[1..], bases) == Compose(init[0], init[1..], bases[..k]) * b + d;
      assert forall i :: 1 <= i < |r| ==> 0 <= r[i] < bases[i - 1] by {
        forall i | 1 <= i < |r|
          ensures 0 <= r[i] < bases[i - 1]
        {
          if i < k + 1 {
            assert r[i] == init[i] && bases[..k][i - 1] == bases[i - 1];
          }
        }
      }
      r
  }

  /** `to_custom_bases(number, bases)`: `[sign, lead, digits...]`. */
  function ToCustomBases(number: int, bases: seq<int>): (r: seq<int>)
    requires PositiveBases(bases)
    ensures |r| == |bases| + 2
    ensures r[0] == 1 <==> number >= 0
    ensures r[0] == -1 <==> number < 0
    ensures r[1] >= 0
    ensures Compose(r[1], r[2..], bases) == Abs(number)
    ensures forall i :: 2 <= i < |r| ==> 0 <= r[i] < bases[i - 2]
  {
    var sign := if number >= 0 then 1 else -1;
    var digits := Digits(Abs(number), bases);
    var r := [sign] + digits;
    assert r[2..] == digits[1..];
    assert forall i :: 2 <= i < |r| ==> r[i] == digits[i - 1];
    r
  }

  const DhmsBases: seq<int> := [24, 60, 60]
  const DhmsUnits: seq<string> := ["d", "h", "m", "s"]
  const DhmsWeights: seq<nat> := [86400, 3600, 60, 1]

  /** Days, hours, minutes and seconds of a signed number of seconds. */
  lemma DayHourMinuteSecond(number: int)
    ensures var r := ToCustomBases(number, DhmsBases);
      && (r[0] == 1 <==> number >= 0)
      && r[1] * 86400 + r[2] * 3600 + r[3] * 60 + r[4] == Abs(number)
      && r[1] >= 0 && 0 <= r[2] < 24 && 0 <= r[3] < 60 && 0 <= r[4] < 60
  {
    var r := ToCustomBases(number, DhmsBases);
    var lead := r[1];
    var ds := r[2..];
    assert ds == [r[2], r[3], r[4]];
    assert ds[..2] == [r[2], r[3]] && ds[..2][..1] == [r[2]] && ds[..2][..1][..0] == [];
    assert DhmsBases[..2] == [24, 60] && DhmsBases[..2][..1] == [24] && DhmsBases[..2][..1][..0] == [];
    var c1 := Compose(lead, [r[2]], [24]);
    assert c1 == lead * 24 + r[2];
    var c2 := Compose(lead, [r[2], r[3]], [24, 60]);
    assert c2 == c1 * 60 + r[3];
    assert Compose(lead, ds, DhmsBases) == c2 * 60 + r[4];
    assert 0 <= r[2] < 24 && 0 <= r[3] < 60 && 0 <= r[4] < 60;
  }

  /** The days, hours, minutes and seconds `to_custom_bases(seconds, [24, 60,
      60])` yields after the sign. */
  function DhmsDigits(seconds: int): (ds: seq<nat>)
    ensures |ds| == 4
    ensures ds[0] * 86400 + ds[1] * 3600 + ds[2] * 60 + ds[3] == Abs(seconds)
    ensures ds[1] < 24 && ds[2] < 60 && ds[3] < 60
  {
    var r := ToCustomBases(seconds, DhmsBases);
    DayHourMinuteSecond(seconds);
    [r[1], r[2], r[3], r[4]]
  }

  // ---------------------------------------------------------------------
  // seconds_to_dhms

  /** How many leading zero units `seconds_to_dhms` drops: all leading zeros,
      but never the last unit. */
  function LeadingZeros(ds: seq<int>): (k: nat)
    requires |ds| >= 1
    ensures k < |ds|
    ensures forall i :: 0 <= i < k ==> ds[i] == 0
    ensures k < |ds| - 1 ==> ds[k] != 0
  {
    if ds[0] == 0 && |ds| > 1 then 1 + LeadingZeros(ds[1..]) else 0
  }

  /** Each remaining count followed by its unit letter, e.g. "5m". */
  function Render(ds: seq<nat>, units: seq<string>): (r: seq<string>)
    requires |ds| == |units|
    ensures |r| == |ds|
    ensures forall i :: 0 <= i < |ds| ==> r[i] == Decimal(ds[i]) + units[i]
  {
    seq(|ds|, i requires 0 <= i < |ds| => Decimal(ds[i]) + units[i])
  }

  /** The units `seconds_to_dhms` writes, from the first non-zero one (or
      the seconds) on, each as count and letter, separated by spaces. */
  function DhmsBody(ds: seq<nat>): (r: string)
    requires |ds| == 4
    ensures |r| >= 2 && IsDecimalDigit(r[0]) && r[|r| - 1] == 's'
  {
    var k := LeadingZeros(ds);
    var pieces := Render(ds[k..], DhmsUnits[k..]);
    RenderedEnds(ds, k);
    JoinLast(pieces, " ");
    JoinFirst(pieces, " ");
    Join(pieces, " ")
  }

  /** The first rendered piece starts with a digit, the last ends in 's'. */
  lemma RenderedEnds(ds: seq<nat>, k: nat)
    requires |ds| == 4 && k < 4
    ensures var pieces := Render(ds[k..], DhmsUnits[k..]);
      && |pieces| >= 1 && |pieces[0]| >= 1 && IsDecimalDigit(pieces[0][0])
      && |pieces[|pieces| - 1]| >= 1 && pieces[|pieces| - 1][|pieces[|pieces| - 1]| - 1] == 's'
  {
    var pieces := Render(ds[k..], DhmsUnits[k..]);
    var first := Decimal(ds[k]);
    assert pieces[0] == first + DhmsUnits[k];
    assert IsDigitOf(first[0], 10);
    assert pieces[|pieces| - 1] == Decimal(ds[3]) + "s";
  }

  /** `seconds_to_dhms(seconds)` for a whole number of seconds. */
  function SecondsToDhms(seconds: int): (r: string)
    ensures |r| >= 2
    ensures r[0] == '-' <==> seconds < 0
    ensures r[|r| - 1] == 's'
  {
    var sign := if ToCustomBases(seconds, DhmsBases)[0] < 0 then "-" else "";
    sign + DhmsBody(DhmsDigits(seconds))
  }

  lemma {:induction false} JoinLast(parts: seq<string>, sep: string)
    requires |parts| >= 1 && |parts[|parts| - 1]| >= 1
    ensures |Join(parts, sep)| >= |parts[|parts| - 1]|
    ensures Join(parts, sep)[|Join(parts, sep)| - 1] == parts[|parts| - 1][|parts[|parts| - 1]| - 1]
    decreases |parts|
  {
    if |parts| > 1 {
      JoinLast(parts[1..], sep);
      assert parts[1..][|parts[1..]| - 1] == parts[|parts| - 1];
    }
  }

  lemma JoinFirst(parts: seq<string>, sep: string)
    requires |parts| >= 1 && |parts[0]| >= 1
    ensures |Join(parts, sep)| >= 1 && Join(parts, sep)[0] == parts[0][0]
  {
  }

  // ---------------------------------------------------------------------
  // parse_duration

  /** The unit alternatives of the token pattern in the order the regular
      expression tries them (`seconds?` tries "seconds" before "second"). */
  const UnitAlternatives: seq<string> := [
    "\"", "seconds", "second", "secs", "sec", "s",
    "'", "minutes", "minute", "mins", "min", "mi", "m",
    "hours", "hour", "h",
    "days", "day", "d",
    "weeks", "week", "w",
    "months", "month", "mo",
    "years", "year", "y"]

  /** The characters the look-ahead `(?!['"a-zA-Z])` forbids after a unit. */
  predicate IsUnitChar(c: char)
  {
    c == '\'' || c == '"' || ('a' <= c <= 'z') || ('A' <= c <= 'Z')
  }

  /** True iff unit `u` can be matched at the start of `t`: `t` begins with
      `u` and the next character, if any, is not a letter or quote. */
  predicate UnitMatches(t: string, u: string)
  {
    && |u| <= |t| && t[..|u|] == u
    && (|t| == |u| || !IsUnitChar(t[|u|]))
  }

  /** The position of the first alternative, from `from` on, that matches at
      the start of `t`. */
  function FirstUnit(t: string, alts: seq<string>, from: nat): (r: Option<nat>)
    ensures r.Some? ==> from <= r.value < |alts| && UnitMatches(t, alts[r.value])
    decreases |alts| - from, t
  {
    if from >= |alts| then None
    else if UnitMatches(t, alts[from]) then Some(from)
    else FirstUnit(t, alts, from + 1)
  }

  /** The length of the run of decimal digits `\d+` at the start of `s`. */
  function DigitRun(s: string): (k: nat)
    ensures k <= |s|
    ensures forall i :: 0 <= i < k ==> IsDecimalDigit(s[i])
    ensures k < |s| ==> !IsDecimalDigit(s[k])
  {
    if s != [] && IsDecimalDigit(s[0]) then 1 + DigitRun(s[1..]) else 0
  }

  /** One matched token as text: its digits (`(\d+)`) and its unit. */
  datatype Token = Token(digits: string, unit: string)

  /** True iff `s` is made of decimal digits only. */
  predicate DecimalText(s: string)
  {
    forall i :: 0 <= i < |s| ==> IsDecimalDigit(s[i])
  }


  /** A matched unit and the length of text it consumes. */
  datatype Part = Part(unit: string, length: nat)

  /** A match of the token pattern and the length of text it consumes. */
  datatype Hit = Hit(token: Token, length: nat)

  lemma DecimalDigitsOf(s: string)
    requires DecimalText(s)
    ensures AllDigitsOf(s, 10)
  {
  }

  /** The value of a run of decimal digits. */
  function DigitsValue(run: string): nat
    requires DecimalText(run)
  {
    DecimalDigitsOf(run);
    Read(run, 10)
  }

  /** The unit alternation as the regular expression tries it: the first
      alternative, in the pattern's order, that matches at the start of `t`. */
  function RegexUnit(t: string): (r: Option<string>)
    ensures r.Some? ==> UnitMatches(t, r.value)
  {
    match FirstUnit(t, UnitAlternatives, 0)
    case Some(i) => Some(UnitAlternatives[i])
    case None => None
  }

  /** The run of letters and quotes at the start of `t`. */
  function UnitWord(t: string): (w: string)
    ensures |w| <= |t| && t[..|w|] == w
    ensures AllUnitChars(w)
    ensures |w| < |t| ==> !IsUnitChar(t[|w|])
    decreases |t|
  {
    if t != [] && IsUnitChar(t[0]) then [t[0]] + UnitWord(t[1..]) else []
  }

  /** The unit picked at the start of `t`: the whole run of letters and
      quotes, when it is a known unit. `PickUnitIsRegexUnit` shows this is
      the alternative the regular expression picks. */
  function PickUnit(t: string): (r: Option<string>)
    ensures r.Some? ==> UnitMatches(t, r.value) && |r.value| >= 1 && Listed(r.value, 0)
  {
    var w := UnitWord(t);
    if Listed(w, 0) then
      ListedIndex(w, 0);
      UnitFacts();
      Some(w)
    else None
  }

  /** True iff `w` is one of the pattern's alternatives from position `from`
      on. */
  predicate Listed(w: string, from: nat)
    decreases |UnitAlternatives| - from, w
  {
    from < |UnitAlternatives| && (w == UnitAlternatives[from] || Listed(w, from + 1))
  }

  lemma {:induction false} ListedIndex(w: string, from: nat)
    requires Listed(w, from)
    ensures exists j :: from <= j < |UnitAlternatives| && UnitAlternatives[j] == w
    decreases |UnitAlternatives| - from
  {
    if w != UnitAlternatives[from] {
      ListedIndex(w, from + 1);
    }
  }

  lemma {:induction false} IndexListed(w: string, from: nat, j: nat)
    requires from <= j < |UnitAlternatives| && UnitAlternatives[j] == w
    ensures Listed(w, from)
    decreases j - from
  {
    if j > from {
      IndexListed(w, from + 1, j);
    }
  }

  /** The unit part ` ?(unit)(?!['"a-zA-Z])` at the start of `t`, with the
      length it consumes: the optional space is tried first. */
  function UnitPart(t: string): (r: Option<Part>)
    ensures r.Some? ==> Listed(r.value.unit, 0) && 0 < r.value.length <= |t|
  {
    if |t| > 0 && t[0] == ' ' && PickUnit(t[1..]).Some? then
      var u := PickUnit(t[1..]).value;
      Some(Part(u, 1 + |u|))
    else if PickUnit(t).Some? then
      var u := PickUnit(t).value;
      Some(Part(u, |u|))
    else None
  }

  /** The token pattern anchored at the start of `s`, with the length of the
      text it consumes. Greedy `\d+` then the unit part; backtracking into
      the digits cannot help, as a digit never starts a unit. */
  function MatchAt(s: string): (r: Option<Hit>)
    ensures r.Some? ==> 0 < r.value.length <= |s|
    ensures r.Some? ==> |r.value.token.digits| >= 1 && DecimalText(r.value.token.digits)
    ensures r.Some? ==> Listed(r.value.token.unit, 0)
  {
    var k := DigitRun(s);
    if k == 0 then None
    else
      var part := UnitPart(s[k..]);
      if part.None? then None
      else Some(Hit(Token(s[..k], part.value.unit), k + part.value.length))
  }

  /** `duration.match(pattern)` with the global flag: scan from the left,
      take a match and continue after it, or move on by one character. */
  function Tokens(s: string): (r: seq<Token>)
    ensures forall i :: 0 <= i < |r| ==> |r[i].digits| >= 1 && DecimalText(r[i].digits)
    ensures forall i :: 0 <= i < |r| ==> Listed(r[i].unit, 0)
    decreases |s|
  {
    if s == [] then []
    else
      match MatchAt(s)
      case Some(Hit(tok, len)) => [tok] + Tokens(s[len..])
      case None => Tokens(s[1..])
  }

  /** The `switch` on the unit: seconds per unit, `None` for its default
      branch. A month is 30 days, a year 365 days. */
  function Multiplier(unit: string): Option<nat>
  {
    if unit in {"\"", "s", "seconds", "second", "secs", "sec"} then Some(1)
    else if unit in {"'", "m", "mi", "mins", "min", "minutes", "minute"} then Some(60)
    else if unit in {"h", "hours", "hour"} then Some(60 * 60)
    else if unit in {"d", "days", "day"} then Some(60 * 60 * 24)
    else if unit in {"w", "weeks", "week"} then Some(60 * 60 * 24 * 7)
    else if unit in {"mo", "months", "month"} then Some(60 * 60 * 24 * 30)
    else if unit in {"y", "years", "year"} then Some(60 * 60 * 24 * 365)
    else None
  }

  /** The running sum `duration += digits * multiply`; the default branch
      of the switch returns `undefined` out of the loop (`None`). */
  function Total(tokens: seq<Token>): Option<nat>
    requires forall i :: 0 <= i < |tokens| ==> DecimalText(tokens[i].digits)
  {
    if tokens == [] then Some(0)
    else
      match (Multiplier(tokens[0].unit), Total(tokens[1..]))
      case (Some(m), Some(rest)) => Some(DigitsValue(tokens[0].digits) * m + rest)
      case _ => None
  }

  /** `parse_duration(text)` on a string: `None` when no token matches, where
      `match` gives `null` and iterating over it throws. */
  function ParseDurationText(text: string): (r: Option<nat>)
    ensures r.Some? <==> Tokens(text) != []
    ensures r.Some? ==> Some(r.value) == Total(Tokens(text))
  {
    var tokens := Tokens(text);
    TotalDefined(tokens);
    if tokens == [] then None else Total(tokens)
  }

  /** `parse_duration(value)` on any value: `undefined` for a non-string,
      the number of seconds, or a thrown TypeError when nothing matches. */
  function ParseDuration(value: Value): (r: Completion<Value>)
    ensures !value.Str? ==> r == Normal(Undefined)
    ensures value.Str? ==> (r.Throw? <==> Tokens(value.s) == [])
    ensures value.Str? && r.Normal? ==> r.value.Num? && r.value.n >= 0
  {
    match value
    case Str(text) =>
      (match ParseDurationText(text)
       case Some(seconds) => Normal(Num(seconds))
       case None => Throw)
    case _ => Normal(Undefined)
  }

  /** Every alternative of the pattern is a non-empty word of letters or
      quotes and has a multiplier: the default branch of the switch is
      unreachable. */
  lemma UnitFacts()
    ensures forall i :: 0 <= i < |UnitAlternatives| ==>
      |UnitAlternatives[i]| >= 1 && AllUnitChars(UnitAlternatives[i])
      && Multiplier(UnitAlternatives[i]).Some?
  {
  }

  lemma {:induction false} TotalDefined(tokens: seq<Token>)
    requires forall i :: 0 <= i < |tokens| ==> DecimalText(tokens[i].digits)
    requires forall i :: 0 <= i < |tokens| ==> Listed(tokens[i].unit, 0)
    ensures Total(tokens).Some?
    decreases |tokens|
  {
    if tokens != [] {
      SwitchCoversAlternatives(tokens[0].unit);
      TotalDefined(tokens[1..]);
    }
  }

  predicate AllUnitChars(u: string)
  {
    forall i :: 0 <= i < |u| ==> IsUnitChar(u[i])
  }

  /** Two units made of letters and quotes that both match at the same place
      are the same unit: each must extend to the first non-unit character. */
  lemma MatchedUnitsAgree(t: string, a: string, b: string)
    requires AllUnitChars(a) && AllUnitChars(b)
    requires UnitMatches(t, a) && UnitMatches(t, b)
    ensures a == b
  {
  }

  /** The order of the alternatives does not matter: whichever matching
      alternative is found first, it is the same text as any other that
      matches. */
  lemma {:induction false} FirstUnitIsOnlyUnit(t: string, alts: seq<string>, from: nat, j: nat)
    requires forall i :: 0 <= i < |alts| ==> AllUnitChars(alts[i])
    requires from <= j < |alts| && UnitMatches(t, alts[j])
    ensures FirstUnit(t, alts, from).Some?
    ensures alts[FirstUnit(t, alts, from).value] == alts[j]
    decreases j - from
  {
    if UnitMatches(t, alts[from]) {
      MatchedUnitsAgree(t, alts[from], alts[j]);
    } else {
      FirstUnitIsOnlyUnit(t, alts, from + 1, j);
    }
  }

  /** Every known unit is one of the pattern's alternatives. */
  lemma KnownUnitListed(w: string)
    requires Multiplier(w).Some?
    ensures w in UnitAlternatives
  {
  }

  /** The cases of the `switch` are exactly the alternatives of the pattern:
      a unit has a multiplier if and only if the pattern can match it. */
  lemma SwitchCoversAlternatives(w: string)
    ensures Multiplier(w).Some? <==> Listed(w, 0)
  {
    if Multiplier(w).Some? {
      KnownUnitListed(w);
      var j :| 0 <= j < |UnitAlternatives| && UnitAlternatives[j] == w;
      IndexListed(w, 0, j);
    }
    if Listed(w, 0) {
      ListedIndex(w, 0);
      UnitFacts();
    }
  }

  /** A unit made of letters and quotes matches exactly when it is the whole
      run of letters and quotes. */
  lemma UnitWordIsMatch(t: string, u: string)
    requires AllUnitChars(u)
    ensures UnitMatches(t, u) <==> u == UnitWord(t)
  {
    if UnitMatches(t, u) {
      MatchedUnitsAgree(t, u, UnitWord(t));
    }
  }

  /** The order of the alternatives does not matter: the unit the scan picks
      is the one the regular expression's ordered alternation picks. */
  lemma PickUnitIsRegexUnit(t: string)
    ensures PickUnit(t) == RegexUnit(t)
  {
    UnitFacts();
    match FirstUnit(t, UnitAlternatives, 0)
    case Some(i) =>
      UnitWordIsMatch(t, UnitAlternatives[i]);
      IndexListed(UnitAlternatives[i], 0, i);
    case None =>
      NoAlternativeNoWord(t);
  }

  lemma NoAlternativeNoWord(t: string)
    requires FirstUnit(t, UnitAlternatives, 0).None?
    ensures !Listed(UnitWord(t), 0)
  {
    var w := UnitWord(t);
    if Listed(w, 0) {
      ListedIndex(w, 0);
      var j :| 0 <= j < |UnitAlternatives| && UnitAlternatives[j] == w;
      UnitFacts();
      FirstUnitIsOnlyUnit(t, UnitAlternatives, 0, j);
      assert false;
    }
  }
}

=== FILE: duration_examples.dfy ===
/** Worked examples of the duration codec of src/utils.js. */
module DurationExamples {
  import opened Optional
  import opened Js
  import opened Numerals
  import opened Duration
  import opened DurationRoundTrip

  lemma ZeroSeconds()
    ensures SecondsToDhms(0) == "0s"
  {
  }

  lemma MinusSixtyFive()
    ensures SecondsToDhms(-65) == "-1m 5s"
  {
    var ds := DhmsDigits(-65);
    DhmsDigitsAre(-65, 0, 0, 1, 5);
    assert [0, 0, 1, 5][1..] == [0, 1, 5] && [0, 1, 5][1..] == [1, 5];
    assert LeadingZeros([1, 5]) == 0;
    assert LeadingZeros([0, 1, 5]) == 1;
    assert LeadingZeros(ds) == 2;
    assert ds[2..] == [1, 5] && DhmsUnits[2..] == ["m", "s"];
    assert Decimal(1) == "1" && Decimal(5) == "5";
    var r := Render([1, 5], ["m", "s"]);
    assert r[0] == Decimal(1) + "m" && r[1] == Decimal(5) + "s";
    assert "1" + "m" == "1m" && "5" + "s" == "5s";
    assert r == ["1m", "5s"];
  }

  lemma OneHour()
    ensures SecondsToDhms(3600) == "1h 0m 0s"
  {
    var ds := DhmsDigits(3600);
    DhmsDigitsAre(3600, 0, 1, 0, 0);
    assert [0, 1, 0, 0][1..] == [1, 0, 0];
    assert LeadingZeros([1, 0, 0]) == 0;
    assert LeadingZeros(ds) == 1;
    assert ds[1..] == [1, 0, 0] && DhmsUnits[1..] == ["h", "m", "s"];
    assert Decimal(1) == "1" && Decimal(0) == "0";
    var r := Render([1, 0, 0], ["h", "m", "s"]);
    assert r[0] == Decimal(1) + "h" && r[1] == Decimal(0) + "m" && r[2] == Decimal(0) + "s";
    assert "1" + "h" == "1h" && "0" + "m" == "0m" && "0" + "s" == "0s";
    assert r == ["1h", "0m", "0s"];
  }

  /** The bounded day-hour-minute-second decomposition is unique. */
  lemma DhmsDigitsAre(n: int, d: nat, h: nat, m: nat, s: nat)
    requires h < 24 && m < 60 && s < 60
    requires d * 86400 + h * 3600 + m * 60 + s == Abs(n)
    ensures DhmsDigits(n) == [d, h, m, s]
  {
    var ds := DhmsDigits(n);
    QuotientUnique(ds[0] * 1440 + ds[1] * 60 + ds[2], ds[3], d * 1440 + h * 60 + m, s, 60);
    QuotientUnique(ds[0] * 24 + ds[1], ds[2], d * 24 + h, m, 60);
    QuotientUnique(ds[0], ds[1], d, h, 24);
  }

  /** A quotient and remainder by 24 or 60 are determined by the number. */
  lemma QuotientUnique(q1: int, r1: int, q2: int, r2: int, b: int)
    requires b == 24 || b == 60
    requires 0 <= r1 < b && 0 <= r2 < b
    requires q1 * b + r1 == q2 * b + r2
    ensures q1 == q2 && r1 == r2
  {
    if b == 24 {
      assert q1 * 24 + r1 == q2 * 24 + r2;
    } else {
      assert q1 * 60 + r1 == q2 * 60 + r2;
    }
  }

  /** Adjacent tokens need no space between them. */
  lemma HourAndAHalf(text: string)
    requires text == "1h30m"
    ensures ParseDuration(Str(text)) == Normal(Num(5400))
  {
    var tokens := DhmsTokens([1, 30], ["h", "m"]);
    assert Tokens(text) == tokens && tokens != [] by {
      HourAndAHalfTokens(text);
    }
    assert Total(tokens) == Some(5400) by {
      assert Multiplier("h") == Some(3600) && Multiplier("m") == Some(60);
      TotalOfTokens([1, 30], ["h", "m"], [3600, 60]);
      HourAndAHalfSum();
    }
  }

  lemma HourAndAHalfTokens(text: string)
    requires text == "1h30m"
    ensures Tokens(text) == DhmsTokens([1, 30], ["h", "m"])
  {
    assert text == Decimal(1) + "h" + (Decimal(30) + "m") by {
      assert Decimal(1) == "1" && Decimal(30) == "30";
    }
    TwoAdjacentPieces(1, "h", 30, "m");
  }

  /** Two pieces written without a space between them are two tokens. */
  lemma TwoAdjacentPieces(a: nat, u: string, b: nat, v: string)
    requires IsDhmsUnit(u) && IsDhmsUnit(v)
    ensures Tokens(Decimal(a) + u + (Decimal(b) + v)) == DhmsTokens([a, b], [u, v])
  {
    var first, second := Token(Decimal(a), u), Decimal(b) + v;
    assert Tokens(second) == [Token(Decimal(b), v)] by {
      assert second == Decimal(b) + v + [];
      TokensAfterPiece(b, v, []);
    }
    assert Tokens(Decimal(a) + u + second) == [first] + Tokens(second) by {
      assert IsDigitOf(Decimal(b)[0], 10);
      TokensAfterPiece(a, u, second);
    }
    assert DhmsTokens([a, b], [u, v]) == [first, Token(Decimal(b), v)];
  }

  lemma HourAndAHalfSum()
    ensures WeightedSum([1, 30], [3600, 60]) == 5400
  {
    assert [1, 30][1..] == [30] && [3600, 60][1..] == [60];
  }

  lemma NoTokenThrows()
    ensures ParseDuration(Str("banana")).Throw?
    ensures ParseDuration(Str("")).Throw?
  {
  }

  lemma NotAString()
    ensures ParseDuration(Num(5)) == Normal(Undefined)
  {
  }
}

=== FILE: duration_roundtrip.dfy ===
/** The round trip between the two halves of the duration codec of
    src/utils.js: `parse_duration(seconds_to_dhms(n))` is the magnitude of
    `n`. */
module DurationRoundTrip {
  import opened Optional
  import opened Numerals
  import opened Strings
  import opened Duration

  lemma {:induction false} DigitRunOf(p: string, t: string)
    requires forall i :: 0 <= i < |p| ==> IsDecimalDigit(p[i])
    requires t == [] || !IsDecimalDigit(t[0])
    ensures DigitRun(p + t) == |p|
    decreases |p|
  {
    if p != [] {
      assert (p + t)[1..] == p[1..] + t;
      DigitRunOf(p[1..], t);
    } else {
      assert p + t == t;
    }
  }

  /** The pieces `seconds_to_dhms` writes: a count and one unit letter. */
  predicate IsDhmsUnit(u: string)
  {
    u == "d" || u == "h" || u == "m" || u == "s"
  }

  /** A d/h/m/s letter followed by nothing, a space or a digit is the unit
      picked. */
  lemma DhmsUnitPicked(u: string, rest: string)
    requires IsDhmsUnit(u)
    requires rest == [] || !IsUnitChar(rest[0])
    ensures PickUnit(u + rest) == Some(u)
  {
    var t := u + rest;
    assert t[..1] == u;
    assert UnitMatches(t, u);
    assert AllUnitChars(u);
    UnitWordIsMatch(t, u);
    var j := if u == "s" then 5 else if u == "m" then 12 else if u == "h" then 15 else 18;
    assert UnitAlternatives[j] == u;
    IndexListed(u, 0, j);
  }

  /** `MatchAt` on digits followed by a unit part. */
  lemma MatchAtUnit(s: string, k: nat, part: Part)
    requires 0 < k == DigitRun(s)
    requires UnitPart(s[k..]) == Some(part)
    ensures MatchAt(s) == Some(Hit(Token(s[..k], part.unit), k + part.length))
  {
  }

  /** Without a leading space the unit part is the picked unit alone. */
  lemma UnitPartWithoutSpace(t: string, u: string)
    requires |t| > 0 && t[0] != ' '
    requires PickUnit(t) == Some(u)
    ensures UnitPart(t) == Some(Part(u, |u|))
  {
  }

  /** "<count><unit>" followed by nothing or by a character that cannot
      continue a unit is one token. */
  lemma MatchPiece(p: string, u: string, rest: string)
    requires |p| >= 1 && AllDigitsOf(p, 10)
    requires IsDhmsUnit(u)
    requires rest == [] || !IsUnitChar(rest[0])
    ensures MatchAt(p + u + rest) == Some(Hit(Token(p, u), |p| + 1))
  {
    var t := u + rest;
    assert p + u + rest == p + t;
    DhmsUnitPart(u, rest);
    MatchDigitsAndUnit(p, t, Part(u, 1));
  }

  /** A d/h/m/s letter followed by nothing or a character that cannot
      continue a unit is a one-letter unit part. */
  lemma DhmsUnitPart(u: string, rest: string)
    requires IsDhmsUnit(u)
    requires rest == [] || !IsUnitChar(rest[0])
    ensures |u| == 1 && IsUnitChar((u + rest)[0])
    ensures UnitPart(u + rest) == Some(Part(u, 1))
  {
    DhmsUnitPicked(u, rest);
    UnitPartWithoutSpace(u + rest, u);
  }

  /** Digits followed by a unit part match as one token. */
  lemma MatchDigitsAndUnit(p: string, t: string, part: Part)
    requires |p| >= 1 && AllDigitsOf(p, 10)
    requires t != [] && IsUnitChar(t[0])
    requires UnitPart(t) == Some(part)
    ensures MatchAt(p + t) == Some(Hit(Token(p, part.unit), |p| + part.length))
  {
    PieceParts(p, t);
    MatchAtUnit(p + t, |p|, part);
  }

  /** Digits followed by a letter: the digit run is exactly the digits. */
  lemma PieceParts(p: string, t: string)
    requires |p| >= 1 && AllDigitsOf(p, 10)
    requires t != [] && IsUnitChar(t[0])
    ensures DigitRun(p + t) == |p|
    ensures (p + t)[..|p|] == p && (p + t)[|p|..] == t
  {
    DigitRunOf(p, t);
  }

  /** The scan takes the piece as a token and carries on after it. */
  lemma TokensAfterPiece(c: nat, u: string, rest: string)
    requires IsDhmsUnit(u)
    requires rest == [] || !IsUnitChar(rest[0])
    ensures Tokens(Decimal(c) + u + rest) == [Token(Decimal(c), u)] + Tokens(rest)
  {
    var s := Decimal(c) + u + rest;
    MatchPiece(Decimal(c), u, rest);
    assert s[|Decimal(c)| + 1..] == rest;
  }

  /** A character that is not a digit cannot start a match: the scan moves on. */
  lemma NoMatchAtNonDigit(s: string)
    requires s != [] && !IsDecimalDigit(s[0])
    ensures Tokens(s) == Tokens(s[1..])
  {
  }

  /** The tokens of the counts `ds` with the units `units`. */
  function DhmsTokens(ds: seq<nat>, units: seq<string>): (r: seq<Token>)
    requires |ds| == |units|
    ensures |r| == |ds|
    ensures forall i :: 0 <= i < |r| ==> r[i] == Token(Decimal(ds[i]), units[i])
  {
    seq(|ds|, i requires 0 <= i < |ds| => Token(Decimal(ds[i]), units[i]))
  }

  /** Scanning rendered pieces joined by spaces finds exactly their tokens. */
  lemma {:induction false} TokensOfPieces(ds: seq<nat>, units: seq<string>)
    requires |ds| == |units| >= 1
    requires forall i :: 0 <= i < |units| ==> IsDhmsUnit(units[i])
    ensures Tokens(Join(Render(ds, units), " ")) == DhmsTokens(ds, units)
    decreases |ds|
  {
    if |ds| == 1 {
      TokensAfterPiece(ds[0], units[0], []);
      assert Join(Render(ds, units), " ") == Decimal(ds[0]) + units[0] + [];
    } else {
      var rest := Join(Render(ds[1..], units[1..]), " ");
      RenderJoinStep(ds, units);
      TokensAfterSpace(ds[0], units[0], rest);
      TokensOfPieces(ds[1..], units[1..]);
      assert DhmsTokens(ds, units) == [Token(Decimal(ds[0]), units[0])] + DhmsTokens(ds[1..], units[1..]);
    }
  }

  /** The text of two or more pieces is the first piece, a space and the rest. */
  lemma RenderJoinStep(ds: seq<nat>, units: seq<string>)
    requires |ds| == |units| >= 2
    ensures Join(Render(ds, units), " ")
      == Decimal(ds[0]) + units[0] + (" " + Join(Render(ds[1..], units[1..]), " "))
  {
    var pieces := Render(ds, units);
    assert pieces[0] == Decimal(ds[0]) + units[0];
    assert Render(ds[1..], units[1..]) == pieces[1..];
  }

  /** A piece followed by a space and more text: one token, then the scan
      of the text after the space. */
  lemma TokensAfterSpace(c: nat, u: string, rest: string)
    requires IsDhmsUnit(u)
    ensures Tokens(Decimal(c) + u + (" " + rest)) == [Token(Decimal(c), u)] + Tokens(rest)
  {
    TokensAfterPiece(c, u, " " + rest);
    NoMatchAtNonDigit(" " + rest);
    assert (" " + rest)[1..] == rest;
  }

  /** The sum of `ds[i] * weights[i]`. */
  function WeightedSum(ds: seq<int>, weights: seq<int>): int
    requires |ds| == |weights|
  {
    if ds == [] then 0 else ds[0] * weights[0] + WeightedSum(ds[1..], weights[1..])
  }

  /** A decimal rendering is made of decimal digits and reads back as the
      number. */
  lemma DecimalIsDecimalText(n: nat)
    ensures DecimalText(Decimal(n))
    ensures DigitsValue(Decimal(n)) == n
  {
    var s := Decimal(n);
    assert forall i :: 0 <= i < |s| ==> IsDigitOf(s[i], 10);
    DecimalIsIndexText(n);
  }

  /** The tokens add up to the counts weighted by their units' multipliers. */
  lemma {:induction false} TotalOfTokens(ds: seq<nat>, units: seq<string>, weights: seq<nat>)
    requires |ds| == |units| == |weights|
    requires forall i :: 0 <= i < |units| ==> Multiplier(units[i]) == Some(weights[i])
    ensures forall i :: 0 <= i < |ds| ==> DecimalText(DhmsTokens(ds, units)[i].digits)
    ensures Total(DhmsTokens(ds, units)) == Some(WeightedSum(ds, weights))
    decreases |ds|
  {
    forall i | 0 <= i < |ds|
      ensures DecimalText(DhmsTokens(ds, units)[i].digits)
    {
      DecimalIsDecimalText(ds[i]);
    }
    if ds != [] {
      DecimalIsDecimalText(ds[0]);
      DecimalIsIndexText(ds[0]);
      TotalOfTokens(ds[1..], units[1..], weights[1..]);
      assert DhmsTokens(ds, units)[1..] == DhmsTokens(ds[1..], units[1..]);
    }
  }

  lemma DhmsMultipliers(k: nat)
    requires k < 4
    ensures forall i :: 0 <= i < 4 - k ==> Multiplier(DhmsUnits[k..][i]) == Some(DhmsWeights[k..][i])
    ensures forall i :: 0 <= i < 4 - k ==> IsDhmsUnit(DhmsUnits[k..][i])
  {
  }

  /** Leading zero counts add nothing to a weighted sum. */
  lemma {:induction false} DroppedZerosWeighNothing(ds: seq<int>, ws: seq<int>, k: nat)
    requires |ds| == |ws| && k <= |ds|
    requires forall i :: 0 <= i < k ==> ds[i] == 0
    ensures WeightedSum(ds[k..], ws[k..]) == WeightedSum(ds, ws)
    decreases k
  {
    if k > 0 {
      DroppedZerosWeighNothing(ds[1..], ws[1..], k - 1);
      assert ds[1..][k - 1..] == ds[k..] && ws[1..][k - 1..] == ws[k..];
    }
  }

  lemma DhmsWeightedSum(ds: seq<nat>)
    requires |ds| == 4
    ensures WeightedSum(ds, DhmsWeights) == ds[0] * 86400 + ds[1] * 3600 + ds[2] * 60 + ds[3]
  {
    WeightedSumStep(ds, DhmsWeights, 0);
    WeightedSumStep(ds, DhmsWeights, 1);
    WeightedSumStep(ds, DhmsWeights, 2);
    WeightedSumStep(ds, DhmsWeights, 3);
    assert ds[4..] == [];
  }

  lemma WeightedSumStep(ds: seq<int>, ws: seq<int>, i: nat)
    requires |ds| == |ws| && i < |ds|
    ensures WeightedSum(ds[i..], ws[i..]) == ds[i] * ws[i] + WeightedSum(ds[i + 1..], ws[i + 1..])
  {
    assert ds[i..][1..] == ds[i + 1..] && ws[i..][1..] == ws[i + 1..];
  }

  /** The text after the sign reads back as the weighted sum of its counts. */
  lemma BodyParses(ds: seq<nat>)
    requires |ds| == 4
    ensures ParseDurationText(DhmsBody(ds)) == Some(WeightedSum(ds, DhmsWeights))
  {
    var k := LeadingZeros(ds);
    DhmsMultipliers(k);
    TokensOfPieces(ds[k..], DhmsUnits[k..]);
    TotalOfTokens(ds[k..], DhmsUnits[k..], DhmsWeights[k..]);
    DroppedZerosWeighNothing(ds, DhmsWeights, k);
  }

  /** A leading minus sign is skipped by the scan. */
  lemma SignSkipped(body: string)
    ensures ParseDurationText("-" + body) == ParseDurationText(body)
  {
    NoMatchAtNonDigit("-" + body);
    assert ("-" + body)[1..] == body;
  }

  /** The text after the sign reads back as the magnitude. */
  lemma MagnitudeParses(n: int)
    ensures ParseDurationText(DhmsBody(DhmsDigits(n))) == Some(Abs(n))
  {
    var ds := DhmsDigits(n);
    BodyParses(ds);
    DhmsWeightedSum(ds);
  }

  /** `parse_duration` reads back what `seconds_to_dhms` writes, up to the
      sign: the minus sign is skipped by the scanner. */
  lemma ParseFormatted(n: int)
    ensures ParseDurationText(SecondsToDhms(n)) == Some(Abs(n))
  {
    var body := DhmsBody(DhmsDigits(n));
    MagnitudeParses(n);
    if n < 0 {
      assert SecondsToDhms(n) == "-" + body;
      SignSkipped(body);
    } else {
      assert SecondsToDhms(n) == body;
    }
  }
}

=== FILE: floormap.dfy ===
/** The floor map of src/FloorMap.js: the routing of the open pop-up to its
    controls and the picture it shows. */
module FloorMap {
  import opened Optional
  import opened Js
  import opened Routing

  /** FloorMap's `activateChild` for the control at position `index`: the
      path it reports to the App. */
  function Activate(index: nat, sub: Option<seq<Value>>): (path: seq<Value>)
    ensures |path| >= 1 && path[0] == Num(index)
    ensures Route(Some(path), Num(index)) == Some(match sub case Some(s) => s case None => [])
  {
    RouteOfPrefixed(Num(index), sub, Num(index));
    Prefixed(Num(index), sub)
  }

  /** The `activeElement` FloorMap's render gives the control at position
      `index`. */
  function ChildActive(active: Option<seq<Value>>, index: nat): (r: Option<seq<Value>>)
    ensures r.Some? <==> active.Some? && |active.value| >= 1 && active.value[0] == Num(index)
    ensures r.Some? ==> active == Some(Activate(index, r))
  {
    PrefixedOfRoute(active, Num(index));
    Route(active, Num(index))
  }

  /** Only the control that reported a path gets it back. */
  lemma OnlyTheActivatedChild(index: nat, sub: Option<seq<Value>>, other: nat)
    requires other != index
    ensures ChildActive(Some(Activate(index, sub)), other).None?
  {
  }

  /** A `<source>` of the picture. */
  datatype Source = Source(srcset: Value, media: Value)

  /** The `<picture>`: its sources in order, then the image. */
  datatype Picture = Picture(sources: seq<Source>, img: Value)

  /** What `for (x of v)` visits: the elements of an array, the characters
      of a string; any other value is not iterable (`None`), and the loop
      throws. */
  function Iterated(v: Value): (r: Option<seq<Value>>)
    ensures v.Arr? ==> r == Some(v.items)
    ensures !(v.Arr? || v.Str?) ==> r.None?
  {
    match v
    case Arr(items) => Some(items)
    case Str(s) => Some(seq(|s|, i requires 0 <= i < |s| => Str([s[i]])))
    case _ => None
  }

  /** The `<source>` elements of the listed sources, in order; reading
      `srcset` from an `undefined` or `null` entry throws. */
  function SourcesOf(items: seq<Value>): (r: Completion<seq<Source>>)
    ensures r.Normal? <==> forall i :: 0 <= i < |items| ==> !(items[i].Undefined? || items[i].Null?)
    ensures r.Normal? ==> |r.value| == |items|
    ensures r.Normal? ==> forall i :: 0 <= i < |items| ==>
      Normal(r.value[i].srcset) == Get(items[i], "srcset") && Normal(r.value[i].media) == Get(items[i], "media")
  {
    if items == [] then Normal([])
    else
      match (Get(items[0], "srcset"), Get(items[0], "media"), SourcesOf(items[1..]))
      case (Normal(srcset), Normal(media), Normal(rest)) => Normal([Source(srcset, media)] + rest)
      case _ => Throw
  }

  /** The picture for `imgsrc`: a string is the image alone; an object
      lists its `sources` and then its `imgsrc`; `null`, an array or an
      object whose `sources` is not iterable throws on the way; any other
      type throws "Unrecognized imgsrc type". */
  function PictureOf(imgsrc: Value): (r: Completion<Picture>)
    ensures imgsrc.Str? ==> r == Normal(Picture([], imgsrc))
    ensures imgsrc.Undefined? || imgsrc.Bool? || imgsrc.Num? || imgsrc.Null? || imgsrc.Arr? ==> r.Throw?
    ensures imgsrc.Obj? ==>
      var sources := Get(imgsrc, "sources").value;
      (r.Normal? <==> Iterated(sources).Some? && SourcesOf(Iterated(sources).value).Normal?)
    ensures imgsrc.Obj? && r.Normal? ==>
      r.value == Picture(SourcesOf(Iterated(Get(imgsrc, "sources").value).value).value, Field(imgsrc.fields, "imgsrc"))
  {
    match imgsrc
    case Str(_) => Normal(Picture([], imgsrc))
    case Obj(fields) =>
      (match Iterated(Field(fields, "sources"))
       case None => Throw
       case Some(items) =>
         (match SourcesOf(items)
          case Throw => Throw
          case Normal(sources) => Normal(Picture(sources, Field(fields, "imgsrc")))))
    case Null => Throw
    case Arr(_) => Throw
    case _ => Throw
  }

  /** An object with a list of source objects gives one `<source>` per
      entry, in order, with that entry's `srcset` and `media`. */
  lemma SourcesInOrder(imgsrc: Value)
    requires imgsrc.Obj? && "sources" in imgsrc.fields && imgsrc.fields["sources"].Arr?
    requires forall i :: 0 <= i < |imgsrc.fields["sources"].items| ==> imgsrc.fields["sources"].items[i].Obj?
    ensures var items := imgsrc.fields["sources"].items;
      var r := PictureOf(imgsrc);
      && r.Normal? && |r.value.sources| == |items|
      && forall i :: 0 <= i < |items| ==>
           r.value.sources[i] == Source(Field(items[i].fields, "srcset"), Field(items[i].fields, "media"))
  {
  }
}

=== FILE: input.dfy ===
/** The input control of src/Input.js: its constructor, the `invert` prop,
    the handling of module updates (which inverts the reported input in
    place), and its on/off display. */
module Input {
  import opened Optional
  import opened Js
  import opened Utils
  import opened Control

  /** Input modules have channels 1 to 6. */
  const Channels: int := 6

  /** The state an input starts with, before any update. */
  const Initial: map<string, Value> := map["input" := Bool(false)]

  /** The constructor: the address guard with channels 1..6, then the icon
      set, "light" by default. */
  function Construct(props: map<string, Value>): (r: Completion<Icon>)
    ensures r.Normal? <==>
      AddressAccepted(props, "address", 1, Channels) && DefaultValue(Field(props, "icon"), Str("light")).Str?
    ensures r.Normal? ==> r.value == IconParts(Field(props, "icon"), "light").value
    ensures && "icon" !in props && "address" in props && props["address"].Arr?
            && |props["address"].items| == 2 && props["address"].items[1].Num?
            ==> r == (if 1 <= props["address"].items[1].n <= Channels then Normal(Icon("light", "svg")) else Throw)
  {
    TypicalConstruct(props, Channels, "light");
    ConstructControl(props, Channels, "light")
  }

  /** `this.props.invert` after React applied the default props: `false`
      stands in for an `undefined` prop, and the value is used by its
      truthiness. */
  function Inverting(props: map<string, Value>): (r: bool)
    ensures "invert" !in props ==> !r
    ensures "invert" in props && !props["invert"].Undefined? ==> (r <==> Truthy(props["invert"]))
  {
    Truthy(DefaultValue(Field(props, "invert"), Bool(false)))
  }

  /** The icon state and the pop-up's state line: "on" for a truthy input,
      "off" otherwise. */
  function OnOff(input: Value): (r: string)
    ensures r == "on" <==> Truthy(input)
    ensures r == "off" <==> !Truthy(input)
  {
    if Truthy(input) then "on" else "off"
  }

  /** `!v` of the reported input. */
  function Negated(v: Value): (r: Value)
    ensures r.Bool? && (r.b <==> !Truthy(v))
  {
    Bool(!Truthy(v))
  }

  /** The object at `key` of an update, replaced by `v` (the update being
      an object or an array); any other update is returned as it is. */
  function PutBack(update: Value, key: string, v: Value): (r: Value)
    ensures update.Obj? ==> r == Obj(update.fields[key := v])
    ensures Get(update, key).Normal? && IsObjectLike(Get(update, key).value) && IsObjectLike(update) ==>
      Get(r, key) == Normal(v)
  {
    match update
    case Obj(m) => Obj(m[key := v])
    case Arr(items) =>
      (match IndexOfKey(key)
       case Some(i) => if i < |items| then Arr(items[i := v]) else update
       case None => update)
    case _ => update
  }

  /** One delivery of a module update to an input control: what the
      control does (its request and its new state), and the update object
      as it is left afterwards. */
  datatype Delivery = Delivery(reception: Reception, update: Value)

  /** `web_socket_message(new_state)` as written: a `null` update is
      ignored; the channel state is `new_state[input#]` or `{}`; an empty
      one asks for the input; with `invert`, an `input` field present in
      the channel state is negated IN the update object itself (asking `in`
      of a primitive channel state throws), and the channel state is then
      merged. */
  function ReceiveAsWritten(state: map<string, Value>, address: Value, invert: bool, newState: Value): (r: Completion<Delivery>)
    requires IsObjectLike(address)
    ensures !invert ==> r.Normal? ==> r.value.update == newState
    ensures !invert && r.Normal? ==> Normal(r.value.reception) == Receive(state, address, "input", newState)
  {
    if newState.Null? then Normal(Delivery(Reception(None, Normal(state)), newState))
    else
      var key := ToText(ChannelNumber(address));
      match ChannelOf(newState, ChannelNumber(address))
      case Throw => Throw
      case Normal(mine) =>
        match KeyCount(mine)
        case Throw => Throw
        case Normal(count) =>
          var fetch := if count == 0 then Some(Request("GET", ModuleOf(address), ChannelNumber(address), "input", None)) else None;
          if !invert then Normal(Delivery(Reception(fetch, SetState(state, mine)), newState))
          else
            match Has(mine, "input")
            case Throw => Normal(Delivery(Reception(fetch, Throw), newState))
            case Normal(present) =>
              if present && mine.Obj? then
                var flipped := Obj(mine.fields["input" := Negated(mine.fields["input"])]);
                Normal(Delivery(Reception(fetch, SetState(state, flipped)), PutBack(newState, key, flipped)))
              else Normal(Delivery(Reception(fetch, SetState(state, mine)), newState))
  }

  /** The update with the channel's `input` negated, in a copy. */
  function InvertedCopy(newState: Value, channel: Value): (r: Value)
    ensures newState.Null? ==> r == newState
  {
    var key := ToText(channel);
    match Get(newState, key)
    case Normal(Obj(fields)) =>
      if "input" in fields then PutBack(newState, key, Obj(fields["input" := Negated(fields["input"])]))
      else newState
    case _ => newState
  }

  /** The corrected `web_socket_message`: the negation is made on a copy,
      so the shared update stays as the server sent it. It is the plain
      update handling of the other controls, applied to the inverted copy. */
  function ReceiveFixed(state: map<string, Value>, address: Value, invert: bool, newState: Value): (r: Completion<Reception>)
    requires IsObjectLike(address)
    ensures !invert ==> r == Receive(state, address, "input", newState)
    ensures && invert && newState.Obj? && ToText(ChannelNumber(address)) in newState.fields
            && newState.fields[ToText(ChannelNumber(address))].Obj?
            && "input" in newState.fields[ToText(ChannelNumber(address))].fields
            ==> var fields := newState.fields[ToText(ChannelNumber(address))].fields;
                r == Normal(Reception(None, Normal(state + fields["input" := Negated(fields["input"])])))
  {
    Receive(state, address, "input", if invert then InvertedCopy(newState, ChannelNumber(address)) else newState)
  }

  /** What one delivery makes the control show, as written, agrees with the
      corrected handling; the difference is the update left behind, which
      is the inverted copy. */
  lemma AsWrittenInvertsTheUpdate(state: map<string, Value>, address: Value, newState: Value)
    requires IsObjectLike(address)
    requires ReceiveAsWritten(state, address, true, newState).Normal?
    ensures var d := ReceiveAsWritten(state, address, true, newState).value;
      && Normal(d.reception) == ReceiveFixed(state, address, true, newState)
      && d.update == InvertedCopy(newState, ChannelNumber(address))
  {
    if !newState.Null? && ChannelOf(newState, ChannelNumber(address)).Normal? {
      var mine := ChannelOf(newState, ChannelNumber(address)).value;
      if mine.Obj? && "input" in mine.fields {
        FlippedDelivery(state, address, newState, mine);
      }
    }
  }

  /** The case the inversion applies to: a channel state object with an
      `input` field. */
  lemma FlippedDelivery(state: map<string, Value>, address: Value, newState: Value, mine: Value)
    requires IsObjectLike(address) && !newState.Null?
    requires ChannelOf(newState, ChannelNumber(address)) == Normal(mine)
    requires mine.Obj? && "input" in mine.fields
    ensures var d := ReceiveAsWritten(state, address, true, newState);
      && d.Normal?
      && Normal(d.value.reception) == ReceiveFixed(state, address, true, newState)
      && d.value.update == InvertedCopy(newState, ChannelNumber(address))
  {
    var key := ToText(ChannelNumber(address));
    var flipped := Obj(mine.fields["input" := Negated(mine.fields["input"])]);
    assert |flipped.fields| == |mine.fields| by {
      assert flipped.fields.Keys == mine.fields.Keys;
    }
    assert Get(newState, key) == Normal(mine);
    assert InvertedCopy(newState, ChannelNumber(address)) == PutBack(newState, key, flipped);
    assert ChannelOf(PutBack(newState, key, flipped), ChannelNumber(address)) == Normal(flipped);
  }

  /** The defect, latent in this App, which draws input controls as
      unknown ones: under a host that shares one update object between
      deliveries, the first delivery flips the stored `input` and shows it
      negated; the next one, whether to a second inverted input on the
      channel or to the same input on a later delivery of that object,
      flips it back and shows the raw value. */
  lemma SecondListenerSeesRawInput(state: map<string, Value>, address: Value, newState: Value, b: bool)
    requires IsObjectLike(address) && newState.Obj?
    requires ToText(ChannelNumber(address)) in newState.fields
    requires newState.fields[ToText(ChannelNumber(address))] == Obj(map["input" := Bool(b)])
    ensures var first := ReceiveAsWritten(state, address, true, newState);
      && first.Normal? && first.value.reception.state == Normal(state["input" := Bool(!b)])
      && var second := ReceiveAsWritten(state, address, true, first.value.update);
      && second.Normal? && second.value.reception.state == Normal(state["input" := Bool(b)])
  {
    var first := ReceiveAsWritten(state, address, true, newState);
    OneInvertedDelivery(state, address, newState, b);
    OneInvertedDelivery(state, address, first.value.update, !b);
  }

  /** One delivery, as written, of an update whose channel state is
      `{input: b}` to an inverted control: it shows `!b` and leaves the
      update with `{input: !b}` in that channel. */
  lemma OneInvertedDelivery(state: map<string, Value>, address: Value, newState: Value, b: bool)
    requires IsObjectLike(address) && newState.Obj?
    requires ToText(ChannelNumber(address)) in newState.fields
    requires newState.fields[ToText(ChannelNumber(address))] == Obj(map["input" := Bool(b)])
    ensures var d := ReceiveAsWritten(state, address, true, newState);
      && d.Normal? && d.value.reception.state == Normal(state["input" := Bool(!b)])
      && d.value.update.Obj? && ToText(ChannelNumber(address)) in d.value.update.fields
      && d.value.update.fields[ToText(ChannelNumber(address))] == Obj(map["input" := Bool(!b)])
  {
    assert ReceiveAsWritten(state, address, true, newState).Normal? by {
      assert ChannelOf(newState, ChannelNumber(address)) == Normal(Obj(map["input" := Bool(b)]));
    }
    AsWrittenInvertsTheUpdate(state, address, newState);
    EveryListenerSeesInvertedInput(state, address, newState, b);
    SingleInputInverted(newState, ChannelNumber(address), b);
  }

  /** The inverted copy of an update whose channel state is `{input: b}`. */
  lemma SingleInputInverted(newState: Value, channel: Value, b: bool)
    requires newState.Obj? && ToText(channel) in newState.fields
    requires newState.fields[ToText(channel)] == Obj(map["input" := Bool(b)])
    ensures var copy := InvertedCopy(newState, channel);
      copy.Obj? && ToText(channel) in copy.fields && copy.fields[ToText(channel)] == Obj(map["input" := Bool(!b)])
  {
    assert map["input" := Bool(b)]["input" := Negated(Bool(b))] == map["input" := Bool(!b)];
  }

  /** The corrected handling: every inverted control on the channel shows
      the negated input, however often the update is delivered, because
      the update is left as it was sent. */
  lemma EveryListenerSeesInvertedInput(state: map<string, Value>, address: Value, newState: Value, b: bool)
    requires IsObjectLike(address) && newState.Obj?
    requires ToText(ChannelNumber(address)) in newState.fields
    requires newState.fields[ToText(ChannelNumber(address))] == Obj(map["input" := Bool(b)])
    ensures ReceiveFixed(state, address, true, newState) == Normal(Reception(None, Normal(state["input" := Bool(!b)])))
  {
    assert map["input" := Bool(b)]["input" := Negated(Bool(b))] == map["input" := Bool(!b)];
    assert state + map["input" := Bool(!b)] == state["input" := Bool(!b)];
  }
}

=== FILE: js.dfy ===
/** The JavaScript values the dashboard handles (JSON documents, React props and
    state objects) and the handful of language operations the modelled code
    relies on: property reads, the `in` operator, `Object.keys`, truthiness,
    numeric and string conversion, and React's `setState` merge. */
module Js {
  import opened Optional
  import opened Numerals
  import opened Strings

  /** A JavaScript value. Numbers are integers here; objects are maps from
      property names to values (own enumerable properties only). */
  datatype Value =
    | Undefined
    | Null
    | Bool(b: bool)
    | Num(n: int)
    | Str(s: string)
    | Arr(items: seq<Value>)
    | Obj(fields: map<string, Value>)

  /** How a JavaScript computation ends: with a value, or by throwing. */
  datatype Completion<+T> = Normal(value: T) | Throw

  /** The `typeof` classes the code distinguishes. */
  predicate IsObjectLike(v: Value)
  {
    v.Arr? || v.Obj?
  }

  /** JavaScript truthiness (`if (v)`, `!v`). */
  predicate Truthy(v: Value)
  {
    match v
    case Undefined => false
    case Null => false
    case Bool(b) => b
    case Num(n) => n != 0
    case Str(s) => s != ""
    case Arr(_) => true
    case Obj(_) => true
  }

  /** Numeric conversion used by `<`, `>` and `Math.round`; `None` is NaN.
      The empty string is 0 and a string of decimal digits is its value; any
      other string, and arrays and objects, are taken to convert to NaN. */
  function ToNumber(v: Value): (r: Option<int>)
    ensures v.Num? ==> r == Some(v.n)
    ensures v.Undefined? || v.Obj? ==> r.None?
  {
    match v
    case Undefined => None
    case Null => Some(0)
    case Bool(b) => Some(if b then 1 else 0)
    case Num(n) => Some(n)
    case Str(s) =>
      if s == [] then Some(0)
      else if AllDigitsOf(s, 10) then Some(Read(s, 10))
      else None
    case _ => None
  }

  /** `String(v)`, as used for property keys and string concatenation. */
  function ToText(v: Value): string
  {
    match v
    case Undefined => "undefined"
    case Null => "null"
    case Bool(b) => if b then "true" else "false"
    case Num(n) => IntText(n)
    case Str(s) => s
    case Arr(items) =>
      Join(seq(|items|, i requires 0 <= i < |items| =>
        if items[i].Undefined? || items[i].Null? then "" else ToText(items[i])), ",")
    case Obj(_) => "[object Object]"
  }

  /** The array index a property name denotes, if it is a canonical index. */
  function IndexOfKey(key: string): (r: Option<nat>)
    ensures r.Some? ==> Decimal(r.value) == key
  {
    if IsIndexText(key) then
      var i := Read(key, 10);
      ReadDecimalIsKey(key);
      Some(i)
    else None
  }

  /** A canonical index text is the decimal rendering of the number it reads as. */
  lemma {:induction false} ReadDecimalIsKey(key: string)
    requires IsIndexText(key)
    ensures Decimal(Read(key, 10)) == key
    decreases |key|
  {
    var n := Read(key, 10);
    if |key| == 1 {
      assert key[..0] == [];
      assert n == DigitValue(key[0]) && n < 10;
      DigitValueOfChar(n);
      assert Decimal(n) == [DigitChar(n)];
    } else {
      var init := key[..|key| - 1];
      assert IsIndexText(init) by {
        assert init[0] == key[0];
      }
      ReadDecimalIsKey(init);
      var m := Read(init, 10);
      var d := DigitValue(key[|key| - 1]);
      assert n == m * 10 + d;
      assert init[0] == key[0];
      assert Decimal(0) == "0";
      assert m >= 1;
      assert n / 10 == m && n % 10 == d;
      assert Decimal(n) == Decimal(m) + [DigitChar(d)];
      DigitValueOfChar(d);
      assert DigitChar(d) == key[|key| - 1] by {
        assert IsDigitOf(key[|key| - 1], 10);
      }
      assert key == init + [key[|key| - 1]];
    }
  }

  lemma IndexOfDecimal(i: nat)
    ensures IndexOfKey(Decimal(i)) == Some(i)
  {
    DecimalIsIndexText(i);
  }

  /** Property read `v[key]`: reading from `undefined` or `null` throws; a
      missing property reads as `undefined`. */
  function Get(v: Value, key: string): (r: Completion<Value>)
    ensures r.Throw? <==> v.Undefined? || v.Null?
    ensures v.Obj? ==> r == Normal(if key in v.fields then v.fields[key] else Undefined)
  {
    match v
    case Undefined => Throw
    case Null => Throw
    case Obj(m) => Normal(if key in m then m[key] else Undefined)
    case Arr(items) =>
      if key == "length" then Normal(Num(|items|))
      else (match IndexOfKey(key)
            case Some(i) => if i < |items| then Normal(items[i]) else Normal(Undefined)
            case None => Normal(Undefined))
    case Str(s) =>
      if key == "length" then Normal(Num(|s|))
      else (match IndexOfKey(key)
            case Some(i) => if i < |s| then Normal(Str([s[i]])) else Normal(Undefined)
            case None => Normal(Undefined))
    case _ => Normal(Undefined)
  }

  /** The `in` operator `key in v`: only objects and arrays may be asked;
      asking a primitive throws a TypeError. */
  function Has(v: Value, key: string): (r: Completion<bool>)
    ensures r.Throw? <==> !IsObjectLike(v)
    ensures v.Obj? ==> r == Normal(key in v.fields)
  {
    match v
    case Obj(m) => Normal(key in m)
    case Arr(items) =>
      Normal(key == "length" || (IndexOfKey(key).Some? && IndexOfKey(key).value < |items|))
    case _ => Throw
  }

  /** The own enumerable properties a `for (k in v)` loop filtered by
      `hasOwnProperty` visits: object members, array and string indices. */
  function OwnEntries(v: Value): (m: map<string, Value>)
    ensures v.Obj? ==> m == v.fields
    ensures !(v.Obj? || v.Arr? || v.Str?) ==> m == map[]
  {
    match v
    case Obj(fields) => fields
    case Arr(items) => IndexMap(items)
    case Str(s) => IndexMap(seq(|s|, i requires 0 <= i < |s| => Str([s[i]])))
    case _ => map[]
  }

  /** The map from the index texts "0".."n-1" to the elements of `items`. */
  function IndexMap(items: seq<Value>): (m: map<string, Value>)
    ensures forall i :: 0 <= i < |items| ==> Decimal(i) in m && m[Decimal(i)] == items[i]
    ensures forall k :: k in m ==> IndexOfKey(k).Some? && IndexOfKey(k).value < |items|
  {
    if items == [] then map[]
    else
      var n := |items| - 1;
      var m := IndexMap(items[..n]);
      var k := Decimal(n);
      IndexOfDecimal(n);
      m[k := items[n]]
  }

  /** `Object.keys(v).length`; `undefined` and `null` throw. */
  function KeyCount(v: Value): (r: Completion<nat>)
    ensures r.Throw? <==> v.Undefined? || v.Null?
    ensures v.Obj? ==> r == Normal(|v.fields|)
  {
    match v
    case Undefined => Throw
    case Null => Throw
    case Arr(items) => Normal(|items|)
    case Str(s) => Normal(|s|)
    case Obj(m) => Normal(|m|)
    case _ => Normal(0)
  }

  /** React's `setState(partial)` on a state object: an object or array
      partial is merged over the state, `null`/`undefined` change nothing,
      any other primitive is refused with an error. */
  function SetState(state: map<string, Value>, partial: Value): (r: Completion<map<string, Value>>)
    ensures r.Throw? <==> (partial.Bool? || partial.Num? || partial.Str?)
    ensures partial.Obj? ==> r == Normal(state + partial.fields)
    ensures (partial.Null? || partial.Undefined?) ==> r == Normal(state)
  {
    match partial
    case Undefined => Normal(state)
    case Null => Normal(state)
    case Obj(_) => Normal(state + OwnEntries(partial))
    case Arr(_) => Normal(state + OwnEntries(partial))
    case _ => Throw
  }

  /** A property of a state or props object, `undefined` when absent. */
  function Field(m: map<string, Value>, key: string): (v: Value)
    ensures key !in m ==> v.Undefined?
  {
    if key in m then m[key] else Undefined
  }
}

=== FILE: jsonpatch.dfy ===
/** The patch operations the server sends over the web socket and the App
    applies, one at a time, to its mirror of the module states
    (src/App.js, `applyOperation` on `ws_state`). Operations follow
    section 4 of RFC 6902 (JSON Patch) for `add`, `remove` and `replace`;
    their paths are JSON Pointers as in RFC 6901. */
module JsonPatch {
  import opened Optional
  import opened Strings
  import opened Numerals
  import opened Js

  /** One patch operation: its name, its path and (for `add` and
      `replace`) its value. */
  datatype Op = Op(op: string, path: string, value: Value)

  /** The reference tokens of a JSON Pointer: the empty pointer denotes the
      whole document, any other pointer is a "/" followed by the tokens
      separated by "/"; a pointer not starting with "/" is malformed. */
  function Pointer(path: string): (r: Option<seq<string>>)
    ensures path == "" ==> r == Some([])
    ensures r.None? <==> path != "" && path[0] != '/'
    ensures r.Some? && path != "" ==> |r.value| >= 1 && r.value == Split(path, "/")[1..]
  {
    if path == "" then Some([])
    else if path[0] != '/' then None
    else
      SplitAfterLeadingSeparator(path, "/");
      Some(Split(path[1..], "/"))
  }

  /** The pointer "/k" for a key without "/" has the one token `k`. */
  lemma PointerOfKey(k: string)
    requires forall i :: 0 <= i < |k| ==> k[i] != '/'
    ensures Pointer("/" + k) == Some([k])
  {
    ContainsChar(k, '/');
    SplitWithoutSeparator(k, "/");
    assert ("/" + k)[1..] == k;
  }

  /** The member of a container a token names: an object member that is
      present, or an array element at an index within bounds. */
  function Child(doc: Value, token: string): (r: Option<Value>)
    ensures doc.Obj? ==> (r.Some? <==> token in doc.fields)
    ensures doc.Obj? && r.Some? ==> r.value == doc.fields[token]
    ensures !(doc.Obj? || doc.Arr?) ==> r.None?
  {
    match doc
    case Obj(m) => if token in m then Some(m[token]) else None
    case Arr(items) =>
      (match IndexOfKey(token)
       case Some(i) => if i < |items| then Some(items[i]) else None
       case None => None)
    case _ => None
  }

  /** The container with the member a token names replaced. */
  function WithChild(doc: Value, token: string, v: Value): (r: Value)
    requires Child(doc, token).Some?
    ensures doc.Obj? ==> r == Obj(doc.fields[token := v])
    ensures Child(r, token) == Some(v)
  {
    match doc
    case Obj(m) => Obj(m[token := v])
    case Arr(items) => Arr(items[IndexOfKey(token).value := v])
  }

  /** `add` in a container (section 4.1 of RFC 6902): an object gets the
      member, replacing one of the same name; an array gets the value
      inserted before the index, or appended for "-"; an index past the end,
      a token that is no index, or a container that is neither fails. */
  function AddAt(doc: Value, token: string, v: Value): (r: Completion<Value>)
    ensures doc.Obj? ==> r == Normal(Obj(doc.fields[token := v]))
    ensures doc.Arr? && token == "-" ==> r == Normal(Arr(doc.items + [v]))
    ensures doc.Arr? && token != "-" ==>
      (r.Normal? <==> IndexOfKey(token).Some? && IndexOfKey(token).value <= |doc.items|)
    ensures doc.Arr? && r.Normal? && token != "-" ==>
      var i := IndexOfKey(token).value;
      r.value == Arr(doc.items[..i] + [v] + doc.items[i..])
    ensures !(doc.Obj? || doc.Arr?) ==> r.Throw?
  {
    match doc
    case Obj(m) => Normal(Obj(m[token := v]))
    case Arr(items) =>
      if token == "-" then Normal(Arr(items + [v]))
      else
        (match IndexOfKey(token)
         case Some(i) => if i <= |items| then Normal(Arr(items[..i] + [v] + items[i..])) else Throw
         case None => Throw)
    case _ => Throw
  }

  /** `remove` (section 4.2 of RFC 6902): the member or element must exist; it is taken
      out, and later array elements shift down. */
  function RemoveAt(doc: Value, token: string): (r: Completion<Value>)
    ensures r.Normal? <==> Child(doc, token).Some?
    ensures doc.Obj? && r.Normal? ==> r.value == Obj(doc.fields - {token})
    ensures doc.Arr? && r.Normal? ==>
      var i := IndexOfKey(token).value;
      r.value == Arr(doc.items[..i] + doc.items[i + 1..])
  {
    match Child(doc, token)
    case None => Throw
    case Some(_) =>
      match doc
      case Obj(m) => Normal(Obj(m - {token}))
      case Arr(items) =>
        var i := IndexOfKey(token).value;
        Normal(Arr(items[..i] + items[i + 1..]))
  }

  /** `replace` (section 4.3 of RFC 6902): the member or element must exist; its value
      is replaced. */
  function ReplaceAt(doc: Value, token: string, v: Value): (r: Completion<Value>)
    ensures r.Normal? <==> Child(doc, token).Some?
    ensures r.Normal? ==> r.value == WithChild(doc, token, v)
  {
    match Child(doc, token)
    case None => Throw
    case Some(_) => Normal(WithChild(doc, token, v))
  }

  /** The operation at its target, the last token of the path; any other
      operation name fails (the library calls a missing handler). */
  function Leaf(doc: Value, token: string, op: Op): (r: Completion<Value>)
    ensures op.op !in {"add", "remove", "replace"} ==> r.Throw?
    ensures doc.Obj? && r.Normal? ==> r.value.Obj?
  {
    match op.op
    case "add" => AddAt(doc, token, op.value)
    case "remove" => RemoveAt(doc, token)
    case "replace" => ReplaceAt(doc, token, op.value)
    case _ => Throw
  }

  /** The operation applied below `doc` along the tokens: every token but
      the last must name an existing member, and the containers on the way
      are rebuilt around the changed member. */
  function ApplyAt(doc: Value, tokens: seq<string>, op: Op): (r: Completion<Value>)
    requires |tokens| >= 1
    ensures |tokens| == 1 ==> r == Leaf(doc, tokens[0], op)
    ensures |tokens| > 1 && Child(doc, tokens[0]).None? ==> r.Throw?
    ensures doc.Obj? && r.Normal? ==>
      r.value.Obj? && r.value.fields - {tokens[0]} == doc.fields - {tokens[0]}
    decreases |tokens|
  {
    if |tokens| == 1 then
      var r := Leaf(doc, tokens[0], op);
      LeafFrame(doc, tokens[0], op);
      r
    else
      match Child(doc, tokens[0])
      case None => Throw
      case Some(child) =>
        match ApplyAt(child, tokens[1..], op)
        case Throw => Throw
        case Normal(changed) =>
          var r := WithChild(doc, tokens[0], changed);
          assert doc.Obj? ==> r.fields - {tokens[0]} == doc.fields - {tokens[0]};
          Normal(r)
  }

  /** An operation at an object member changes no other member. */
  lemma LeafFrame(doc: Value, token: string, op: Op)
    ensures doc.Obj? && Leaf(doc, token, op).Normal? ==>
      Leaf(doc, token, op).value.fields - {token} == doc.fields - {token}
  {
    if doc.Obj? {
      var m := doc.fields;
      assert m[token := op.value] - {token} == m - {token};
      assert (m - {token}) - {token} == m - {token};
    }
  }

  /** One operation on the mirror. A malformed path fails. An operation on
      the whole document (the empty path) makes the library return a new
      document, which the App drops: the mirror stays as it was. Otherwise
      the mirror, an object, is changed at its member named by the first
      token, and no other member changes. */
  function Apply(mirror: map<string, Value>, op: Op): (r: Completion<map<string, Value>>)
    ensures Pointer(op.path).None? ==> r.Throw?
    ensures Pointer(op.path) == Some([]) ==> r == Normal(mirror)
    ensures r.Normal? && Pointer(op.path).value != [] ==>
      var k := Pointer(op.path).value[0];
      r.value - {k} == mirror - {k}
    ensures Pointer(op.path).Some? && |Pointer(op.path).value| >= 1 && op.op !in {"add", "remove", "replace"} ==> r.Throw?
  {
    match Pointer(op.path)
    case None => Throw
    case Some(tokens) =>
      if tokens == [] then Normal(mirror)
      else
        ApplyAtUnknown(Obj(mirror), tokens, op);
        match ApplyAt(Obj(mirror), tokens, op)
        case Throw => Throw
        case Normal(doc) => Normal(doc.fields)
  }

  /** An unknown operation name fails wherever its path leads. */
  lemma {:induction false} ApplyAtUnknown(doc: Value, tokens: seq<string>, op: Op)
    requires |tokens| >= 1
    ensures op.op !in {"add", "remove", "replace"} ==> ApplyAt(doc, tokens, op).Throw?
    decreases |tokens|
  {
    if |tokens| > 1 && Child(doc, tokens[0]).Some? {
      ApplyAtUnknown(Child(doc, tokens[0]).value, tokens[1..], op);
    }
  }

  /** A one-token operation on the mirror, as section 4 of RFC 6902
      describes it for a top-level member. */
  lemma ApplyMember(mirror: map<string, Value>, op: Op, k: string)
    requires Pointer(op.path) == Some([k])
    ensures op.op == "add" ==> Apply(mirror, op) == Normal(mirror[k := op.value])
    ensures op.op == "remove" ==> Apply(mirror, op) == if k in mirror then Normal(mirror - {k}) else Throw
    ensures op.op == "replace" ==> Apply(mirror, op) == if k in mirror then Normal(mirror[k := op.value]) else Throw
  {
  }

  /** Adding a key the mirror lacks and then removing it gives the mirror
      back. */
  lemma AddThenRemove(mirror: map<string, Value>, k: string, v: Value)
    requires forall i :: 0 <= i < |k| ==> k[i] != '/'
    requires k !in mirror
    ensures Apply(mirror, Op("add", "/" + k, v)).Normal?
    ensures Apply(Apply(mirror, Op("add", "/" + k, v)).value, Op("remove", "/" + k, Null)) == Normal(mirror)
  {
    PointerOfKey(k);
    ApplyMember(mirror, Op("add", "/" + k, v), k);
    ApplyMember(mirror[k := v], Op("remove", "/" + k, Null), k);
    assert mirror[k := v] - {k} == mirror;
  }

  /** The outcome of a batch: the mirror as the operations left it, and
      whether one of them failed. */
  datatype Applied = Applied(mirror: map<string, Value>, failed: bool)

  /** A batch applied in order, each operation to the result of the one
      before. The first failure stops the batch; the operations before it
      stay applied (nothing is rolled back). */
  function ApplyAll(mirror: map<string, Value>, ops: seq<Op>): (r: Applied)
    ensures ops == [] ==> r == Applied(mirror, false)
    decreases |ops|
  {
    if ops == [] then Applied(mirror, false)
    else
      match Apply(mirror, ops[0])
      case Throw => Applied(mirror, true)
      case Normal(next) => ApplyAll(next, ops[1..])
  }

  /** A batch that went through, followed by more operations, is the same
      as the whole batch. */
  lemma {:induction false} ApplyAllAppend(mirror: map<string, Value>, ops: seq<Op>, more: seq<Op>)
    requires !ApplyAll(mirror, ops).failed
    ensures ApplyAll(mirror, ops + more) == ApplyAll(ApplyAll(mirror, ops).mirror, more)
    decreases |ops|
  {
    if ops != [] {
      assert (ops + more)[0] == ops[0];
      assert (ops + more)[1..] == ops[1..] + more;
      ApplyAllAppend(Apply(mirror, ops[0]).value, ops[1..], more);
    } else {
      assert ops + more == more;
    }
  }

  /** A failed batch failed at some operation `n`: the operations before it
      went through, operation `n` itself failed on their result, and the
      mirror is left as those earlier operations made it. */
  lemma {:induction false} FailedAt(mirror: map<string, Value>, ops: seq<Op>) returns (n: nat)
    requires ApplyAll(mirror, ops).failed
    ensures n < |ops|
    ensures !ApplyAll(mirror, ops[..n]).failed
    ensures Apply(ApplyAll(mirror, ops[..n]).mirror, ops[n]).Throw?
    ensures ApplyAll(mirror, ops).mirror == ApplyAll(mirror, ops[..n]).mirror
    decreases |ops|
  {
    match Apply(mirror, ops[0])
    case Throw =>
      n := 0;
      assert ops[..0] == [];
    case Normal(next) =>
      var m := FailedAt(next, ops[1..]);
      n := m + 1;
      assert ops[..n][0] == ops[0];
      assert ops[..n][1..] == ops[1..][..m];
  }

  /** Whether an operation's path starts at member `k` of the mirror. */
  predicate Touches(op: Op, k: string)
  {
    Pointer(op.path).Some? && |Pointer(op.path).value| >= 1 && Pointer(op.path).value[0] == k
  }

  /** A member no operation of the batch touches is left as it was. */
  lemma {:induction false} UntouchedKept(mirror: map<string, Value>, ops: seq<Op>, k: string)
    requires forall i :: 0 <= i < |ops| ==> !Touches(ops[i], k)
    ensures var after := ApplyAll(mirror, ops).mirror;
      (k in after <==> k in mirror) && (k in mirror ==> after[k] == mirror[k])
    decreases |ops|
  {
    if ops != [] {
      match Apply(mirror, ops[0])
      case Throw =>
      case Normal(next) =>
        assert !Touches(ops[0], k);
        if Pointer(ops[0].path).value != [] {
          var t := Pointer(ops[0].path).value[0];
          assert next - {t} == mirror - {t};
          assert k in next <==> k in next - {t};
          assert k in mirror <==> k in mirror - {t};
        }
        assert forall i :: 0 <= i < |ops[1..]| ==> !Touches(ops[1..][i], k) by {
          forall i | 0 <= i < |ops[1..]|
            ensures !Touches(ops[1..][i], k)
          {
            assert ops[1..][i] == ops[i + 1];
          }
        }
        UntouchedKept(next, ops[1..], k);
    }
  }
}

=== FILE: numerals.dfy ===
/** Positional numerals: how a natural number is written in base 2..16 with the
    lower-case digits JavaScript's `Number.prototype.toString(radix)` uses, and
    how such a digit string is read back. */
module Numerals {

  /** The digit character for a digit value below 16. */
  function DigitChar(d: nat): (c: char)
    requires d < 16
    ensures IsDigitOf(c, d + 1)
  {
    if d < 10 then ('0' as int + d) as char else ('a' as int + d - 10) as char
  }

  /** True iff `c` is a digit of `base` ('0'..'9', then 'a'..'f'). */
  predicate IsDigitOf(c: char, base: nat)
  {
    || ('0' <= c <= '9' && (c as int - '0' as int) < base)
    || ('a' <= c <= 'f' && (c as int - 'a' as int) + 10 < base)
  }

  predicate IsDecimalDigit(c: char)
  {
    '0' <= c <= '9'
  }

  predicate AllDigitsOf(s: string, base: nat)
  {
    forall i :: 0 <= i < |s| ==> IsDigitOf(s[i], base)
  }

  function DigitValue(c: char): (d: nat)
    requires IsDigitOf(c, 16)
    ensures d < 16
  {
    if '0' <= c <= '9' then c as int - '0' as int else c as int - 'a' as int + 10
  }

  lemma DigitValueOfChar(d: nat)
    requires d < 16
    ensures DigitValue(DigitChar(d)) == d
  {
  }

  lemma DigitOfSmallerBase(c: char, base: nat)
    requires IsDigitOf(c, base) && base <= 16
    ensures IsDigitOf(c, 16) && DigitValue(c) < base
  {
  }

  lemma DivModFacts(n: nat, base: nat)
    requires 2 <= base <= n
    ensures 0 <= n % base < base
    ensures 1 <= n / base < n
    ensures n == (n / base) * base + n % base
  {
  }

  /** `n.toString(base)`: most significant digit first, no leading zero. */
  function Show(n: nat, base: nat): (s: string)
    requires 2 <= base <= 16
    ensures |s| >= 1
    ensures AllDigitsOf(s, base)
    ensures s[0] == '0' ==> n == 0 && |s| == 1
    decreases n
  {
    if n < base then [DigitChar(n)]
    else
      DivModFacts(n, base);
      var head := Show(n / base, base);
      var last := DigitChar(n % base);
      assert IsDigitOf(last, base);
      head + [last]
  }

  /** The value of a digit string in `base`; the empty string reads as 0. */
  function Read(s: string, base: nat): nat
    requires 2 <= base <= 16
    requires AllDigitsOf(s, base)
  {
    if s == [] then 0
    else
      DigitOfSmallerBase(s[|s| - 1], base);
      Read(s[..|s| - 1], base) * base + DigitValue(s[|s| - 1])
  }

  /** Reading back what `Show` wrote gives the number again. */
  lemma {:induction false} ReadShow(n: nat, base: nat)
    requires 2 <= base <= 16
    ensures Read(Show(n, base), base) == n
    decreases n
  {
    var s := Show(n, base);
    if n < base {
      DigitValueOfChar(n);
    } else {
      DivModFacts(n, base);
      ReadShow(n / base, base);
      DigitValueOfChar(n % base);
      assert s[..|s| - 1] == Show(n / base, base);
      assert s[|s| - 1] == DigitChar(n % base);
    }
  }

  /** Distinct numbers are written differently in any base. */
  lemma ShowInjective(a: nat, b: nat, base: nat)
    requires 2 <= base <= 16
    requires Show(a, base) == Show(b, base)
    ensures a == b
  {
    ReadShow(a, base);
    ReadShow(b, base);
  }

  /** Decimal rendering of a natural number (`String(n)` for integers). */
  function Decimal(n: nat): (s: string)
    ensures |s| >= 1 && AllDigitsOf(s, 10)
  {
    Show(n, 10)
  }

  /** Decimal rendering of a signed integer, with a leading '-' when negative. */
  function IntText(i: int): (s: string)
    ensures |s| >= 1
    ensures s[0] == '-' <==> i < 0
  {
    if i < 0 then "-" + Decimal(-i) else Decimal(i)
  }

  /** A canonical array index in text: decimal digits without a leading zero. */
  predicate IsIndexText(s: string)
  {
    |s| >= 1 && AllDigitsOf(s, 10) && (s[0] == '0' ==> |s| == 1)
  }

  lemma DecimalIsIndexText(n: nat)
    ensures IsIndexText(Decimal(n))
    ensures Read(Decimal(n), 10) == n
  {
    ReadShow(n, 10);
  }
}

=== FILE: optional.dfy ===
/** The optional value used wherever the source has "a value, or nothing". */
module Optional {
  datatype Option<+T> = None | Some(value: T)
}

=== FILE: relay.dfy ===
/** The relay control of src/Relay.js: its constructor, the icon it shows
    for the relay state, the pop-up's state line, and the command its
    switch button sends. */
module Relay {
  import opened Optional
  import opened Strings
  import opened Js
  import opened Utils
  import opened Duration
  import opened Control
  import DurationRoundTrip

  /** Relay modules have channels 1 to 5. */
  const Channels: int := 5

  /** The state a relay starts with, before any update. */
  const Initial: map<string, Value> := map["relay" := Bool(false)]

  /** The constructor: the address guard with channels 1..5, then the icon
      set, "light" by default. */
  function Construct(props: map<string, Value>): (r: Completion<Icon>)
    ensures r.Normal? <==>
      AddressAccepted(props, "address", 1, Channels) && DefaultValue(Field(props, "icon"), Str("light")).Str?
    ensures r.Normal? ==> r.value == IconParts(Field(props, "icon"), "light").value
    ensures && "icon" !in props && "address" in props && props["address"].Arr?
            && |props["address"].items| == 2 && props["address"].items[1].Num?
            ==> r == (if 1 <= props["address"].items[1].n <= Channels then Normal(Icon("light", "svg")) else Throw)
  {
    TypicalConstruct(props, Channels, "light");
    ConstructControl(props, Channels, "light")
  }

  /** The image state of the icon: "on" or "off" for a boolean relay,
      "timer" for a number (the time a timed switch ends), none for
      anything else (the URL then reads "undefined"). */
  function IconState(relay: Value): (r: Option<string>)
    ensures r == Some("on") <==> relay == Bool(true)
    ensures r == Some("off") <==> relay == Bool(false)
    ensures r == Some("timer") <==> relay.Num?
    ensures r.None? <==> !(relay.Bool? || relay.Num?)
  {
    match relay
    case Bool(b) => Some(if b then "on" else "off")
    case Num(_) => Some("timer")
    case _ => None
  }

  /** The icon follows the module: after an update whose channel state sets
      `relay` to a boolean or a number, the icon shows on, off or timer. */
  lemma UpdateShowsOnIcon(state: map<string, Value>, address: Value, newState: Value, relay: Value)
    requires IsObjectLike(address) && newState.Obj?
    requires ToText(ChannelNumber(address)) in newState.fields
    requires var mine := newState.fields[ToText(ChannelNumber(address))];
      mine.Obj? && "relay" in mine.fields && mine.fields["relay"] == relay
    ensures var r := Receive(state, address, "relay", newState);
      && r.Normal? && r.value.fetch.None? && r.value.state.Normal?
      && IconState(Field(r.value.state.value, "relay")) == IconState(relay)
  {
  }

  /** The "Current state" line of the pop-up at time `now`: "on"/"off", or
      for a timed switch "on for" the time left; nothing new for any other
      value. A timer already past shows a negative time. */
  function StateText(relay: Value, now: int): (r: Option<string>)
    ensures r.Some? <==> relay.Bool? || relay.Num?
    ensures relay.Bool? ==> r == Some(if relay.b then "on" else "off")
    ensures relay.Num? ==>
      && |r.value| > 7 && r.value[..7] == "on for "
      && (r.value[7] == '-' <==> relay.n < now)
    ensures relay.Num? ==> ParseDurationText(r.value[7..]) == Some(Abs(relay.n - now))
  {
    match relay
    case Bool(b) => Some(if b then "on" else "off")
    case Num(t) =>
      TimeLeftText(t - now);
      Some("on for " + SecondsToDhms(t - now))
    case _ => None
  }

  /** The text of a timed switch with `left` seconds to go: the prefix,
      then the formatted time, which parses back to its magnitude. */
  lemma TimeLeftText(left: int)
    ensures var text := "on for " + SecondsToDhms(left);
      && |text| > 7 && text[..7] == "on for " && text[7..] == SecondsToDhms(left)
      && (text[7] == '-' <==> left < 0)
      && ParseDurationText(text[7..]) == Some(Abs(left))
  {
    var shown := SecondsToDhms(left);
    var text := "on for " + shown;
    assert text[7..] == shown;
    assert text[..7] == "on for ";
    assert text[7] == shown[0];
    DurationRoundTrip.ParseFormatted(left);
  }

  /** `switch_relay`: the body of the PUT request, the desired timeout when
      one was entered, else the negation of the current relay value. */
  function SwitchTarget(desiredTimeout: Option<nat>, relay: Value): (body: Value)
    ensures desiredTimeout.Some? ==> body == Num(desiredTimeout.value)
    ensures desiredTimeout.None? ==> body.Bool? && (body.b <==> !Truthy(relay))
  {
    match desiredTimeout
    case Some(t) => Num(t)
    case None => Bool(!Truthy(relay))
  }

  /** Without a timeout the switch toggles: switching twice returns a
      boolean relay to where it was, and a running timer is switched off. */
  lemma SwitchToggles(b: bool, t: int)
    ensures SwitchTarget(None, SwitchTarget(None, Bool(b))) == Bool(b)
    ensures t != 0 ==> SwitchTarget(None, Num(t)) == Bool(false)
  {
  }

  /** The request `switch_relay` sends: a PUT of the relay field of this
      control's own module and channel. */
  function SwitchRequest(address: Value, desiredTimeout: Option<nat>, relay: Value): (r: Request)
    requires IsObjectLike(address)
    ensures r.verb == "PUT" && r.field == "relay"
    ensures r.unit == ModuleOf(address) && r.channel == ChannelNumber(address)
    ensures r.body == Some(SwitchTarget(desiredTimeout, relay))
  {
    Request("PUT", ModuleOf(address), ChannelNumber(address), "relay", Some(SwitchTarget(desiredTimeout, relay)))
  }
}

=== FILE: relaydali.dfy ===
/** The relay with a DALI light of src/RelayDali.js: a relay control that
    also names a DALI address, which its dim slider commands. */
module RelayDali {
  import opened Optional
  import opened Js
  import opened Control
  import Relay

  /** DALI numbers run from 1 to 96. */
  const DaliNumbers: int := 96

  /** The constructor: everything the relay constructor checks, then the
      guard on `props.dali_address` with DALI numbers 1..96. */
  function Construct(props: map<string, Value>): (r: Completion<Icon>)
    ensures r.Normal? <==> Relay.Construct(props).Normal? && AddressAccepted(props, "dali_address", 1, DaliNumbers)
    ensures r.Normal? ==> r == Relay.Construct(props)
    ensures "dali_address" !in props ==> r.Throw?
    ensures && Relay.Construct(props).Normal? && "dali_address" in props && props["dali_address"].Arr?
            && |props["dali_address"].items| == 2 && props["dali_address"].items[1].Num?
            ==> (r.Normal? <==> 1 <= props["dali_address"].items[1].n <= DaliNumbers)
  {
    GuardOnArrays(props, "dali_address", 1, DaliNumbers);
    match Relay.Construct(props)
    case Throw => Throw
    case Normal(icon) => if AddressAccepted(props, "dali_address", 1, DaliNumbers) then Normal(icon) else Throw
  }

  /** `changeDimvalue`: the slider's value is PUT to the dim value of the
      DALI module and number, not to the relay's own address. */
  function DimRequest(props: map<string, Value>, desired: Value): (r: Request)
    requires Construct(props).Normal?
    ensures r.verb == "PUT" && r.field == "dimvalue" && r.body == Some(desired)
    ensures Get(props["dali_address"], "0") == Normal(r.unit)
    ensures Get(props["dali_address"], "1") == Normal(r.channel)
  {
    var dali := props["dali_address"];
    Request("PUT", ModuleOf(dali), ChannelNumber(dali), "dimvalue", Some(desired))
  }

  /** The two buttons of the pop-up reach two different places: the switch
      writes the relay of `address`, the slider the dim value of
      `dali_address`, even when both addresses are the same. */
  lemma SwitchAndSliderDiffer(props: map<string, Value>, desired: Value, timeout: Option<nat>, relay: Value)
    requires Construct(props).Normal?
    ensures var dim := DimRequest(props, desired);
      var switch := Relay.SwitchRequest(props["address"], timeout, relay);
      && dim.field != switch.field
      && Get(props["address"], "1") == Normal(switch.channel)
      && Get(props["dali_address"], "1") == Normal(dim.channel)
  {
    assert "dimvalue"[0] != "relay"[0];
  }
}

=== FILE: routing.dfy ===
/** The `activeElement` path that says which pop-up is open, shared by
    src/App.js and src/FloorMap.js: a child reports the path of its own
    open descendant with its index in front, and a parent hands each child
    the rest of the path when the path starts with that child's index.
    `null` (no pop-up open) is `None`. */
module Routing {
  import opened Optional
  import opened Js

  /** `activateChild(event, index, subindices = [])`: `subindices` (the
      empty path when not given) with `index` put in front. */
  function Prefixed(index: Value, sub: Option<seq<Value>>): (path: seq<Value>)
    ensures |path| >= 1 && path[0] == index
    ensures sub.Some? ==> path[1..] == sub.value
    ensures sub.None? ==> path == [index]
  {
    [index] + match sub case Some(s) => s case None => []
  }

  /** Indices are array positions or property names: numbers and strings,
      for which `===` is equality of values. */
  predicate IsIndex(index: Value)
  {
    index.Num? || index.Str?
  }

  /** What a parent passes to its child `index`: `activeElement.slice(1)`
      when `activeElement[0] === index`, `null` otherwise, and `null` to
      every child when its own path is `null`. The element 0 of an empty
      path is `undefined`, which equals no index. */
  function Route(active: Option<seq<Value>>, index: Value): (r: Option<seq<Value>>)
    requires IsIndex(index)
    ensures r.Some? <==> active.Some? && |active.value| >= 1 && active.value[0] == index
    ensures r.Some? ==> r.value == active.value[1..]
  {
    match active
    case None => None
    case Some(path) =>
      var first := if |path| >= 1 then path[0] else Undefined;
      if first == index then Some(path[1..]) else None
  }

  /** The round trip: the path child `index` reports for `sub` comes back
      to that child as `sub` (the empty path when not given), and to no
      other child. */
  lemma RouteOfPrefixed(index: Value, sub: Option<seq<Value>>, other: Value)
    requires IsIndex(index) && IsIndex(other)
    ensures Route(Some(Prefixed(index, sub)), index) == Some(match sub case Some(s) => s case None => [])
    ensures other != index ==> Route(Some(Prefixed(index, sub)), other).None?
  {
  }

  /** The converse: a child handed a path got it from the path made by
      prefixing its index. */
  lemma PrefixedOfRoute(active: Option<seq<Value>>, index: Value)
    requires IsIndex(index)
    ensures Route(active, index).Some? ==> active == Some(Prefixed(index, Route(active, index)))
  {
    if Route(active, index).Some? {
      var path := active.value;
      assert path == [path[0]] + path[1..];
    }
  }

  /** At most one child of a parent gets a path. */
  lemma AtMostOneRoute(active: Option<seq<Value>>, i: Value, j: Value)
    requires IsIndex(i) && IsIndex(j)
    requires Route(active, i).Some? && Route(active, j).Some?
    ensures i == j
  {
  }

  /** The empty path, the App's first state, opens nothing; neither does
      `null`. */
  lemma EmptyPathOpensNothing(index: Value)
    requires IsIndex(index)
    ensures Route(Some([]), index).None?
    ensures Route(None, index).None?
  {
  }
}

=== FILE: strings.dfy ===
/** JavaScript's `String.prototype.split` with a string separator and
    `Array.prototype.join`, on strings as sequences of characters. */
module Strings {
  import opened Optional

  /** True iff `sep` occurs in `s` starting at position `i`. */
  predicate OccursAt(s: string, sep: string, i: nat)
  {
    i + |sep| <= |s| && s[i..i + |sep|] == sep
  }

  /** True iff `sep` occurs anywhere in `s`. */
  predicate Contains(s: string, sep: string)
  {
    exists i: nat | i <= |s| :: OccursAt(s, sep, i)
  }

  /** The first position at or after `from` where `sep` occurs, if any. */
  function IndexOf(s: string, sep: string, from: nat): (r: Option<nat>)
    ensures r.Some? ==> from <= r.value && OccursAt(s, sep, r.value)
    ensures r.Some? ==> forall j: nat :: from <= j < r.value ==> !OccursAt(s, sep, j)
    ensures r.None? ==> forall j: nat :: from <= j ==> !OccursAt(s, sep, j)
    decreases |s| - from
  {
    if from + |sep| > |s| then None
    else if OccursAt(s, sep, from) then Some(from)
    else IndexOf(s, sep, from + 1)
  }

  /** `parts.join(sep)`. */
  function Join(parts: seq<string>, sep: string): string
  {
    if |parts| == 0 then ""
    else if |parts| == 1 then parts[0]
    else parts[0] + sep + Join(parts[1..], sep)
  }

  /** `s.split(sep)`: the pieces between the occurrences of `sep`, found from
      the left; an empty separator splits into single characters. */
  function Split(s: string, sep: string): (pieces: seq<string>)
    ensures |sep| > 0 ==> |pieces| >= 1
    ensures Join(pieces, sep) == s
    ensures |sep| > 0 ==> forall k :: 0 <= k < |pieces| ==> !Contains(pieces[k], sep)
    decreases |s|
  {
    if |sep| == 0 then Chars(s)
    else
      match IndexOf(s, sep, 0)
      case None => [s]
      case Some(i) =>
        var rest := Split(s[i + |sep|..], sep);
        FirstPieceFree(s, sep, i);
        assert s == s[..i] + sep + s[i + |sep|..];
        [s[..i]] + rest
  }

  /** Splitting on the empty separator: one piece per character. */
  function Chars(s: string): (pieces: seq<string>)
    ensures |pieces| == |s|
    ensures Join(pieces, "") == s
    ensures forall k :: 0 <= k < |pieces| ==> pieces[k] == [s[k]]
  {
    if s == [] then []
    else
      var rest := Chars(s[1..]);
      assert [s[0]] + Join(rest, "") == s;
      [[s[0]]] + rest
  }

  /** The text before the first occurrence of `sep` does not contain `sep`. */
  lemma FirstPieceFree(s: string, sep: string, i: nat)
    requires |sep| > 0 && OccursAt(s, sep, i)
    requires forall j: nat :: j < i ==> !OccursAt(s, sep, j)
    ensures !Contains(s[..i], sep)
  {
    if Contains(s[..i], sep) {
      var j: nat :| j <= i && OccursAt(s[..i], sep, j);
      assert j + |sep| <= i;
      assert s[j..j + |sep|] == s[..i][j..j + |sep|];
      assert OccursAt(s, sep, j);
    }
  }

  /** Joining a sequence cut in two is joining the two joins. */
  lemma {:induction false} JoinSplitAt(parts: seq<string>, sep: string, k: nat)
    requires 1 <= k < |parts|
    ensures Join(parts, sep) == Join(parts[..k], sep) + sep + Join(parts[k..], sep)
    decreases k
  {
    if k == 1 {
      assert parts[..1] == [parts[0]];
      assert parts[1..] == parts[k..];
    } else {
      JoinSplitAt(parts[1..], sep, k - 1);
      assert parts[1..][..k - 1] == parts[..k][1..];
      assert parts[1..][k - 1..] == parts[k..];
    }
  }

  /** A text that starts with the separator splits into an empty piece
      followed by the pieces of the rest. */
  lemma SplitAfterLeadingSeparator(s: string, sep: string)
    requires |sep| > 0 && OccursAt(s, sep, 0)
    ensures Split(s, sep) == [""] + Split(s[|sep|..], sep)
  {
    assert IndexOf(s, sep, 0) == Some(0);
    assert s[..0] == "";
  }

  /** A text without the separator is one piece. */
  lemma SplitWithoutSeparator(s: string, sep: string)
    requires |sep| > 0 && !Contains(s, sep)
    ensures Split(s, sep) == [s]
  {
    if IndexOf(s, sep, 0).Some? {
      assert false;
    }
  }

  /** A one-character separator occurs in a text exactly when the text has
      that character somewhere. */
  lemma ContainsChar(w: string, c: char)
    ensures Contains(w, [c]) <==> exists i :: 0 <= i < |w| && w[i] == c
  {
    if Contains(w, [c]) {
      var i: nat :| i <= |w| && OccursAt(w, [c], i);
      assert w[i..i + 1][0] == w[i];
    }
    if exists i :: 0 <= i < |w| && w[i] == c {
      var i :| 0 <= i < |w| && w[i] == c;
      assert w[i..i + 1] == [c];
      assert OccursAt(w, [c], i);
    }
  }
}

=== FILE: timeoutinput.dfy ===
/** The duration text box of src/TimeoutInput.js: what each edit stores,
    the value it passes on, and the CSS class that shows its validity. */
module TimeoutInput {
  import opened Optional
  import opened Js
  import opened Duration
  import opened DurationRoundTrip

  /** The component's state: the text as typed, and `valid`, which is
      `null` (`None`) for an empty text. */
  datatype InputState = InputState(value: string, valid: Option<bool>)

  const Initial: InputState := InputState("", None)

  /** The outcome of one edit: the new state and the one value passed to
      the `onChange` prop (`null` or a number of seconds). */
  datatype Change = Change(state: InputState, emitted: Value)

  /** `onChange(event)` for the new text: an empty text is neither valid
      nor invalid and passes `null`; a text with a duration in it is valid
      and passes its seconds; any other text (parsing throws) is invalid and
      passes `null`. The text is kept as typed in every case. */
  function OnChange(text: string): (r: Change)
    ensures r.state.value == text
    ensures text == "" ==> r == Change(InputState(text, None), Null)
    ensures text != "" && ParseDurationText(text).Some? ==>
      r == Change(InputState(text, Some(true)), Num(ParseDurationText(text).value))
    ensures text != "" && ParseDurationText(text).None? ==>
      r == Change(InputState(text, Some(false)), Null)
  {
    if text == "" then Change(InputState(text, None), Null)
    else
      match ParseDuration(Str(text))
      case Normal(seconds) =>
        if ToNumber(seconds).None? then Change(InputState(text, Some(false)), Null)
        else Change(InputState(text, Some(true)), seconds)
      case Throw => Change(InputState(text, Some(false)), Null)
  }

  /** The validity part of the class name. */
  function ValidityClass(valid: Option<bool>): (c: string)
    ensures c == "empty" <==> valid.None?
    ensures c == "valid" <==> valid == Some(true)
    ensures c == "invalid" <==> valid == Some(false)
  {
    match valid
    case None => "empty"
    case Some(true) => "valid"
    case Some(false) => "invalid"
  }

  /** The box's class, `timeoutinput <validity>`. */
  function ClassName(s: InputState): string
  {
    "timeoutinput " + ValidityClass(s.valid)
  }

  /** The class shows what was passed on: "valid" exactly when a number of
      seconds was, "empty" exactly for an empty text, and "invalid" when
      the text holds no duration. */
  lemma ClassMatchesEmitted(text: string)
    ensures var c := OnChange(text);
      && (ValidityClass(c.state.valid) == "valid" <==> c.emitted.Num?)
      && (ValidityClass(c.state.valid) == "empty" <==> text == "")
      && (ValidityClass(c.state.valid) == "invalid" <==> text != "" && Tokens(text) == [])
      && (c.emitted.Num? || c.emitted.Null?)
  {
  }

  /** Typing back what the pop-ups display as a duration passes on its
      number of seconds (the magnitude, for a negative one). */
  lemma DisplayedDurationAccepted(n: int)
    ensures OnChange(SecondsToDhms(n)) == Change(InputState(SecondsToDhms(n), Some(true)), Num(Abs(n)))
  {
    ParseFormatted(n);
  }

  /** Words without a count are refused. */
  lemma WordsAreInvalid()
    ensures OnChange("soon") == Change(InputState("soon", Some(false)), Null)
  {
  }
}

=== FILE: utils.dfy ===
/** The general helpers of src/utils.js: `default_value`, `shallow_copy` and
    `String.prototype.rsplit`. The duration codec of the same file is in
    module Duration. */
module Utils {
  import opened Js
  import opened Strings
  import opened Numerals

  /** `default_value(value, fallback)`: the value itself unless it is
      `undefined` (a `null` value is kept). */
  function DefaultValue(value: Value, fallback: Value): (r: Value)
    ensures !value.Undefined? ==> r == value
    ensures r.Undefined? <==> value.Undefined? && fallback.Undefined?
    ensures r == value || r == fallback
  {
    if value != Undefined then value else fallback
  }

  /** Defaulting twice with the same fallback is defaulting once. */
  lemma DefaultValueIdempotent(value: Value, fallback: Value)
    ensures DefaultValue(DefaultValue(value, fallback), fallback) == DefaultValue(value, fallback)
  {
  }

  /** `shallow_copy(obj)`: a fresh object holding exactly the own enumerable
      properties of `obj`, with the same (not copied) values. */
  function ShallowCopy(obj: Value): (r: Value)
    ensures r.Obj?
    ensures forall k :: k in r.fields ==> Get(obj, k) == Normal(r.fields[k])
    ensures obj.Obj? ==> r.fields.Keys == obj.fields.Keys
    ensures obj.Arr? ==> forall i :: 0 <= i < |obj.items| ==> Decimal(i) in r.fields
    ensures !(obj.Obj? || obj.Arr? || obj.Str?) ==> r.fields == map[]
  {
    var copy := Obj(OwnEntries(obj));
    assert forall k :: k in copy.fields ==> Get(obj, k) == Normal(copy.fields[k]) by {
      forall k | k in copy.fields
        ensures Get(obj, k) == Normal(copy.fields[k])
      {
        if obj.Arr? || obj.Str? {
          var i := IndexOfKey(k).value;
          assert k == Decimal(i);
          assert k != "length" by {
            assert IsIndexText(k) by { DecimalIsIndexText(i); }
          }
        }
      }
    }
    copy
  }

  /** Where `Array.prototype.slice` starts or ends for argument `i` on an
      array of length `len` (a negative argument counts from the end). */
  function SliceIndex(len: nat, i: int): (r: nat)
    ensures r <= len
    ensures 0 <= i ==> r == if i <= len then i else len
    ensures i < 0 ==> r == if len + i >= 0 then len + i else 0
  {
    if i < 0 then (if len + i < 0 then 0 else len + i)
    else if i > len then len
    else i
  }

  /** `s.rsplit(sep, maxsplit)`: split at the last `maxsplit` occurrences of
      `sep` only; a zero `maxsplit`, or one that is at least the number of
      pieces, is a plain split. */
  function RSplit(s: string, sep: string, maxsplit: int): (r: seq<string>)
    ensures Join(r, sep) == s
    ensures var pieces := Split(s, sep);
      maxsplit == 0 || maxsplit >= |pieces| ==> r == pieces
    ensures var pieces := Split(s, sep);
      0 < maxsplit < |pieces| ==>
        && |r| == maxsplit + 1
        && r[1..] == pieces[|pieces| - maxsplit..]
        && r[0] == Join(pieces[..|pieces| - maxsplit], sep)
  {
    var pieces := Split(s, sep);
    if maxsplit >= |pieces| then pieces
    else if maxsplit == 0 then pieces
    else
      var cut := SliceIndex(|pieces|, -maxsplit);
      RejoinAt(pieces, sep, cut);
      [Join(pieces[..cut], sep)] + pieces[cut..]
  }

  /** Joining the head of a cut as one piece in front of its tail restores
      the whole join. */
  lemma RejoinAt(pieces: seq<string>, sep: string, cut: nat)
    requires cut <= |pieces| && (1 <= cut || pieces == [])
    ensures Join([Join(pieces[..cut], sep)] + pieces[cut..], sep) == Join(pieces, sep)
  {
    var r := [Join(pieces[..cut], sep)] + pieces[cut..];
    if cut == |pieces| {
      assert pieces[..cut] == pieces;
    } else {
      JoinSplitAt(pieces, sep, cut);
      assert r[1..] == pieces[cut..];
    }
  }

  /** With a separator that does not occur, `rsplit` leaves the string whole. */
  lemma RSplitWithoutSeparator(s: string, sep: string, maxsplit: int)
    requires |sep| > 0 && !Contains(s, sep)
    ensures RSplit(s, sep, maxsplit) == [s]
  {
    assert IndexOf(s, sep, 0).None?;
  }
}
